=== FILE: README.md ===
# Financial-education platform: the state-transition core

The platform is a React single-page application over a hosted database. Its
Zustand stores cache courses, quizzes, diagrams, forum topics, resources,
notifications and the signed-in account. Around them sit a handful of
editors, filters and validators. This project models that layer and proves
what each step does to the state it owns:

- **Stores** become classes whose fields are the store's collections. Each
  action is a method. The reply of the remote call it makes (a row, a list or
  a thrown error) is a parameter of type `Remote<T>`, so every contract splits
  on success and failure. A thrown value is either an `Error` with a message
  or some other value. The message the store records is the error's own
  message or the action's fallback text (`Wrappers.Message`).
- **Records** (course, section, quiz, question, topic, post, reaction,
  resource, …) are datatypes holding the fields the code reads or writes. A
  `Partial<T>` patch holds one `Option` per field. A shallow merge
  `{ ...row, ...patch }` takes the patch's value where it has one.
- **Shared list rules** live in `Seqs`: `Filter`, `UpdateWhere` (the
  `map(x => x.id === id ? {...x, ...patch} : x)` rule), `RemoveWhere` (the
  `filter(x => x.id !== id)` rule), the splice move and a stable descending
  sort. `Grouping.GroupBy` is the `forEach` loop that regroups a flat list
  by a foreign key.
- **Components and pages** with local state (the quiz player, the quiz,
  course and diagram editors, the sign-in dialog, the resources page and the
  course form) are classes over that state. Their pure parts (filters,
  validators, the score) are functions with lemmas.
- **The route guard** of `App.tsx` is a predicate, a message choice and a
  route table.

The quiz score `Math.round(correct / n * 100)` is modelled exactly in
integers as round-half-up, `(200·correct + n) div 2n`, and as "no number"
when there is no question. The quiz editor's submit check follows the code.
It checks the questions one at a time: text, then correct answer, then the
option count. A later question's missing text is therefore reported only
after every problem of the earlier questions.

## Model

| member | source | states |
|---|---|---|
| Wrappers.Message | src/store/courseStore.ts:49-50 | the recorded message is the error's own message for an `Error`, and the action's fallback text otherwise |
| Wrappers.OrEmpty | src/store/courseStore.ts:286 | a reload that returned no data leaves the empty list, otherwise the data |
| Entities.CourseMergeLaws | src/store/courseStore.ts:160 | a shallow merge is idempotent, the empty patch changes nothing, a full patch replaces the row, and a patch without an id keeps the id |
| NotificationStore.UnreadCount | src/store/notificationStore.ts:34-39 | the unread count never exceeds the list length, and is 0 exactly when every notification is read |
| NotificationStore.FilterCountsUnread | src/store/notificationStore.ts:34-39 | `filter(n => !n.read).length` equals the number of unread notifications |
| NotificationStore.MarkRead | src/store/notificationStore.ts:56-61 | same length; exactly the notifications with the id become read, every other one is unchanged |
| NotificationStore.MarkReadCount | src/store/notificationStore.ts:56-61 | after marking, the unread notifications are exactly the unread ones with other ids |
| NotificationStore.MarkAllRead | src/store/notificationStore.ts:76-79 | same length and order, every notification read, unread count 0 |
| NotificationStore.Find | src/store/notificationStore.ts:94-95 | `find` gives nothing exactly when no notification has the id, otherwise a notification of the list with that id |
| NotificationStore.CountAfterDelete | src/store/notificationStore.ts:94-99 | the counter after a delete as written: kept if the found row was read, decremented if it was unread or if no row was found |
| NotificationStore.Store.constructor | src/store/notificationStore.ts:19-22 | empty list, counter 0, not loading, no error, and the counter agrees with the list |
| NotificationStore.Store.FetchNotifications | src/store/notificationStore.ts:24-45 | on success the list is the reply and the counter is its unread count; on failure both are kept and the error is recorded |
| NotificationStore.Store.MarkAsRead | src/store/notificationStore.ts:47-65 | on success the list is `MarkRead` of the old one and the counter is `CountAfterMark` of the old one, one less unconditionally; on failure nothing changes |
| NotificationStore.Store.MarkAllAsRead | src/store/notificationStore.ts:67-83 | on success every notification is read and the counter is 0 and correct; on failure nothing changes |
| NotificationStore.Store.DeleteNotification | src/store/notificationStore.ts:85-103 | on success every row with the id is gone and the counter is `CountAfterDelete`; on failure nothing changes |
| NotificationStore.Store.OnInsert | src/store/notificationStore.ts:116-122 | the new row goes first, the rest follow in order, the counter rises by 1, and ids are not de-duplicated |
| NotificationStore.InsertCount | src/store/notificationStore.ts:118-121 | the unread count of the new list is the old one plus 1 exactly when the inserted row is unread |
| NotificationStore.MarkAsReadEffect | src/store/notificationStore.ts:56-61 | marking lowers the true unread count by the number of unread rows with the id; the written rule agrees with it exactly when one unread row has the id |
| NotificationStore.MarkAsReadDrifts | src/store/notificationStore.ts:56-61 | marking a row that is already read leaves 0 unread rows while the written counter rule `CountAfterMark` turns the correct 0 into -1 |
| NotificationStore.MarkReadKeepsCounted | src/store/notificationStore.ts:56-61 | the intended counter update keeps the counter equal to the unread count |
| NotificationStore.DeleteAbsentDrifts | src/store/notificationStore.ts:94-99 | deleting an absent id turns a correct counter of 0 into -1 |
| NotificationStore.RemoveKeepsCounted | src/store/notificationStore.ts:94-99 | the intended counter update keeps the counter equal to the unread count after removal |
| NotificationStore.DeletePresentAgrees | src/store/notificationStore.ts:94-99 | with the id present on exactly one row, the written and the intended counter updates agree |
| Seqs.UpdateIf | src/store/courseStore.ts:162-164 | the open row (current course, topic, quiz or diagram) is merged with the patch exactly when its id matches; otherwise it is unchanged |
| Seqs.ClearIf | src/store/courseStore.ts:186 | the open row becomes null exactly when it had the id |
| Seqs.OpenRowFollowsList | src/store/courseStore.ts:158-186 | an open row that is listed stays listed after an update-by-id, and stays open after a delete-by-id exactly when it is still listed |
| CourseStore.Store.constructor | src/store/courseStore.ts:31-37 | empty collections, no current course, not loading, no error |
| CourseStore.Store.Finish | src/store/courseStore.ts:49-53 | the shared tail: on failure the message is recorded; loading ends false; the caches are untouched |
| CourseStore.Store.FetchCourses | src/store/courseStore.ts:39-54 | on success only `courses` changes, to the reply; on failure nothing but the error changes |
| CourseStore.Store.FetchCourse | src/store/courseStore.ts:56-72 | on success only `currentCourse` changes, to the reply; on failure nothing but the error changes |
| CourseStore.Store.FetchSections | src/store/courseStore.ts:74-90 | on success only `sections` changes; on failure nothing but the error changes |
| CourseStore.Store.FetchProgress | src/store/courseStore.ts:92-108 | on success only `progress` changes; on failure nothing but the error changes |
| CourseStore.Store.FetchReviews | src/store/courseStore.ts:110-126 | on success only `reviews` changes; on failure nothing but the error changes |
| CourseStore.Store.CreateCourse | src/store/courseStore.ts:128-146 | on success the returned row goes first and the earlier courses follow in order; the reply is re-thrown on failure with the error recorded |
| CourseStore.Store.UpdateCourse | src/store/courseStore.ts:148-172 | on success the courses with the id and a matching current course take the patch, nothing else changes; failure re-thrown |
| CourseStore.Store.DeleteCourse | src/store/courseStore.ts:174-194 | on success the courses with the id are filtered out and a matching current course is cleared; failure re-thrown |
| CourseStore.Store.CreateSection | src/store/courseStore.ts:196-218 | on success the sections are the reloaded list, or empty when the reload returned nothing; failure re-thrown |
| CourseStore.Store.UpdateSection | src/store/courseStore.ts:220-241 | on success only the sections with the id take the patch; failure re-thrown |
| CourseStore.Store.DeleteSection | src/store/courseStore.ts:243-262 | on success only the sections with the id are removed; failure re-thrown |
| CourseStore.Store.UpdateProgress | src/store/courseStore.ts:264-293 | without a current course it fails with "No current course" before any request; otherwise the progress is the reload, and a failure is recorded and re-thrown |
| CourseStore.Store.CreateReview | src/store/courseStore.ts:295-317 | on success the reviews are the reloaded list, or empty; failure re-thrown |
| CourseStore.Store.UpdateReview | src/store/courseStore.ts:319-340 | on success only the reviews with the id take the patch; failure re-thrown |
| CourseStore.Store.DeleteReview | src/store/courseStore.ts:342-361 | on success only the reviews with the id are removed; failure re-thrown |
| CourseStore.UpdateCourseFields | src/store/courseStore.ts:158-165 | after an update, a course with the id has exactly the patch's fields over its own, and every other course is unchanged |
| CourseStore.CreateThenDeleteCourse | src/store/courseStore.ts:138 | deleting the id of a course just prepended under a fresh id gives the old list back |
| CourseStore.DeleteAfterUpdateCourse | src/store/courseStore.ts:184-187 | deleting after updating the same id is deleting, when the patch keeps the id |
| CourseStore.UpdateCourseTwice | src/store/courseStore.ts:158-165 | applying the same patch twice is applying it once |
| ForumStore.PostIds | src/store/forumStore.ts:127 | the ids sent for the reactions are the posts' ids, in order |
| ForumStore.ReactionsOf | src/store/forumStore.ts:301 | `reactions[postId] \|\| []` |
| ForumStore.WithoutKind | src/store/forumStore.ts:319-324 | the post's reactions minus exactly those of the type, in order |
| ForumStore.Store.constructor | src/store/forumStore.ts:32-38 | empty categories, topics, posts and reaction groups, no current topic |
| ForumStore.Store.Finish | src/store/forumStore.ts:51-54 | the shared tail: on failure the message is recorded; loading ends false; the caches are untouched |
| ForumStore.Store.FetchCategories | src/store/forumStore.ts:40-55 | on success only `categories` changes; on failure nothing but the error changes |
| ForumStore.Store.FetchTopics | src/store/forumStore.ts:57-83 | on success only `topics` changes; on failure nothing but the error changes |
| ForumStore.Store.FetchTopic | src/store/forumStore.ts:85-108 | on success only `currentTopic` changes; on failure nothing but the error changes |
| ForumStore.Store.FetchReactions | src/store/forumStore.ts:136-157 | on success the groups have exactly the posts of the reply as keys, each holding that post's reactions in input order; a failure changes nothing |
| ForumStore.Store.FetchPosts | src/store/forumStore.ts:110-134 | the reactions are requested exactly when the fetched list is non-empty, for its ids; the posts are the reply |
| ForumStore.Store.CreateTopic | src/store/forumStore.ts:159-177 | on success the new topic goes first; failure re-thrown |
| ForumStore.Store.UpdateTopic | src/store/forumStore.ts:179-199 | on success the topics with the id and a matching current topic take the patch; failure re-thrown |
| ForumStore.Store.DeleteTopic | src/store/forumStore.ts:201-221 | on success the topics with the id go and a matching current topic is cleared; failure re-thrown |
| ForumStore.Store.CreatePost | src/store/forumStore.ts:223-244 | on success the new post goes last; failure re-thrown |
| ForumStore.Store.UpdatePost | src/store/forumStore.ts:246-265 | on success only the posts with the id take the patch; failure re-thrown |
| ForumStore.Store.DeletePost | src/store/forumStore.ts:267-286 | on success only the posts with the id are removed; failure re-thrown |
| ForumStore.Store.AddReaction | src/store/forumStore.ts:288-307 | on success the returned reaction is appended to the post's list, which is created if missing; other posts are unchanged |
| ForumStore.Store.RemoveReaction | src/store/forumStore.ts:309-328 | on success the post's reactions of the type go, its others stay in order, and other posts are unchanged |
| ForumStore.ReactionGroups | src/store/forumStore.ts:145-153 | every fetched reaction occurs in its own post's group as often as in the list and in no other group; no group is empty |
| ForumStore.RemoveAfterAdd | src/store/forumStore.ts:298-324 | removing a type right after adding a reaction of that type leaves the post's reactions without that type |
| ForumStore.RemoveReactionTwice | src/store/forumStore.ts:319-324 | removing the same type twice is removing it once |
| ForumStore.DeleteAfterUpdateTopic | src/store/forumStore.ts:189-214 | deleting after updating the same topic is deleting, when the patch keeps the id |
| ForumStore.CreateThenDeletePost | src/store/forumStore.ts:236 | deleting a post just appended under a fresh id gives the old list back |
| Grouping.GroupBy | src/store/forumStore.ts:145-153 | the `forEach` regrouping: the keys are exactly the keys of the items, and each group is the items with that key in input order |
| Grouping.GroupHoldsItems | src/store/resourceStore.ts:83-91 | grouping loses and duplicates nothing: each item sits in its own key's group as often as in the input, and in no other |
| Grouping.GroupsNonEmpty | src/store/resourceStore.ts:83-91 | a key exists only for a key some item has, and its group is non-empty |
| ResourceStore.TagsOf | src/store/resourceStore.ts:50 | absent relations give no tag; otherwise one tag per relation |
| ResourceStore.Flatten | src/store/resourceStore.ts:48-51 | a flattened row keeps every field and holds the tags of its relations |
| ResourceStore.FlattenAll | src/store/resourceStore.ts:48-51 | the rows are flattened one by one, in order |
| ResourceStore.FlattenKeepsRow | src/store/resourceStore.ts:48-51 | flattening loses nothing: the raw row is rebuilt from the result |
| ResourceStore.Relations | src/store/resourceStore.ts:122-126 | one relation row per tag, pairing the resource with the tag |
| ResourceStore.FindVote | src/store/resourceStore.ts:207 | the first vote of the type, or nothing exactly when there is none |
| ResourceStore.DecideVote | src/store/resourceStore.ts:206-209 | delete the vote `FindVote` finds among the resource's cached votes, or insert one of the type exactly when it finds none |
| ResourceStore.VoteTogglesByPresence | src/store/resourceStore.ts:207-227 | `vote` deletes exactly when a vote of that type is cached for the resource, and then the first such vote in the cached order; it inserts otherwise |
| ResourceStore.VoteAfterInsert | src/store/resourceStore.ts:207-231 | after an insert and the regrouping reload, the same vote call deletes |
| ResourceStore.Toggled | src/store/resourceStore.ts:241-264 | the id is removed if present and added if absent |
| ResourceStore.ToggleTwice | src/store/resourceStore.ts:241-264 | two toggles restore the set, other ids never change, and the id's membership flips |
| ResourceStore.Store.constructor | src/store/resourceStore.ts:24-29 | no resources, tags, votes or bookmarks |
| ResourceStore.Store.FetchResources | src/store/resourceStore.ts:31-59 | on success the resources are the flattened rows; on failure nothing but the error changes |
| ResourceStore.Store.FetchTags | src/store/resourceStore.ts:61-73 | on success only `tags` changes; a failure is only logged |
| ResourceStore.Store.FetchUserVotes | src/store/resourceStore.ts:75-95 | on success the votes are grouped by resource; a failure is only logged |
| ResourceStore.Store.FetchUserBookmarks | src/store/resourceStore.ts:97-109 | on success the bookmarks are exactly the fetched ids |
| ResourceStore.Store.CreateResource | src/store/resourceStore.ts:111-142 | the relations are inserted exactly when the insert worked and there are tags; the list is reloaded on success; failures recorded and re-thrown |
| ResourceStore.Store.UpdateResource | src/store/resourceStore.ts:144-181 | the relations are replaced exactly when the update worked and the patch carries tags; reload on success; failures recorded and re-thrown |
| ResourceStore.Store.DeleteResource | src/store/resourceStore.ts:183-202 | on success the resources with the id are removed and the rest keep their order |
| ResourceStore.Store.Vote | src/store/resourceStore.ts:204-236 | the request is the toggle decision on the cached votes; on success both lists are reloaded; a failure is swallowed and changes nothing |
| ResourceStore.Store.ToggleBookmark | src/store/resourceStore.ts:238-268 | on success the bookmark set is toggled at the id; a failure is swallowed and changes nothing |
| ResourceStore.VoteGroups | src/store/resourceStore.ts:83-91 | every fetched vote sits in its own resource's group exactly as often as in the list |
| Scoring.CorrectCount | src/store/quizStore.ts:249-254 | the number of correct answers is at most n; it is n exactly when all are right and 0 exactly when none is |
| Scoring.CountCorrect | src/components/QuizPlayer.tsx:60-66 | the counting loop computes `CorrectCount` |
| Scoring.DisplayedCount | src/components/QuizPlayer.tsx:94 | the count shown, `questions.filter(correct).length`, is the score's numerator |
| Scoring.OtherAnswersIgnored | src/store/quizStore.ts:250-254 | answers under ids no question has do not change the count |
| Scoring.RoundedPercent | src/store/quizStore.ts:256 | round-half-up of 100·c/n: 2n·r ≤ 200c + n < 2n·(r + 1); no number when n = 0 |
| Scoring.PercentBounds | src/store/quizStore.ts:249-256 | for 0 < n and c ≤ n the score lies in 0..100; all right gives 100, none right gives 0 |
| Scoring.FullMarksExact | src/components/QuizPlayer.tsx:67 | below 200 questions, 100 means every answer is right |
| Scoring.FullMarksWithAMistake | src/components/QuizPlayer.tsx:67 | with 200 questions, 199 right still rounds to 100 |
| Scoring.PercentMonotone | src/components/QuizPlayer.tsx:67 | more correct answers never give a lower score |
| QuizStore.Store.constructor | src/store/quizStore.ts:28-33 | empty lists, no current quiz |
| QuizStore.Store.Finish | src/store/quizStore.ts:47-50 | the shared tail: on failure the message is recorded; loading ends false |
| QuizStore.Store.FetchQuizzes | src/store/quizStore.ts:35-51 | on success only `quizzes` changes; on failure nothing but the error |
| QuizStore.Store.FetchQuiz | src/store/quizStore.ts:53-69 | on success only `currentQuiz` changes; on failure nothing but the error |
| QuizStore.Store.FetchQuestions | src/store/quizStore.ts:71-87 | on success only `questions` changes; on failure nothing but the error |
| QuizStore.Store.FetchAttempts | src/store/quizStore.ts:89-105 | on success only `attempts` changes; on failure nothing but the error |
| QuizStore.Store.CreateQuiz | src/store/quizStore.ts:107-125 | on success the returned quiz goes first; failure re-thrown |
| QuizStore.Store.UpdateQuiz | src/store/quizStore.ts:127-151 | on success the quizzes with the id and a matching current quiz take the patch; failure re-thrown |
| QuizStore.Store.DeleteQuiz | src/store/quizStore.ts:153-173 | on success the quizzes with the id go and a matching current quiz is cleared; failure re-thrown |
| QuizStore.Store.CreateQuestion | src/store/quizStore.ts:175-197 | on success the questions are the reload, or empty; failure re-thrown |
| QuizStore.Store.UpdateQuestion | src/store/quizStore.ts:199-220 | on success only the questions with the id take the patch; failure re-thrown |
| QuizStore.Store.DeleteQuestion | src/store/quizStore.ts:222-241 | on success only the questions with the id are removed; failure re-thrown |
| QuizStore.Store.SubmitAttempt | src/store/quizStore.ts:243-281 | the inserted row carries the score of the answers on the loaded questions; on success the attempts are the reload |
| QuizStore.SentScore | src/store/quizStore.ts:249-256 | the sent score lies in 0..100 when there is a question, and answers under other ids do not move it |
| WorkflowStore.Store.constructor | src/store/courseWorkflowStore.ts:19-22 | no pending course, not loading, no error |
| WorkflowStore.Store.FetchPendingCourses | src/store/courseWorkflowStore.ts:24-40 | on success the pending list is the reply; on failure it is kept and the error recorded |
| WorkflowStore.Store.SubmitForReview | src/store/courseWorkflowStore.ts:42-57 | sends the pending status and never changes the pending list; failure re-thrown |
| WorkflowStore.Store.Decide | src/store/courseWorkflowStore.ts:70-80 | on success the course leaves the pending list; on failure the list is kept, the error recorded and re-thrown |
| WorkflowStore.Store.ApproveCourse | src/store/courseWorkflowStore.ts:59-81 | sends the published status stamped with the current time (no rejection reason); on success the course leaves the pending list |
| WorkflowStore.Store.RejectCourse | src/store/courseWorkflowStore.ts:83-105 | sends the rejected status with the reason and no publication time; on success the course leaves the pending list |
| WorkflowStore.DecisionRemovesOnlyTheCourse | src/store/courseWorkflowStore.ts:72-74 | afterwards no pending course has the id, every other one is still there in order, and deciding again changes nothing |
| DiagramStore.Store.constructor | src/store/diagramStore.ts:19-23 | no diagrams, no current diagram |
| DiagramStore.Store.FetchDiagrams | src/store/diagramStore.ts:25-41 | on success only the list changes; on failure nothing but the error |
| DiagramStore.Store.FetchDiagram | src/store/diagramStore.ts:43-59 | on success only the current diagram changes; on failure nothing but the error |
| DiagramStore.Store.CreateDiagram | src/store/diagramStore.ts:61-79 | on success the returned diagram goes first; failure re-thrown |
| DiagramStore.Store.UpdateDiagram | src/store/diagramStore.ts:81-105 | on success the diagrams with the id and a matching current one take the patch; failure re-thrown |
| DiagramStore.Store.DeleteDiagram | src/store/diagramStore.ts:107-127 | on success the diagrams with the id go and a matching current one is cleared; failure re-thrown |
| DiagramStore.SaveShapes | src/store/diagramStore.ts:91-98 | saving the editor's shapes replaces exactly the shapes of the diagrams with the id |
| DiagramStore.DeleteAfterUpdateDiagram | src/store/diagramStore.ts:91-120 | deleting after updating the same diagram is deleting, when the patch keeps the id |
| GlobalStore.ToastIds | src/store/globalStore.ts:45-51 | the set of ids in use |
| GlobalStore.Store.constructor | src/store/globalStore.ts:29-34 | not loading, no error, dark mode on, sidebar closed, no toast |
| GlobalStore.Store.SetLoading | src/store/globalStore.ts:37 | only the loading flag changes |
| GlobalStore.Store.SetError | src/store/globalStore.ts:39 | only the error changes |
| GlobalStore.Store.ToggleDarkMode | src/store/globalStore.ts:41 | only the theme flag changes, to its negation |
| GlobalStore.Store.ToggleSidebar | src/store/globalStore.ts:43 | only the sidebar flag changes, to its negation |
| GlobalStore.Store.AddNotification | src/store/globalStore.ts:45-51 | one toast is appended under a fresh id; the others are unchanged |
| GlobalStore.Store.RemoveNotification | src/store/globalStore.ts:53-56 | the toasts with the id are removed and nothing else changes |
| GlobalStore.RemoveAbsentToast | src/store/globalStore.ts:53-56 | removing an id that is not shown is a no-op |
| GlobalStore.RemoveAddedToast | src/store/globalStore.ts:45-56 | removing a toast just added gives the old list back |
| AuthStore.PasswordIssues | src/store/authStore.ts:8-12 | a password passes iff it has at least 8 characters, an A-Z, an a-z and a 0-9; each rule's message occurs exactly when that rule fails |
| AuthStore.UsernameIssues | src/store/authStore.ts:13-16 | a username passes iff it has 3 to 20 characters, all in [a-z0-9_]; each rule's message occurs exactly when that rule fails |
| AuthStore.FirstPasswordIssue | src/store/authStore.ts:8-12 | the first reported issue is that of the earliest failing rule |
| AuthStore.Validate | src/store/authStore.ts:41-42 | the email is checked first, then each schema in order; nothing is reported exactly when all pass |
| AuthStore.FirstFailing | src/store/authStore.ts:41-42 | the issues of the first failing schema, or none exactly when every schema passes |
| AuthStore.Translate | src/store/authStore.ts:62-71 | a validation failure shows its first issue, the known provider message its French text, any other error its own message, anything else the generic text |
| AuthStore.Expect | src/store/authStore.ts:49-50 | an error reply is thrown, a missing user throws the action's message, otherwise the user |
| AuthStore.Store.constructor | src/store/authStore.ts:32-36 | no user, no profile, not loading, no error |
| AuthStore.Store.SignIn | src/store/authStore.ts:38-77 | the service is contacted iff email and password are valid; on success user and profile are set; otherwise they are kept and the translated message is recorded |
| AuthStore.Store.SignUp | src/store/authStore.ts:79-138 | the account is created iff email, password and username are valid and the username is free; a failed lookup, a failed account creation (or no user) and a failed profile insert are each the failure, and "User already registered" becomes "Cet email est déjà utilisé" |
| AuthStore.Store.SignOut | src/store/authStore.ts:140-152 | on success user and profile are cleared; on failure they are kept and the message recorded |
| AuthStore.Store.CheckAuth | src/store/authStore.ts:154-174 | with a session the user and profile are adopted; without one nothing changes; an error is recorded, never thrown |
| AuthStore.Store.ReplaceProfile | src/store/authStore.ts:176-220 | the shared shape of the two profile updates: refused with "Non authentifié" without a user, leaving loading alone |
| AuthStore.Store.UpdateProfile | src/store/authStore.ts:176-197 | refused without a user; on success the profile is the returned row |
| AuthStore.Store.UpdateAvatar | src/store/authStore.ts:199-220 | refused without a user; on success the profile is the returned row |
| AuthStore.Store.DeleteAccount | src/store/authStore.ts:222-239 | refused without a user; on success user and profile are cleared |
| AuthStore.SignInValidationMessage | src/store/authStore.ts:63-64 | a sign-in rejected by the schemas names the failing rule, email first |
| AuthModal.PasswordCriteria | src/components/AuthModal.tsx:45-52 | each of the four flags holds exactly when its rule holds |
| AuthModal.CriteriaMatchSchema | src/components/AuthModal.tsx:46-51 | all four flags hold exactly when the store's password schema passes |
| AuthModal.SignUpCheck | src/components/AuthModal.tsx:89-104 | the first failing check in order (empty name, short name, bad characters, mismatch, weak password) names the message; none exactly when all pass |
| AuthModal.LowercasedWord | src/components/AuthModal.tsx:225 | on lowercased input the dialog's character rule and the store's agree |
| AuthModal.DialogChecksAgainstStore | src/components/AuthModal.tsx:90-105 | a sign-up the dialog lets through passes the password schema, and the username schema exactly when it has at most 20 characters |
| AuthModal.Dialog.constructor | src/components/AuthModal.tsx:14-22 | the initial mode and empty fields |
| AuthModal.Dialog.SetUsername | src/components/AuthModal.tsx:225 | the field holds the lowercased input; nothing else changes |
| AuthModal.Dialog.ResetForm | src/components/AuthModal.tsx:68-77 | every field emptied, error cleared, not loading, mode kept |
| AuthModal.Dialog.ToggleMode | src/components/AuthModal.tsx:132-135 | the mode flips and the form is reset |
| AuthModal.Dialog.HandleSubmit | src/components/AuthModal.tsx:83-116 | in sign-up mode the store is asked iff every check passes; the dialog closes iff the store succeeded; otherwise the message is shown; the form fields and the show-password flags stay |
| QuizPlayer.IdsOf | src/components/QuizPlayer.tsx:36 | the set of the questions' ids |
| QuizPlayer.ResultsIffAllAnswered | src/components/QuizPlayer.tsx:36-37 | with distinct question ids, answering as many ids as questions means every question is answered |
| QuizPlayer.VerdictOf | src/components/QuizPlayer.tsx:80-86 | pass from 70, partial from 40, fail below |
| QuizPlayer.Player.constructor | src/components/QuizPlayer.tsx:19-23 | first question, no answer, no results, no error |
| QuizPlayer.Player.HandleAnswer | src/components/QuizPlayer.tsx:29-31 | only the current question's answer is set |
| QuizPlayer.Player.HandleNext | src/components/QuizPlayer.tsx:33-39 | before the last question the index advances by 1; on the last one the results show iff as many ids are answered as there are questions |
| QuizPlayer.Player.HandleSubmit | src/components/QuizPlayer.tsx:41-51 | the answers are handed over; a failure shows its message |
| QuizPlayer.Player.HandleRetry | src/components/QuizPlayer.tsx:53-58 | no answers, first question, no results, no error |
| QuizPlayer.Player.CalculateScore | src/components/QuizPlayer.tsx:60-68 | the score is the rounded percentage of correct answers, in 0..100, and its numerator is the count shown |
| QuizEditor.QuestionDraft.Merge | src/components/QuizEditor.tsx:41-45 | the patched fields take the patch's value, every other field is kept |
| QuizEditor.AddQuestion | src/components/QuizEditor.tsx:28-39 | one blank multiple-choice question with two options and position = old length is appended |
| QuizEditor.ChangeQuestion | src/components/QuizEditor.tsx:41-45 | only question i changes, by the merge |
| QuizEditor.DeleteQuestion | src/components/QuizEditor.tsx:47-49 | exactly position i goes; the others keep their order |
| QuizEditor.AddOption | src/components/QuizEditor.tsx:51-57 | a multiple-choice question gets one more option; other questions do not change |
| QuizEditor.ChangeOption | src/components/QuizEditor.tsx:59-66 | only option oi of a multiple-choice question changes |
| QuizEditor.DeleteOption | src/components/QuizEditor.tsx:68-74 | only option oi of a multiple-choice question goes |
| QuizEditor.OptionEdits | src/components/QuizEditor.tsx:51-74 | the options after an edit: one more at the end, one replaced, or one removed |
| QuizEditor.Renumber | src/components/QuizEditor.tsx:83 | every question's position becomes its index |
| QuizEditor.ReorderIsPermutation | src/components/QuizEditor.tsx:76-84 | a reorder keeps the same questions, and the moved one lands at the destination |
| QuizEditor.UnnumberedMove | src/components/QuizEditor.tsx:79-83 | moving commutes with dropping the numbers |
| QuizEditor.ReorderBack | src/components/QuizEditor.tsx:76-84 | the opposite reorder undoes a reorder |
| QuizEditor.QuestionProblem | src/components/QuizEditor.tsx:94-98 | text first, then the answer, then at least two options for multiple choice |
| QuizEditor.FirstProblem | src/components/QuizEditor.tsx:93-99 | the problem of the first question that has one; none exactly when no question has one |
| QuizEditor.SubmitProblem | src/components/QuizEditor.tsx:91-99 | the title first, then the questions in order |
| QuizEditor.Editor.constructor | src/components/QuizEditor.tsx:20-22 | the editor starts from the quiz and its questions, and keeps the opened quiz's id |
| QuizEditor.Editor.HandleQuizChange | src/components/QuizEditor.tsx:24-26 | only the quiz changes, by the merge |
| QuizEditor.Editor.HandleAddQuestion | src/components/QuizEditor.tsx:28-39 | the questions are `AddQuestion` of the old ones, under the id of the quiz the editor was opened on |
| QuizEditor.Editor.HandleDeleteQuestion | src/components/QuizEditor.tsx:47-49 | the questions are `DeleteQuestion` of the old ones |
| QuizEditor.Editor.HandleQuestionChange | src/components/QuizEditor.tsx:41-45 | the questions are `ChangeQuestion` of the old ones |
| QuizEditor.Editor.HandleDragEnd | src/components/QuizEditor.tsx:76-84 | no destination changes nothing; otherwise the move followed by renumbering |
| QuizEditor.Editor.HandleSubmit | src/components/QuizEditor.tsx:86-105 | saves iff no check fails; otherwise shows the first problem |
| CourseEditor.DragOverCompose | src/components/CourseEditor.tsx:46-57 | dragging over several sections in a row is one move from the start |
| CourseEditor.Editor.constructor | src/components/CourseEditor.tsx:20 | the given sections and no dragged index |
| CourseEditor.Editor.HandleAddSection | src/components/CourseEditor.tsx:22-29 | one section is appended with position = old length |
| CourseEditor.Editor.HandleDeleteSection | src/components/CourseEditor.tsx:31-34 | exactly index i is removed |
| CourseEditor.Editor.HandleSectionChange | src/components/CourseEditor.tsx:36-40 | only section i changes, by the merge |
| CourseEditor.Editor.HandleDragStart | src/components/CourseEditor.tsx:42-44 | the dragged index is set |
| CourseEditor.Editor.HandleDragOver | src/components/CourseEditor.tsx:46-57 | without a dragged index nothing changes; otherwise the dragged section moves to i, the sections are a permutation, and i is the new dragged index |
| CourseEditor.Editor.HandleDragEnd | src/components/CourseEditor.tsx:59-61 | the dragged index is cleared |
| CourseEditor.MoveKeepsNumbers | src/components/CourseEditor.tsx:50-56 | a move keeps the section's old position number, so it disagrees with its new place |
| DiagramEditor.RecordAsWritten | src/components/DiagramEditor.tsx:44-50 | the effect as written records only when the guard holds |
| DiagramEditor.Undo | src/components/DiagramEditor.tsx:52-57 | one step back when the index is above 0, otherwise nothing |
| DiagramEditor.Redo | src/components/DiagramEditor.tsx:59-64 | one step forward when there is a later entry, otherwise nothing |
| DiagramEditor.Step | src/components/DiagramEditor.tsx:44-64 | any event keeps the history well formed |
| DiagramEditor.Run | src/components/DiagramEditor.tsx:44-64 | any run of events keeps the history well formed |
| DiagramEditor.HistoryStaysEmpty | src/components/DiagramEditor.tsx:38-49 | from the initial history, no sequence of events records anything, so undo and redo never act |
| DiagramEditor.Record | src/components/DiagramEditor.tsx:46-49 | the intended recording: a new canvas (non-empty, not the entry on screen) is saved after the index, dropping the undone steps; any other canvas leaves the history alone |
| DiagramEditor.StepIntended | src/components/DiagramEditor.tsx:44-64 | the events with the intended recording, the effect following every undo and redo that acts, keep the history well formed |
| DiagramEditor.RunIntended | src/components/DiagramEditor.tsx:44-64 | any run of those events keeps the history well formed |
| DiagramEditor.EffectAfterUndoRedo | src/components/DiagramEditor.tsx:44-64 | the effect re-run by the `setShapes` of an undo or a redo records nothing: the step is exactly the index move |
| DiagramEditor.UndoRedoRoundTrip | src/components/DiagramEditor.tsx:44-64 | with the intended recording and the effect after every event, a new canvas is recorded (also from the empty history), nothing is left to redo, undo shows the canvas saved before, and redo brings back the history of the change |
| DiagramEditor.RedoAfterUndo | src/components/DiagramEditor.tsx:52-64 | redo undoes undo |
| DiagramEditor.UndoAfterRedo | src/components/DiagramEditor.tsx:52-64 | undo undoes redo |
| DiagramEditor.Editor.constructor | src/components/DiagramEditor.tsx:33-40 | the diagram's title, description and shapes; empty history at index -1 |
| DiagramEditor.Editor.RecordShapes | src/components/DiagramEditor.tsx:44-50 | the history is updated by the effect as written; no other field changes |
| DiagramEditor.Editor.HandleUndo | src/components/DiagramEditor.tsx:52-57 | the index steps back and the shapes become the previous entry when undo acts; no other field changes |
| DiagramEditor.Editor.HandleRedo | src/components/DiagramEditor.tsx:59-64 | the index steps forward and the shapes become the next entry when redo acts; no other field changes |
| DiagramEditor.Editor.SelectTool | src/components/DiagramEditor.tsx:37 | only the tool changes |
| DiagramEditor.Editor.HandleCanvasClick | src/components/DiagramEditor.tsx:66-89 | without a tool nothing changes; with one a 100×100 shape of that kind is appended at the point and selected; no other field changes |
| DiagramEditor.Editor.HandleShapeClick | src/components/DiagramEditor.tsx:91-94 | only the selection changes |
| DiagramEditor.Editor.HandleShapeDrag | src/components/DiagramEditor.tsx:96-106 | only the shapes with the id move to the point; no other field changes |
| DiagramEditor.Editor.SetTitle | src/components/DiagramEditor.tsx:33 | only the title changes |
| DiagramEditor.Editor.SetDescription | src/components/DiagramEditor.tsx:34 | only the description changes |
| DiagramEditor.Editor.HandleSubmit | src/components/DiagramEditor.tsx:108-123 | refused exactly when the title is empty; otherwise the diagram with the edited fields is saved; only the error message changes |
| DiagramEditor.DragNewShapeOnly | src/components/DiagramEditor.tsx:73-105 | dragging a freshly added shape moves it alone |
| TagPicker.ContentTypes | src/components/ResourceTagPicker.tsx:20 | exactly the tags named article, video, podcast, livre or outil, in order |
| TagPicker.Subjects | src/components/ResourceTagPicker.tsx:21 | exactly the other tags, in order |
| TagPicker.GroupsPartitionTags | src/components/ResourceTagPicker.tsx:19-22 | every tag lands in exactly one of the two groups |
| ResourcesPage.ToggleFlipsHighlight | src/pages/Resources.tsx:120-126 | a click on a tag flips whether the picker highlights it and leaves every tag with another id as it was |
| ResourcesPage.Listed | src/pages/Resources.tsx:84-103 | a resource is listed iff it matches the search and the tags; the list is a sub-multiset in input order |
| ResourcesPage.FilteredAndSorted | src/pages/Resources.tsx:84-118 | the result holds exactly the listed resources; 'popular', 'recent' and 'rating' sort them descending by helpfulness, date and net votes, stably; any other value keeps the filtered order |
| ResourcesPage.ShownFilters | src/pages/Resources.tsx:88-102 | the two filters, each skipped when inactive, give `Listed` |
| ResourcesPage.EmptySearchMatchesAll | src/pages/Resources.tsx:88 | an empty term matches every resource |
| ResourcesPage.ToggleTag | src/pages/Resources.tsx:120-126 | the tag is removed if selected and appended if not; others are unchanged |
| ResourcesPage.ToggleTagTwice | src/pages/Resources.tsx:120-126 | two toggles restore the selection |
| ResourcesPage.FormProblem | src/pages/Resources.tsx:59-61 | title, then url, then type, the first empty one names the message |
| ResourcesPage.Page.constructor | src/pages/Resources.tsx:30-43 | no tag selected, empty form |
| ResourcesPage.Page.HandleTagSelect | src/pages/Resources.tsx:120-126 | the selection is toggled |
| ResourcesPage.Page.HandleAddResource | src/pages/Resources.tsx:54-82 | the request is sent iff the form passes; on success the form is reset and closed |
| ForumPage.Listed | src/pages/Forum.tsx:48-71 | a topic is listed iff it is in the category, matches the search and has every selected tag; in input order |
| ForumPage.ByCategory | src/pages/Forum.tsx:52-54 | the category filter, skipped without a category |
| ForumPage.BySearch | src/pages/Forum.tsx:57-64 | the search filter, skipped for an empty term |
| ForumPage.ByTags | src/pages/Forum.tsx:67-71 | the all-tags filter |
| ForumPage.FilteredIsListed | src/pages/Forum.tsx:49-71 | the three filters in turn give `Listed` |
| ForumPage.FilteredTopics | src/pages/Forum.tsx:48-87 | the result holds exactly the listed topics, sorted stably and descending by last post, views or replies |
| ForumPage.TiesKeepLoadedOrder | src/pages/Forum.tsx:74-84 | topics with equal keys keep their loaded order |
| CoursesPage.Listed | src/pages/Courses.tsx:27-42 | a course is listed iff it matches the search and the level; in fetched order |
| CoursesPage.BySearch | src/pages/Courses.tsx:30-37 | the search filter, skipped for an empty term |
| CoursesPage.ByLevel | src/pages/Courses.tsx:40-42 | the level filter, skipped for 'all' |
| CoursesPage.FilteredIsListed | src/pages/Courses.tsx:27-42 | the two filters in turn give `Listed` |
| CoursesPage.FilteredAndSorted | src/pages/Courses.tsx:26-60 | the result holds exactly the listed courses; 'recent' sorts by creation date descending |
| CoursesPage.SameDateKeepsLoadedOrder | src/pages/Courses.tsx:46-48 | courses created at the same time keep their fetched order |
| CourseForm.SubmitProblem | src/pages/CourseForm.tsx:52-55 | title, description, image, then a positive duration; the first failing check names the message |
| CourseForm.Payload | src/pages/CourseForm.tsx:57-60 | the form data with the author overwritten by the user |
| CourseForm.DurationOf | src/pages/CourseForm.tsx:84 | the integer parse of the value, or 0 when it does not parse |
| CourseForm.DurationRoundTrip | src/pages/CourseForm.tsx:84 | a number typed in decimal is stored as that number |
| CourseForm.Form.constructor | src/pages/CourseForm.tsx:17-27 | the initial form data, no error |
| CourseForm.Form.LoadCourse | src/pages/CourseForm.tsx:35-39 | the form holds the loaded course |
| CourseForm.Form.HandleChange | src/pages/CourseForm.tsx:78-86 | only the named field changes; the duration is parsed |
| CourseForm.Form.HandleSubmit | src/pages/CourseForm.tsx:46-76 | nothing is sent when a check fails; with an id the course is updated, without one it is created, and the page goes to the course |
| CourseForm.LoadedCourseChecks | src/pages/CourseForm.tsx:17-24 | the empty form asks for a title first, and a loaded course passes iff its fields do |
| Numerals.ParseInt | src/pages/CourseForm.tsx:84 | `parseInt`: spaces skipped, an optional sign, the longest digit prefix; nothing without a digit |
| Numerals.ParseDecimal | src/pages/CourseForm.tsx:84 | a decimal numeral parses to its number |
| Numerals.ParseStopsAtNonDigit | src/pages/CourseForm.tsx:84 | parsing stops at the first character that is not a digit |
| AppRoutes.Notice | src/App.tsx:30-49 | a message exactly when the guard redirects, by priority: signed out, then admins only, then unverified |
| AppRoutes.NotifyRefusal | src/App.tsx:30-49 | a refused visit appends one error toast of 3000 ms with that message; an admitted one adds nothing |
| AppRoutes.WeakerGuardAdmitsMore | src/App.tsx:52 | relaxing a guard never refuses a visit the stricter one admits |
| AppRoutes.Resolve | src/App.tsx:93-104 | '/courses/new' is the form, never a course id |
| AppRoutes.GuardOf | src/App.tsx:95-136 | exactly the new-course, edit, profile, settings and admin routes are guarded |
| AppRoutes.AccessRules | src/App.tsx:116-134 | profile and settings need only a user; the course forms need a verified user; admin needs a verified admin |
| AppRoutes.SignedOutNeverAdmitted | src/App.tsx:52 | no guarded page admits a signed-out visitor, and a verified non-admin passes every guard but admin |
| Seqs.Move | src/components/QuizEditor.tsx:79-81 | the splice move: same length, the moved element at the destination, the others in order |
| Seqs.MoveBack | src/components/CourseEditor.tsx:50-56 | the opposite move undoes a move |
| Seqs.SortDescSorted | src/pages/Forum.tsx:74-84 | the sort orders by the key, descending |
| Seqs.SortDescStable | src/pages/Forum.tsx:74-84 | the sort keeps the input order of equal keys |

## Left out

- Remote calls are parameters (`Remote<T>`): the queries, inserts, updates, deletes, upserts, RPCs, storage uploads and auth calls are not modelled, nor are server-side triggers and aggregates such as `helpfulness_score` or `views_count`.
- The realtime channel subscription is not modelled, only the insert handler's state update. Delivery order and duplicates are not modelled.
- Concurrency: each action is one atomic step. The transient `loading = true` state between the start and the end of an action is not observable in the model; its final value is stated.
- Timers (the delayed sign-up navigation, toast auto-removal) and logging to the console.
- `crypto.randomUUID` in `addNotification` and the fresh shape id of the diagram editor are a parameter with the precondition that the id is not in use.
- CoursesPage.FilteredAndSorted: the 'popular' and 'rating' sorts call `Math.random`. For them the contract states only which courses the result holds, not their order.
- Scoring.RoundedPercent: the score uses exact round-half-up of 100·c/n. The source rounds the floating-point product, which differs for some inputs (23 right out of 40 gives 57.49999999999999, rounded to 57, where exact arithmetic gives 58).
- Scoring.PercentBounds: the converse "100 only when all answers are right" holds only below 200 questions (FullMarksExact, FullMarksWithAMistake).
- Lower-casing and substring search are ASCII-only (`Seqs.ToLower`). Unicode case mapping is not modelled.
- Lengths are counted in Unicode code points (`|s|`). The source's `.length`, `.min` and `.max` count UTF-16 code units, so a character outside the Basic Multilingual Plane counts twice there: "Aa1😀😀😀" passes the 8-character password minimum in the source but not in `AuthStore.PasswordIssues`, `AuthModal.PasswordCriteria` or `AuthModal.SignUpCheck`, and the username rules likewise.
- `parseInt` is modelled for decimal digits with ASCII white space. Hexadecimal prefixes, Unicode white space and numbers beyond the double range are not modelled.
- The zod email check is a boolean parameter. The `ZodError` carries its list of issues and the message shown is the first one. The JSON form of the whole error is not modelled.
- AuthModal.DialogChecksAgainstStore: the dialog does not check the 20-character username limit, so a name it lets through can still be refused by the store's schema.
- DiagramEditor.Record: the intended recording compares canvases by value. React re-runs the effect for any new shapes array, so an edit that yields a canvas equal to the entry on screen (a shape dragged back to where it was) is not recorded as a new step.
- `onAuthStateChange`, social sign-in, the badge store and `toggleSubscription` are not modelled.
- The view-count RPC that follows `fetchTopic` is not modelled.
- Timestamps are integers; date parsing is not modelled.
- Shape coordinates are whole pixels, computed by the caller from the mouse event and the canvas bounds. The optional shape fields other than those written are left out.
- A question without an id (a new question in the quiz editor) is a draft (`QuizEditor.QuestionDraft`). A question list of stored questions always has ids.
- A question whose options array is null is modelled with an empty option list. Adding an option to such a question throws a `TypeError` in the source (spreading null) and leaves the question unchanged; the model (`QuizEditor.AddOption`) appends the first option instead, so that crash is not modelled.
- `CourseForm`'s `content` field is not modelled. It is set once and never checked.
- The route table is modelled on path segments. A static segment ('new') outranks a parameter, as the router ranks them. Rendering and `Navigate` are not modelled beyond the redirect decision and the toast.
- The store's sort copies the array before sorting it in place. The model sorts a sequence value, so the in-place step on the copy is not modelled.

## Findings

| source | as written | input that shows it | evidently intended | confidence | as-written member | corrected member |
|---|---|---|---|---|---|---|
| src/store/notificationStore.ts:56-61 | `markAsRead` decrements `unreadCount` whether or not the notification was unread | the list `[{id: "a", read: true}]` with counter 0, then `markAsRead("a")`: the counter becomes -1 | decrement by the number of unread notifications with the id | not executed | NotificationStore.MarkAsReadDrifts | NotificationStore.MarkReadKeepsCounted |
| src/store/notificationStore.ts:94-99 | `deleteNotification` decrements `unreadCount` when no notification has the id | the empty list with counter 0, then `deleteNotification("a")`: the counter becomes -1 | decrement by the number of unread notifications removed | not executed | NotificationStore.DeleteAbsentDrifts | NotificationStore.RemoveKeepsCounted |
| src/components/DiagramEditor.tsx:46-49 | the history is recorded only when `historyIndex < history.length - 1`, which never holds from the empty history at index -1 | any sequence of edits, undos and redos from the initial editor: nothing is recorded, undo and redo never act | record every new canvas (non-empty and not the entry already on screen, which undo and redo put back) after the current index | not executed | DiagramEditor.HistoryStaysEmpty | DiagramEditor.UndoRedoRoundTrip |

=== FILE: app_routes.dfy ===
/** The application's routes and the guard that protects some of them: who
    may see a protected page, and the notice shown to anyone sent back to
    the home page. */
module AppRoutes {
  import opened Wrappers
  import opened Entities
  import GlobalStore

  /** The options of a protected route. */
  datatype Guard = Guard(adminOnly: bool, requireVerified: bool)

  /** `adminOnly = false`, `requireVerified = true` unless the route says
      otherwise. */
  const DefaultGuard := Guard(false, true)

  const NotSignedIn := "Vous devez être connecté pour accéder à cette page"
  const AdminsOnly := "Accès réservé aux administrateurs"
  const VerifyFirst := "Veuillez vérifier votre email pour accéder à cette page"

  /** The notices last three seconds. */
  const NoticeDuration := 3000

  /** `profile?.role === 'admin'`: a missing profile is no administrator. */
  predicate IsAdmin(profile: Option<Profile>) {
    profile.Some? && profile.value.role == Admin
  }

  /** Whether the guard sends the visitor back to the home page. */
  predicate Redirects(g: Guard, user: Option<AuthUser>, profile: Option<Profile>) {
    user.None? || (g.adminOnly && !IsAdmin(profile)) || (g.requireVerified && !user.value.emailConfirmed)
  }

  /** The notice of the guard's effect: the first reason, in the order
      signed out, not an administrator, email not confirmed. */
  function Notice(g: Guard, user: Option<AuthUser>, profile: Option<Profile>): (m: Option<string>)
    ensures m.Some? <==> Redirects(g, user, profile)
    ensures m == Some(NotSignedIn) <==> user.None?
    ensures m == Some(AdminsOnly) <==> user.Some? && g.adminOnly && !IsAdmin(profile)
    ensures m == Some(VerifyFirst) <==>
              user.Some? && !(g.adminOnly && !IsAdmin(profile)) && g.requireVerified && !user.value.emailConfirmed
  {
    if user.None? then Some(NotSignedIn)
    else if g.adminOnly && !IsAdmin(profile) then Some(AdminsOnly)
    else if g.requireVerified && !user.value.emailConfirmed then Some(VerifyFirst)
    else None
  }

  /** The guard's effect: an error notice when the visitor is turned away,
      nothing otherwise.  The notification's random id is `freshId`. */
  method NotifyRefusal(g: Guard, user: Option<AuthUser>, profile: Option<Profile>,
                       toasts: GlobalStore.Store, freshId: string)
    requires freshId !in GlobalStore.ToastIds(toasts.notifications)
    modifies toasts
    ensures Redirects(g, user, profile) ==>
              toasts.notifications == old(toasts.notifications)
                + [GlobalStore.Toast(freshId, GlobalStore.Error, Notice(g, user, profile).value, Some(NoticeDuration))]
    ensures !Redirects(g, user, profile) ==> toasts.notifications == old(toasts.notifications)
    ensures toasts.isLoading == old(toasts.isLoading) && toasts.error == old(toasts.error)
    ensures toasts.isDarkMode == old(toasts.isDarkMode) && toasts.sidebarOpen == old(toasts.sidebarOpen)
  {
    var notice := Notice(g, user, profile);
    if notice.Some? {
      toasts.AddNotification(GlobalStore.Error, notice.value, Some(NoticeDuration), freshId);
    }
  }

  /** A guard with fewer requirements lets through everyone a stricter one
      lets through. */
  lemma WeakerGuardAdmitsMore(g1: Guard, g2: Guard, user: Option<AuthUser>, profile: Option<Profile>)
    requires (g1.adminOnly ==> g2.adminOnly) && (g1.requireVerified ==> g2.requireVerified)
    ensures !Redirects(g2, user, profile) ==> !Redirects(g1, user, profile)
  {
  }

  // ---------------------------------------------------------------------
  // The route table.
  // ---------------------------------------------------------------------

  datatype Page =
    | Home | Courses | CourseDetail(id: string) | NewCourse | EditCourse(id: string)
    | Resources | Forum | ProfilePage | Settings | ResetPassword | VerifyEmail | AdminDashboard

  /** The page a path (split into its segments) shows, if any.  A static
      segment outranks a parameter, so `/courses/new` is the form and not the
      course whose id is "new". */
  function Resolve(path: seq<string>): (p: Option<Page>)
    ensures path == ["courses", "new"] ==> p == Some(NewCourse)
    ensures |path| == 2 && path[0] == "courses" && path[1] != "new" ==> p == Some(CourseDetail(path[1]))
  {
    if path == [] then Some(Home)
    else if |path| == 1 then
      match path[0]
      case "courses" => Some(Courses)
      case "resources" => Some(Resources)
      case "forum" => Some(Forum)
      case "profile" => Some(ProfilePage)
      case "settings" => Some(Settings)
      case "reset-password" => Some(ResetPassword)
      case "verify-email" => Some(VerifyEmail)
      case "admin" => Some(AdminDashboard)
      case _ => None
    else if path[0] != "courses" then None
    else if |path| == 2 then
      if path[1] == "new" then Some(NewCourse) else Some(CourseDetail(path[1]))
    else if |path| == 3 && path[2] == "edit" then Some(EditCourse(path[1]))
    else None
  }

  /** The guard around a page, if it has one. */
  function GuardOf(page: Page): (g: Option<Guard>)
    ensures g.Some? <==> page.NewCourse? || page.EditCourse? || page.ProfilePage? || page.Settings? || page.AdminDashboard?
  {
    match page
    case NewCourse => Some(DefaultGuard)
    case EditCourse(_) => Some(DefaultGuard)
    case ProfilePage => Some(DefaultGuard.(requireVerified := false))
    case Settings => Some(DefaultGuard.(requireVerified := false))
    case AdminDashboard => Some(DefaultGuard.(adminOnly := true))
    case _ => None
  }

  /** Whether a visitor sees the page rather than being sent home. */
  predicate Admitted(page: Page, user: Option<AuthUser>, profile: Option<Profile>) {
    GuardOf(page).None? || !Redirects(GuardOf(page).value, user, profile)
  }

  /** Who sees what: the profile and settings need only a signed-in user; the
      course form needs a confirmed email too; the dashboard needs a
      confirmed administrator; the other pages are open to all. */
  lemma AccessRules(page: Page, user: Option<AuthUser>, profile: Option<Profile>)
    ensures (page == ProfilePage || page == Settings) ==> (Admitted(page, user, profile) <==> user.Some?)
    ensures (page == NewCourse || page.EditCourse?) ==>
              (Admitted(page, user, profile) <==> user.Some? && user.value.emailConfirmed)
    ensures page == AdminDashboard ==>
              (Admitted(page, user, profile) <==> user.Some? && user.value.emailConfirmed && IsAdmin(profile))
    ensures GuardOf(page).None? ==> Admitted(page, user, profile)
  {
  }

  /** Every protected page turns away a visitor who is not signed in, and
      only the dashboard turns away a confirmed user who is no administrator. */
  lemma SignedOutNeverAdmitted(page: Page, profile: Option<Profile>, u: AuthUser)
    ensures GuardOf(page).Some? ==> !Admitted(page, None, profile)
    ensures u.emailConfirmed && !IsAdmin(profile) ==>
              (Admitted(page, Some(u), profile) <==> page != AdminDashboard)
  {
  }
}

=== FILE: auth_modal.dfy ===
/** The sign-in / sign-up dialog: the live password criteria, the checks
    made before asking the store to sign up, and the form's reset. */
module AuthModal {
  import opened Wrappers
  import opened Seqs
  import AuthStore
  import Numerals

  datatype Mode = SignInMode | SignUpMode

  /** The four criteria shown under the password field. */
  datatype Criteria = Criteria(length: bool, uppercase: bool, lowercase: bool, number: bool)

  function PasswordCriteria(password: string): (c: Criteria)
    ensures c.length <==> |password| >= 8
    ensures c.uppercase <==> AuthStore.HasUpper(password)
    ensures c.lowercase <==> AuthStore.HasLower(password)
    ensures c.number <==> AuthStore.HasDigit(password)
  {
    Criteria(|password| >= 8, AuthStore.HasUpper(password), AuthStore.HasLower(password), AuthStore.HasDigit(password))
  }

  predicate AllMet(c: Criteria) {
    c.length && c.uppercase && c.lowercase && c.number
  }

  /** The dialog's criteria are exactly the store's password schema. */
  lemma CriteriaMatchSchema(password: string)
    ensures AllMet(PasswordCriteria(password)) <==> AuthStore.PasswordIssues(password) == []
  {
  }

  /** `/^[a-zA-Z0-9_]+$/` */
  predicate IsWordChar(c: char) {
    AuthStore.IsUpper(c) || AuthStore.IsLower(c) || Numerals.IsDigit(c) || c == '_'
  }

  predicate IsWord(s: string) {
    |s| > 0 && forall i :: 0 <= i < |s| ==> IsWordChar(s[i])
  }

  const UsernameRequired := "Le pseudo est requis"
  const UsernameTooShort := "Le pseudo doit contenir au moins 3 caractères"
  const UsernameBadChars := "Le pseudo ne peut contenir que des lettres, chiffres et underscores"
  const PasswordsDiffer := "Les mots de passe ne correspondent pas"
  const PasswordWeak := "Le mot de passe ne respecte pas les critères requis"

  /** The sign-up checks, in the order the dialog makes them; `None` when
      every check passes. */
  function SignUpCheck(username: string, password: string, confirm: string): (r: Option<string>)
    ensures r == None <==> |username| >= 3 && IsWord(username) && password == confirm
                           && AllMet(PasswordCriteria(password))
    ensures r == Some(UsernameRequired) <==> username == []
    ensures r == Some(UsernameTooShort) <==> 0 < |username| < 3
    ensures r == Some(UsernameBadChars) <==> |username| >= 3 && !IsWord(username)
    ensures r == Some(PasswordsDiffer) <==> |username| >= 3 && IsWord(username) && password != confirm
    ensures r == Some(PasswordWeak) <==> |username| >= 3 && IsWord(username) && password == confirm
                                          && !AllMet(PasswordCriteria(password))
  {
    if username == [] then Some(UsernameRequired)
    else if |username| < 3 then Some(UsernameTooShort)
    else if !IsWord(username) then Some(UsernameBadChars)
    else if password != confirm then Some(PasswordsDiffer)
    else if !AllMet(PasswordCriteria(password)) then Some(PasswordWeak)
    else None
  }

  /** The username field keeps the lowercased input, and on such a value the
      dialog's character rule is the store's. */
  lemma LowercasedWord(input: string)
    ensures IsWord(ToLower(input)) <==> AuthStore.IsHandle(ToLower(input))
  {
    var u := ToLower(input);
    if IsWord(u) {
      forall i | 0 <= i < |u| ensures AuthStore.IsHandleChar(u[i]) {
        assert IsWordChar(u[i]);
        assert !AuthStore.IsUpper(u[i]);
      }
    }
  }

  /** A sign-up the dialog lets through passes the store's password schema,
      and its username passes the store's schema unless it is longer than
      20 characters, which only the store checks. */
  lemma DialogChecksAgainstStore(input: string, password: string, confirm: string)
    requires SignUpCheck(ToLower(input), password, confirm) == None
    ensures AuthStore.PasswordIssues(password) == []
    ensures AuthStore.UsernameIssues(ToLower(input)) == [] <==> |input| <= 20
  {
    LowercasedWord(input);
  }

  class Dialog {
    var mode: Mode
    var email: string
    var password: string
    var confirmPassword: string
    var username: string
    var error: string
    var isLoading: bool
    var showPassword: bool
    var showConfirmPassword: bool

    predicate Cleared()
      reads this
    {
      email == [] && password == [] && confirmPassword == [] && username == []
      && error == [] && !isLoading && !showPassword && !showConfirmPassword
    }

    constructor (initial: Mode)
      ensures mode == initial && Cleared()
    {
      mode := initial;
      email, password, confirmPassword, username := [], [], [], [];
      error := [];
      isLoading, showPassword, showConfirmPassword := false, false, false;
    }

    /** The username input's change handler. */
    method SetUsername(input: string)
      modifies this
      ensures username == ToLower(input)
      ensures mode == old(mode) && email == old(email) && password == old(password)
      ensures confirmPassword == old(confirmPassword) && error == old(error) && isLoading == old(isLoading)
      ensures showPassword == old(showPassword) && showConfirmPassword == old(showConfirmPassword)
    {
      username := ToLower(input);
    }

    method ResetForm()
      modifies this
      ensures Cleared() && mode == old(mode)
    {
      email, password, confirmPassword, username := [], [], [], [];
      error := [];
      isLoading, showPassword, showConfirmPassword := false, false, false;
    }

    method ToggleMode()
      modifies this
      ensures mode == (if old(mode) == SignInMode then SignUpMode else SignInMode)
      ensures Cleared()
    {
      mode := if mode == SignInMode then SignUpMode else SignInMode;
      ResetForm();
    }

    /** `handleSubmit`: in sign-up mode the checks run first and the store is
        asked only when they all pass; `storeReply` is what the store's
        action throws or not.  `asked` tells whether the store was asked and
        `closing` whether the dialog asks to be closed. */
    method HandleSubmit(storeReply: Remote<()>) returns (asked: bool, closing: bool)
      modifies this
      ensures !isLoading
      ensures mode == old(mode) && email == old(email) && password == old(password)
      ensures confirmPassword == old(confirmPassword) && username == old(username)
      ensures showPassword == old(showPassword) && showConfirmPassword == old(showConfirmPassword)
      ensures mode == SignUpMode ==> (asked <==> SignUpCheck(username, password, confirmPassword) == None)
      ensures mode == SignInMode ==> asked
      ensures closing <==> asked && storeReply.Ok?
      ensures !asked ==> error == SignUpCheck(username, password, confirmPassword).value
      ensures asked && storeReply.Fail? ==> error == Message(storeReply.thrown, AuthStore.GenericFrench)
      ensures closing ==> error == []
    {
      error := [];
      isLoading := true;
      asked, closing := false, false;
      var failure: Option<string> := None;
      if mode == SignUpMode {
        if username == [] {
          failure := Some(UsernameRequired);
        } else if |username| < 3 {
          failure := Some(UsernameTooShort);
        } else if !IsWord(username) {
          failure := Some(UsernameBadChars);
        } else if password != confirmPassword {
          failure := Some(PasswordsDiffer);
        } else if !AllMet(PasswordCriteria(password)) {
          failure := Some(PasswordWeak);
        }
      }
      if failure == None {
        asked := true;
        if storeReply.Fail? {
          failure := Some(Message(storeReply.thrown, AuthStore.GenericFrench));
        } else {
          closing := true;
        }
      }
      if failure.Some? {
        error := failure.value;
      }
      isLoading := false;
    }
  }
}

=== FILE: auth_store.dfy ===
/** The authentication store: the signed-in user and profile, the credential
    schemas checked before signing in or up, and the translation of the
    authentication service's messages into the French shown to the user. */
module AuthStore {
  import opened Wrappers
  import opened Entities
  import opened Numerals

  predicate IsUpper(c: char) { 'A' <= c <= 'Z' }
  predicate IsLower(c: char) { 'a' <= c <= 'z' }

  /** `/[A-Z]/`, `/[a-z]/` and `/[0-9]/`: some character of the class occurs. */
  predicate HasUpper(s: string) { exists i :: 0 <= i < |s| && IsUpper(s[i]) }
  predicate HasLower(s: string) { exists i :: 0 <= i < |s| && IsLower(s[i]) }
  predicate HasDigit(s: string) { exists i :: 0 <= i < |s| && IsDigit(s[i]) }

  /** `/^[a-z0-9_]+$/`: non-empty, and every character a lowercase letter, a
      digit or an underscore. */
  predicate IsHandleChar(c: char) { IsLower(c) || IsDigit(c) || c == '_' }
  predicate IsHandle(s: string) { |s| > 0 && forall i :: 0 <= i < |s| ==> IsHandleChar(s[i]) }

  const InvalidEmail := "Email invalide"
  const PasswordTooShort := "Le mot de passe doit contenir au moins 8 caractères"
  const PasswordNoUpper := "Le mot de passe doit contenir au moins une majuscule"
  const PasswordNoLower := "Le mot de passe doit contenir au moins une minuscule"
  const PasswordNoDigit := "Le mot de passe doit contenir au moins un chiffre"
  const UsernameTooShort := "Le pseudo doit contenir au moins 3 caractères"
  const UsernameTooLong := "Le pseudo ne peut pas dépasser 20 caractères"
  const UsernameBadChars := "Le pseudo ne peut contenir que des lettres minuscules, chiffres et underscores"
  const GenericFrench := "Une erreur est survenue"
  const NotAuthenticated := "Non authentifié"
  const SignInFailed := "Erreur de connexion"
  const SignUpFailed := "Erreur lors de la création du compte"
  const UsernameTaken := "Ce pseudo est déjà pris"

  /** The issues `passwordSchema` reports, in the order of its checks: every
      failing check is reported, not only the first. */
  function PasswordIssues(p: string): (issues: seq<string>)
    ensures issues == [] <==> |p| >= 8 && HasUpper(p) && HasLower(p) && HasDigit(p)
    ensures PasswordTooShort in issues <==> |p| < 8
    ensures PasswordNoUpper in issues <==> !HasUpper(p)
    ensures PasswordNoLower in issues <==> !HasLower(p)
    ensures PasswordNoDigit in issues <==> !HasDigit(p)
    ensures |issues| <= 4
  {
    (if |p| < 8 then [PasswordTooShort] else [])
    + (if !HasUpper(p) then [PasswordNoUpper] else [])
    + (if !HasLower(p) then [PasswordNoLower] else [])
    + (if !HasDigit(p) then [PasswordNoDigit] else [])
  }

  /** The issues `usernameSchema` reports, in the order of its checks. */
  function UsernameIssues(u: string): (issues: seq<string>)
    ensures issues == [] <==> 3 <= |u| <= 20 && IsHandle(u)
    ensures UsernameTooShort in issues <==> |u| < 3
    ensures UsernameTooLong in issues <==> |u| > 20
    ensures UsernameBadChars in issues <==> !IsHandle(u)
  {
    (if |u| < 3 then [UsernameTooShort] else [])
    + (if |u| > 20 then [UsernameTooLong] else [])
    + (if !IsHandle(u) then [UsernameBadChars] else [])
  }

  /** The reported message is the first issue, that of the earliest failing
      check. */
  lemma FirstPasswordIssue(p: string)
    requires PasswordIssues(p) != []
    ensures PasswordIssues(p)[0] == PasswordTooShort <==> |p| < 8
    ensures PasswordIssues(p)[0] == PasswordNoUpper <==> |p| >= 8 && !HasUpper(p)
    ensures PasswordIssues(p)[0] == PasswordNoLower <==> |p| >= 8 && HasUpper(p) && !HasLower(p)
    ensures PasswordIssues(p)[0] == PasswordNoDigit <==> |p| >= 8 && HasUpper(p) && HasLower(p)
  {
  }

  /** The validation failure of one call: the schemas run one after the other
      and the first one that fails throws with all of its issues. */
  function Validate(emailValid: bool, schemas: seq<seq<string>>): (issues: seq<string>)
    ensures issues == [] <==> emailValid && forall i :: 0 <= i < |schemas| ==> schemas[i] == []
    ensures !emailValid ==> issues == [InvalidEmail]
    ensures emailValid && issues != [] ==> issues in schemas
  {
    if !emailValid then [InvalidEmail] else FirstFailing(schemas)
  }

  function FirstFailing(schemas: seq<seq<string>>): (issues: seq<string>)
    ensures issues == [] <==> forall i :: 0 <= i < |schemas| ==> schemas[i] == []
    ensures issues != [] ==> issues in schemas
  {
    if schemas == [] then []
    else if schemas[0] != [] then schemas[0]
    else FirstFailing(schemas[1..])
  }

  /** What the store throws, and what it catches. */
  datatype Failure = Invalid(issues: seq<string>) | Raised(thrown: Thrown)

  /** The message recorded for a failure: the first issue of a validation
      failure, the French wording for the one service message `known`, any
      other error's own message, and a generic text otherwise. */
  function Translate(f: Failure, known: string, french: string): (m: string)
    requires f.Invalid? ==> f.issues != []
    ensures f.Invalid? ==> m == f.issues[0]
    ensures f == Raised(ErrorInstance(known)) ==> m == french
    ensures f.Raised? && f.thrown.ErrorInstance? && f.thrown.message != known ==> m == f.thrown.message
    ensures f == Raised(NonError) ==> m == GenericFrench
  {
    match f
    case Invalid(issues) => issues[0]
    case Raised(ErrorInstance(msg)) => if msg == known then french else msg
    case Raised(NonError) => GenericFrench
  }

  const InvalidCredentials := "Invalid login credentials"
  const WrongCredentials := "Email ou mot de passe incorrect"
  const AlreadyRegistered := "User already registered"
  const EmailTaken := "Cet email est déjà utilisé"

  /** What a request to the service gives back once its error is checked: an
      error, or the user row, which may be missing. */
  function Expect<T>(reply: Remote<Option<T>>, missing: string): (r: Remote<T>)
    ensures reply == Ok(None) ==> r == Fail(ErrorInstance(missing))
    ensures reply.Ok? && reply.value.Some? ==> r == Ok(reply.value.value)
    ensures reply.Fail? ==> r == Fail(reply.thrown)
  {
    match reply
    case Fail(t) => Fail(t)
    case Ok(None) => Fail(ErrorInstance(missing))
    case Ok(Some(v)) => Ok(v)
  }

  class Store {
    var user: Option<AuthUser>
    var profile: Option<Profile>
    var loading: bool
    var error: Option<string>

    constructor ()
      ensures user == None && profile == None && !loading && error == None
    {
      user := None;
      profile := None;
      loading := false;
      error := None;
    }

    /** `signIn`: the email, then the password, are validated before the
        service is asked; `contacted` tells whether it was. */
    method SignIn(email: string, password: string, emailValid: bool,
                  auth: Remote<Option<AuthUser>>, profileReply: Remote<Profile>)
      returns (failure: Option<Failure>, contacted: bool)
      modifies this
      ensures !loading
      ensures contacted <==> emailValid && PasswordIssues(password) == []
      ensures !contacted ==> failure == Some(Invalid(Validate(emailValid, [PasswordIssues(password)])))
      ensures contacted && Expect(auth, SignInFailed).Fail? ==>
                failure == Some(Raised(Expect(auth, SignInFailed).thrown))
      ensures contacted && Expect(auth, SignInFailed).Ok? && profileReply.Fail? ==>
                failure == Some(Raised(profileReply.thrown))
      ensures failure == None <==> contacted && Expect(auth, SignInFailed).Ok? && profileReply.Ok?
      ensures failure == None ==> user == Some(Expect(auth, SignInFailed).value)
                                  && profile == Some(profileReply.value) && error == None
      ensures failure.Some? ==> user == old(user) && profile == old(profile)
      ensures failure.Some? ==> failure.value.Invalid? ==> failure.value.issues != []
      ensures failure.Some? ==> error == Some(Translate(failure.value, InvalidCredentials, WrongCredentials))
    {
      loading, error := true, None;
      var issues := Validate(emailValid, [PasswordIssues(password)]);
      contacted := issues == [];
      if !contacted {
        failure := Some(Invalid(issues));
      } else {
        var signedIn := Expect(auth, SignInFailed);
        if signedIn.Fail? {
          failure := Some(Raised(signedIn.thrown));
        } else if profileReply.Fail? {
          failure := Some(Raised(profileReply.thrown));
        } else {
          user, profile, error := Some(signedIn.value), Some(profileReply.value), None;
          failure := None;
        }
      }
      if failure.Some? {
        error := Some(Translate(failure.value, InvalidCredentials, WrongCredentials));
      }
      loading := false;
    }

    /** `signUp`: the email, password and username are validated, then the
        username is looked up (`taken` is whether a profile already has it),
        and only then is the account created; `created` tells whether that
        request was made. */
    method SignUp(email: string, password: string, username: string, emailValid: bool,
                  taken: Remote<bool>, auth: Remote<Option<AuthUser>>, profileReply: Remote<Profile>)
      returns (failure: Option<Failure>, created: bool)
      modifies this
      ensures !loading
      ensures created <==> emailValid && PasswordIssues(password) == [] && UsernameIssues(username) == []
                           && taken == Ok(false)
      ensures Validate(emailValid, [PasswordIssues(password), UsernameIssues(username)]) != [] ==>
                failure == Some(Invalid(Validate(emailValid, [PasswordIssues(password), UsernameIssues(username)])))
      ensures taken == Ok(true) && Validate(emailValid, [PasswordIssues(password), UsernameIssues(username)]) == [] ==>
                failure == Some(Raised(ErrorInstance(UsernameTaken)))
      ensures taken.Fail? && Validate(emailValid, [PasswordIssues(password), UsernameIssues(username)]) == [] ==>
                failure == Some(Raised(taken.thrown))
      ensures created && Expect(auth, SignUpFailed).Fail? ==>
                failure == Some(Raised(Expect(auth, SignUpFailed).thrown))
      ensures created && Expect(auth, SignUpFailed).Ok? && profileReply.Fail? ==>
                failure == Some(Raised(profileReply.thrown))
      ensures failure == None <==> created && Expect(auth, SignUpFailed).Ok? && profileReply.Ok?
      ensures failure == None ==> user == Some(Expect(auth, SignUpFailed).value)
                                  && profile == Some(profileReply.value) && error == None
      ensures failure.Some? ==> user == old(user) && profile == old(profile)
      ensures failure.Some? ==> failure.value.Invalid? ==> failure.value.issues != []
      ensures failure.Some? ==> error == Some(Translate(failure.value, AlreadyRegistered, EmailTaken))
    {
      loading, error := true, None;
      var schemas := [PasswordIssues(password), UsernameIssues(username)];
      var issues := Validate(emailValid, schemas);
      assert schemas[0] == PasswordIssues(password) && schemas[1] == UsernameIssues(username);
      created := false;
      if issues != [] {
        failure := Some(Invalid(issues));
      } else if taken.Fail? {
        failure := Some(Raised(taken.thrown));
      } else if taken.value {
        failure := Some(Raised(ErrorInstance(UsernameTaken)));
      } else {
        created := true;
        var signedUp := Expect(auth, SignUpFailed);
        if signedUp.Fail? {
          failure := Some(Raised(signedUp.thrown));
        } else if profileReply.Fail? {
          failure := Some(Raised(profileReply.thrown));
        } else {
          user, profile, error := Some(signedUp.value), Some(profileReply.value), None;
          failure := None;
        }
      }
      if failure.Some? {
        error := Some(Translate(failure.value, AlreadyRegistered, EmailTaken));
      }
      loading := false;
    }

    method SignOut(reply: Remote<()>) returns (outcome: Remote<()>)
      modifies this
      ensures !loading && outcome == reply
      ensures reply.Ok? ==> user == None && profile == None && error == None
      ensures reply.Fail? ==> user == old(user) && profile == old(profile)
      ensures reply.Fail? ==> error == Some(Message(reply.thrown, "Erreur de déconnexion"))
    {
      loading, error := true, None;
      match reply {
        case Ok(_) =>
          user, profile := None, None;
        case Fail(t) =>
          error := Some(Message(t, "Erreur de déconnexion"));
      }
      loading := false;
      outcome := reply;
    }

    /** `checkAuth`: adopts the session's user and profile when there is a
        session; never throws and leaves `loading` alone. */
    method CheckAuth(session: Remote<Option<AuthUser>>, profileReply: Remote<Profile>)
      modifies this
      ensures loading == old(loading)
      ensures session == Ok(None) ==> user == old(user) && profile == old(profile) && error == old(error)
      ensures session.Fail? ==> user == old(user) && profile == old(profile)
      ensures session.Fail? ==> error == Some(Message(session.thrown, "Erreur de vérification"))
      ensures session.Ok? && session.value.Some? && profileReply.Fail? ==>
                user == old(user) && profile == old(profile)
                && error == Some(Message(profileReply.thrown, "Erreur de vérification"))
      ensures session.Ok? && session.value.Some? && profileReply.Ok? ==>
                user == session.value && profile == Some(profileReply.value) && error == None
    {
      match session {
        case Fail(t) =>
          error := Some(Message(t, "Erreur de vérification"));
        case Ok(None) =>
        case Ok(Some(u)) =>
          match profileReply {
            case Fail(t) =>
              error := Some(Message(t, "Erreur de vérification"));
            case Ok(p) =>
              user, profile, error := Some(u), Some(p), None;
          }
      }
    }

    /** The shape of `updateProfile` and `updateAvatar`: refused without a
        user before anything changes; otherwise the profile becomes the row
        the service returns, so what the request asked to change is not part
        of the local effect. */
    method ReplaceProfile(reply: Remote<Profile>, fallback: string) returns (outcome: Remote<()>)
      modifies this
      ensures user == old(user)
      ensures old(user).None? ==> outcome == Fail(ErrorInstance(NotAuthenticated))
      ensures old(user).None? ==> profile == old(profile) && loading == old(loading) && error == old(error)
      ensures old(user).Some? ==> !loading
      ensures old(user).Some? && reply.Ok? ==> outcome == Ok(()) && profile == Some(reply.value) && error == None
      ensures old(user).Some? && reply.Fail? ==> outcome == Fail(reply.thrown) && profile == old(profile)
      ensures old(user).Some? && reply.Fail? ==> error == Some(Message(reply.thrown, fallback))
    {
      if user.None? {
        return Fail(ErrorInstance(NotAuthenticated));
      }
      loading, error := true, None;
      match reply {
        case Ok(p) =>
          profile := Some(p);
          outcome := Ok(());
        case Fail(t) =>
          error := Some(Message(t, fallback));
          outcome := Fail(t);
      }
      loading := false;
    }

    method UpdateProfile(reply: Remote<Profile>) returns (outcome: Remote<()>)
      modifies this
      ensures user == old(user)
      ensures old(user).None? ==> outcome == Fail(ErrorInstance(NotAuthenticated))
      ensures old(user).None? ==> profile == old(profile) && loading == old(loading) && error == old(error)
      ensures old(user).Some? ==> !loading
      ensures old(user).Some? && reply.Ok? ==> outcome == Ok(()) && profile == Some(reply.value) && error == None
      ensures old(user).Some? && reply.Fail? ==> outcome == Fail(reply.thrown) && profile == old(profile)
      ensures old(user).Some? && reply.Fail? ==> error == Some(Message(reply.thrown, "Erreur de mise à jour du profil"))
    {
      outcome := ReplaceProfile(reply, "Erreur de mise à jour du profil");
    }

    method UpdateAvatar(reply: Remote<Profile>) returns (outcome: Remote<()>)
      modifies this
      ensures user == old(user)
      ensures old(user).None? ==> outcome == Fail(ErrorInstance(NotAuthenticated))
      ensures old(user).None? ==> profile == old(profile) && loading == old(loading) && error == old(error)
      ensures old(user).Some? ==> !loading
      ensures old(user).Some? && reply.Ok? ==> outcome == Ok(()) && profile == Some(reply.value) && error == None
      ensures old(user).Some? && reply.Fail? ==> outcome == Fail(reply.thrown) && profile == old(profile)
      ensures old(user).Some? && reply.Fail? ==> error == Some(Message(reply.thrown, "Erreur de mise à jour de l'avatar"))
    {
      outcome := ReplaceProfile(reply, "Erreur de mise à jour de l'avatar");
    }

    /** `deleteAccount`: refused without a user; on success the account is
        gone and the store forgets the user and the profile. */
    method DeleteAccount(reply: Remote<()>) returns (outcome: Remote<()>)
      modifies this
      ensures old(user).None? ==> outcome == Fail(ErrorInstance(NotAuthenticated))
      ensures old(user).None? ==> user == old(user) && profile == old(profile)
                                  && loading == old(loading) && error == old(error)
      ensures old(user).Some? ==> !loading && outcome == reply
      ensures old(user).Some? && reply.Ok? ==> user == None && profile == None && error == None
      ensures old(user).Some? && reply.Fail? ==> user == old(user) && profile == old(profile)
      ensures old(user).Some? && reply.Fail? ==> error == Some(Message(reply.thrown, "Erreur de suppression du compte"))
    {
      if user.None? {
        return Fail(ErrorInstance(NotAuthenticated));
      }
      loading, error := true, None;
      match reply {
        case Ok(_) =>
          user, profile := None, None;
        case Fail(t) =>
          error := Some(Message(t, "Erreur de suppression du compte"));
      }
      loading := false;
      outcome := reply;
    }
  }

  /** A sign-in failure caused by the schemas always names the failing rule:
      the email rule first, then the earliest failing password rule. */
  lemma SignInValidationMessage(emailValid: bool, password: string)
    requires Validate(emailValid, [PasswordIssues(password)]) != []
    ensures !emailValid ==> Translate(Invalid(Validate(emailValid, [PasswordIssues(password)])), InvalidCredentials, WrongCredentials) == InvalidEmail
    ensures emailValid && |password| < 8 ==> Translate(Invalid(Validate(emailValid, [PasswordIssues(password)])), InvalidCredentials, WrongCredentials) == PasswordTooShort
    ensures emailValid && |password| >= 8 && !HasUpper(password) ==> Translate(Invalid(Validate(emailValid, [PasswordIssues(password)])), InvalidCredentials, WrongCredentials) == PasswordNoUpper
  {
    if emailValid {
      assert Validate(emailValid, [PasswordIssues(password)]) == PasswordIssues(password);
    }
  }
}

=== FILE: course_editor.dfy ===
/** The course editor: the list of a course's sections, edited in place and
    reordered by dragging one section over another. */
module CourseEditor {
  import opened Wrappers
  import opened Seqs
  import opened Entities

  /** The section `handleAddSection` appends. */
  function NewSection(position: nat): Section {
    Section(None, None, "Nouvelle section", "", position)
  }

  /** Dragging over several sections in a row is one move from where the
      drag started to where it is now. */
  lemma DragOverCompose<T(!new)>(s: seq<T>, a: nat, b: nat, c: nat)
    requires a < |s| && b < |s| && c < |s|
    ensures Move(Move(s, a, b), b, c) == Move(s, a, c)
  {
    var m := Move(s, a, b);
    RemoveInserted(RemoveAt(s, a), b, s[a]);
    assert RemoveAt(m, b) == RemoveAt(s, a);
    assert m[b] == s[a];
  }

  class Editor {
    /** The sections as last reported to the page through `onSectionsChange`. */
    var sections: seq<Section>
    var draggedIndex: Option<nat>

    predicate Valid()
      reads this
    {
      draggedIndex.Some? ==> draggedIndex.value < |sections|
    }

    constructor (initial: seq<Section>)
      ensures sections == initial && draggedIndex == None && Valid()
    {
      sections := initial;
      draggedIndex := None;
    }

    /** `handleAddSection`: one section more, at the end, numbered after the
        others. */
    method HandleAddSection()
      requires Valid()
      modifies this
      ensures Valid()
      ensures sections == old(sections) + [NewSection(|old(sections)|)]
      ensures draggedIndex == old(draggedIndex)
    {
      sections := sections + [NewSection(|sections|)];
    }

    /** `handleDeleteSection`: exactly position i goes, the others keep their
        order (and their numbers). */
    method HandleDeleteSection(i: nat)
      requires i < |sections|
      modifies this
      ensures sections == RemoveAt(old(sections), i)
      ensures |sections| == |old(sections)| - 1
      ensures forall j :: 0 <= j < i ==> sections[j] == old(sections)[j]
      ensures forall j :: i <= j < |sections| ==> sections[j] == old(sections)[j + 1]
      ensures draggedIndex == old(draggedIndex)
    {
      sections := RemoveAt(sections, i);
    }

    /** `handleSectionChange`: only section i, and only the patched keys. */
    method HandleSectionChange(i: nat, p: SectionPatch)
      requires i < |sections| && Valid()
      modifies this
      ensures |sections| == |old(sections)| && sections[i] == old(sections)[i].Merge(p)
      ensures forall j :: 0 <= j < |sections| && j != i ==> sections[j] == old(sections)[j]
      ensures draggedIndex == old(draggedIndex) && Valid()
    {
      sections := sections[i := sections[i].Merge(p)];
    }

    method HandleDragStart(i: nat)
      requires i < |sections|
      modifies this
      ensures draggedIndex == Some(i) && sections == old(sections) && Valid()
    {
      draggedIndex := Some(i);
    }

    /** `handleDragOver(index)`: the dragged section moves to `index`, which
        becomes the dragged index; the sections keep their old numbers. */
    method HandleDragOver(index: nat)
      requires Valid() && index < |sections|
      modifies this
      ensures Valid()
      ensures old(draggedIndex).None? ==> sections == old(sections) && draggedIndex == None
      ensures old(draggedIndex).Some? ==> sections == Move(old(sections), old(draggedIndex).value, index)
      ensures old(draggedIndex).Some? ==> draggedIndex == Some(index)
      ensures multiset(sections) == multiset(old(sections))
      ensures old(draggedIndex).Some? ==> sections[index] == old(sections)[old(draggedIndex).value]
    {
      if draggedIndex == None {
        return;
      }
      var dragged := sections[draggedIndex.value];
      var newSections := RemoveAt(sections, draggedIndex.value);
      newSections := InsertAt(newSections, index, dragged);
      sections := newSections;
      draggedIndex := Some(index);
    }

    method HandleDragEnd()
      modifies this
      ensures draggedIndex == None && sections == old(sections) && Valid()
    {
      draggedIndex := None;
    }
  }

  /** Unlike the quiz editor, a move does not renumber: a section dragged to
      another place keeps the number it had. */
  lemma MoveKeepsNumbers(s: seq<Section>, from: nat, to: nat)
    requires from < |s| && to < |s|
    ensures Move(s, from, to)[to].orderIndex == s[from].orderIndex
    ensures s[from].orderIndex == from && from != to ==> Move(s, from, to)[to].orderIndex != to
  {
  }
}

=== FILE: course_form.dfy ===
/** The course form: its fields, the checks made on submit, and the payload
    it hands to the course store. */
module CourseForm {
  import opened Wrappers
  import opened Entities
  import opened Seqs
  import opened Numerals
  import CourseStore

  const TitleRequired := "Le titre est requis"
  const DescriptionRequired := "La description est requise"
  const ImageRequired := "L'image est requise"
  const DurationPositive := "La durée doit être supérieure à 0"
  const GenericFrench := "Une erreur est survenue"

  /** The inputs of the form, by their `name` attribute. */
  datatype Field = TitleField | DescriptionField | LevelField | DurationField | ImageUrlField

  /** The form's initial data: empty texts, level "beginner", duration 0. */
  const InitialData := NoCourseChange.(title := Some(""), description := Some(""), level := Some("beginner"),
                                        duration := Some(0), imageUrl := Some(""))

  /** A text is missing when it is absent or empty (`!formData.title`). */
  predicate Missing(v: Option<string>) {
    v.None? || v.value == []
  }

  /** The first failing check of `handleSubmit`, in the order of the code. */
  function SubmitProblem(d: CoursePatch): (r: Option<string>)
    ensures r.None? <==> !Missing(d.title) && !Missing(d.description) && !Missing(d.imageUrl)
                         && d.duration.Some? && d.duration.value > 0
    ensures r == Some(TitleRequired) <==> Missing(d.title)
    ensures r == Some(DescriptionRequired) <==> !Missing(d.title) && Missing(d.description)
    ensures r == Some(ImageRequired) <==> !Missing(d.title) && !Missing(d.description) && Missing(d.imageUrl)
    ensures r == Some(DurationPositive) <==>
              !Missing(d.title) && !Missing(d.description) && !Missing(d.imageUrl)
              && (d.duration.None? || d.duration.value <= 0)
  {
    if Missing(d.title) then Some(TitleRequired)
    else if Missing(d.description) then Some(DescriptionRequired)
    else if Missing(d.imageUrl) then Some(ImageRequired)
    else if d.duration.None? || d.duration.value <= 0 then Some(DurationPositive)
    else None
  }

  /** `{ ...formData, author_id: user.id }`: the form data, authored by the
      current user whatever the form held. */
  function Payload(d: CoursePatch, userId: Id): (p: CoursePatch)
    ensures p.authorId == Some(userId)
    ensures p.(authorId := d.authorId) == d
  {
    d.(authorId := Some(userId))
  }

  /** The value `handleChange` stores for a field: the integer parse of the
      text for the duration, 0 when there is none; the text itself for any
      other field. */
  function DurationOf(value: string): (d: int)
    ensures ParseInt(value).Some? ==> d == ParseInt(value).value
    ensures ParseInt(value).None? ==> d == 0
  {
    ParseInt(value).GetOr(0)
  }

  /** Typing a number into the duration field stores that number. */
  lemma DurationRoundTrip(n: nat)
    ensures DurationOf(DecimalString(n)) == n
  {
    ParseDecimal(n);
  }

  class Form {
    var formData: CoursePatch
    var formError: string
    var isSubmitting: bool

    constructor ()
      ensures formData == InitialData && formError == "" && !isSubmitting
    {
      formData := InitialData;
      formError := "";
      isSubmitting := false;
    }

    /** The effect that copies the loaded course into the form when editing. */
    method LoadCourse(c: Course)
      modifies this
      ensures formData == CourseAsPatch(c) && formError == old(formError) && isSubmitting == old(isSubmitting)
    {
      formData := CourseAsPatch(c);
    }

    /** `handleChange`: set one field, leave the others alone. */
    method HandleChange(name: Field, value: string)
      modifies this
      ensures name == DurationField ==> formData == old(formData).(duration := Some(DurationOf(value)))
      ensures name == TitleField ==> formData == old(formData).(title := Some(value))
      ensures name == DescriptionField ==> formData == old(formData).(description := Some(value))
      ensures name == LevelField ==> formData == old(formData).(level := Some(value))
      ensures name == ImageUrlField ==> formData == old(formData).(imageUrl := Some(value))
      ensures formError == old(formError) && isSubmitting == old(isSubmitting)
    {
      match name
      case DurationField => formData := formData.(duration := Some(DurationOf(value)));
      case TitleField => formData := formData.(title := Some(value));
      case DescriptionField => formData := formData.(description := Some(value));
      case LevelField => formData := formData.(level := Some(value));
      case ImageUrlField => formData := formData.(imageUrl := Some(value));
    }

    /** `handleSubmit` for the signed-in user `userId`: a failing check sets
        its message and calls nothing; otherwise the payload goes to
        `updateCourse` when the route has an id and to `createCourse` when it
        has none.  `sent` is the payload, `next` the page navigated to. */
    method HandleSubmit(store: CourseStore.Store, id: Option<Id>, userId: Id,
                        createReply: Remote<Course>, updateReply: Remote<()>)
      returns (sent: Option<CoursePatch>, next: Option<string>)
      modifies this, store
      ensures formData == old(formData) && !isSubmitting
      ensures SubmitProblem(old(formData)).Some? ==>
                sent.None? && next.None? && formError == SubmitProblem(old(formData)).value
                && store.Snapshot() == old(store.Snapshot()) && store.loading == old(store.loading)
                && store.error == old(store.error)
      ensures SubmitProblem(old(formData)).None? ==> sent == Some(Payload(old(formData), userId))
      ensures SubmitProblem(old(formData)).None? && id.Some? ==>
                store.Snapshot() == (if updateReply.Ok? then old(store.Snapshot()).(
                  courses := UpdateWhere(old(store.courses), CourseStore.CourseHasId(id.value),
                                         CourseStore.MergeCourse(sent.value)),
                  currentCourse := UpdateIf(old(store.currentCourse), CourseStore.CourseHasId(id.value), CourseStore.MergeCourse(sent.value)))
                else old(store.Snapshot()))
                && (updateReply.Ok? ==> next == Some("/courses/" + id.value) && formError == "")
                && (updateReply.Fail? ==> next.None? && formError == Message(updateReply.thrown, GenericFrench))
      ensures SubmitProblem(old(formData)).None? && id.None? ==>
                store.Snapshot() == (if createReply.Ok? then old(store.Snapshot()).(
                  courses := [createReply.value] + old(store.courses))
                else old(store.Snapshot()))
                && (createReply.Ok? ==> next == Some("/courses/" + createReply.value.id) && formError == "")
                && (createReply.Fail? ==> next.None? && formError == Message(createReply.thrown, GenericFrench))
    {
      formError := "";
      isSubmitting := true;
      sent, next := None, None;
      var problem := SubmitProblem(formData);
      if problem.Some? {
        formError := problem.value;
      } else {
        var courseData := Payload(formData, userId);
        sent := Some(courseData);
        if id.Some? {
          var outcome := store.UpdateCourse(id.value, courseData, updateReply);
          if outcome.Ok? {
            next := Some("/courses/" + id.value);
          } else {
            formError := Message(outcome.thrown, GenericFrench);
          }
        } else {
          var outcome := store.CreateCourse(createReply);
          if outcome.Ok? {
            next := Some("/courses/" + outcome.value.id);
          } else {
            formError := Message(outcome.thrown, GenericFrench);
          }
        }
      }
      isSubmitting := false;
    }
  }

  /** The initial form is refused for its empty title, and a form filled
      from a stored course passes exactly when that course has a title, a
      description, an image and a positive duration. */
  lemma LoadedCourseChecks(c: Course)
    ensures SubmitProblem(InitialData) == Some(TitleRequired)
    ensures SubmitProblem(CourseAsPatch(c)).None? <==>
              c.title != [] && c.description != [] && c.imageUrl != [] && c.duration > 0
  {
  }
}

=== FILE: course_store.dfy ===
/** The course store: the course list, the course being viewed, and that
    course's sections, progress rows and reviews.  Every action raises
    `loading`, clears `error`, makes its remote call and lowers `loading`
    again; the mutating ones record the failure and re-throw it. */
module CourseStore {
  import opened Wrappers
  import opened Seqs
  import opened Entities

  function CourseHasId(id: Id): Course -> bool {
    (c: Course) => c.id == id
  }

  function MergeCourse(p: CoursePatch): Course -> Course {
    (c: Course) => c.Merge(p)
  }

  function SectionHasId(id: Id): Section -> bool {
    (s: Section) => s.id == Some(id)
  }

  function MergeSection(p: SectionPatch): Section -> Section {
    (s: Section) => s.Merge(p)
  }

  function ReviewHasId(id: Id): Review -> bool {
    (r: Review) => r.id == id
  }

  function MergeReview(p: ReviewPatch): Review -> Review {
    (r: Review) => r.Merge(p)
  }

  /** Everything the store caches. */
  datatype Cache = Cache(
    courses: seq<Course>, currentCourse: Option<Course>, sections: seq<Section>,
    progress: seq<Progress>, reviews: seq<Review>)

  const NoCurrentCourse: string := "No current course"

  class Store {
    var courses: seq<Course>
    var currentCourse: Option<Course>
    var sections: seq<Section>
    var progress: seq<Progress>
    var reviews: seq<Review>
    var loading: bool
    var error: Option<string>

    function Snapshot(): Cache
      reads this
    {
      Cache(courses, currentCourse, sections, progress, reviews)
    }

    constructor ()
      ensures Snapshot() == Cache([], None, [], [], []) && !loading && error == None
    {
      courses := [];
      currentCourse := None;
      sections := [];
      progress := [];
      reviews := [];
      loading := false;
      error := None;
    }

    /** The common tail of every action: on failure, record the message. */
    method Finish<T>(reply: Remote<T>)
      modifies this
      ensures Snapshot() == old(Snapshot()) && !loading
      ensures reply.Ok? ==> error == old(error)
      ensures reply.Fail? ==> error == Some(Message(reply.thrown, GenericError))
    {
      if reply.Fail? {
        error := Some(Message(reply.thrown, GenericError));
      }
      loading := false;
    }

    method FetchCourses(reply: Remote<seq<Course>>)
      modifies this
      ensures !loading
      ensures reply.Ok? ==> Snapshot() == old(Snapshot()).(courses := reply.value) && error == None
      ensures reply.Fail? ==> Snapshot() == old(Snapshot())
      ensures reply.Fail? ==> error == Some(Message(reply.thrown, GenericError))
    {
      loading, error := true, None;
      if reply.Ok? {
        courses := reply.value;
      }
      Finish(reply);
    }

    method FetchCourse(id: Id, reply: Remote<Course>)
      modifies this
      ensures !loading
      ensures reply.Ok? ==> Snapshot() == old(Snapshot()).(currentCourse := Some(reply.value)) && error == None
      ensures reply.Fail? ==> Snapshot() == old(Snapshot())
      ensures reply.Fail? ==> error == Some(Message(reply.thrown, GenericError))
    {
      loading, error := true, None;
      if reply.Ok? {
        currentCourse := Some(reply.value);
      }
      Finish(reply);
    }

    method FetchSections(courseId: Id, reply: Remote<seq<Section>>)
      modifies this
      ensures !loading
      ensures reply.Ok? ==> Snapshot() == old(Snapshot()).(sections := reply.value) && error == None
      ensures reply.Fail? ==> Snapshot() == old(Snapshot())
      ensures reply.Fail? ==> error == Some(Message(reply.thrown, GenericError))
    {
      loading, error := true, None;
      if reply.Ok? {
        sections := reply.value;
      }
      Finish(reply);
    }

    method FetchProgress(courseId: Id, reply: Remote<seq<Progress>>)
      modifies this
      ensures !loading
      ensures reply.Ok? ==> Snapshot() == old(Snapshot()).(progress := reply.value) && error == None
      ensures reply.Fail? ==> Snapshot() == old(Snapshot())
      ensures reply.Fail? ==> error == Some(Message(reply.thrown, GenericError))
    {
      loading, error := true, None;
      if reply.Ok? {
        progress := reply.value;
      }
      Finish(reply);
    }

    method FetchReviews(courseId: Id, reply: Remote<seq<Review>>)
      modifies this
      ensures !loading
      ensures reply.Ok? ==> Snapshot() == old(Snapshot()).(reviews := reply.value) && error == None
      ensures reply.Fail? ==> Snapshot() == old(Snapshot())
      ensures reply.Fail? ==> error == Some(Message(reply.thrown, GenericError))
    {
      loading, error := true, None;
      if reply.Ok? {
        reviews := reply.value;
      }
      Finish(reply);
    }

    /** `createCourse`: the inserted row, as returned, goes first; the row is
        returned, or the failure re-thrown. */
    method CreateCourse(reply: Remote<Course>) returns (outcome: Remote<Course>)
      modifies this
      ensures !loading && outcome == reply
      ensures reply.Ok? ==> Snapshot() == old(Snapshot()).(courses := [reply.value] + old(courses))
      ensures reply.Ok? ==> error == None
      ensures reply.Fail? ==> Snapshot() == old(Snapshot())
      ensures reply.Fail? ==> error == Some(Message(reply.thrown, GenericError))
    {
      loading, error := true, None;
      if reply.Ok? {
        courses := [reply.value] + courses;
      }
      Finish(reply);
      outcome := reply;
    }

    method UpdateCourse(id: Id, patch: CoursePatch, reply: Remote<()>) returns (outcome: Remote<()>)
      modifies this
      ensures !loading && outcome == reply
      ensures reply.Ok? ==> Snapshot() == old(Snapshot()).(
                courses := UpdateWhere(old(courses), CourseHasId(id), MergeCourse(patch)),
                currentCourse := UpdateIf(old(currentCourse), CourseHasId(id), MergeCourse(patch)))
      ensures reply.Ok? ==> error == None
      ensures reply.Fail? ==> Snapshot() == old(Snapshot())
      ensures reply.Fail? ==> error == Some(Message(reply.thrown, GenericError))
    {
      loading, error := true, None;
      if reply.Ok? {
        courses := UpdateWhere(courses, CourseHasId(id), MergeCourse(patch));
        currentCourse := UpdateIf(currentCourse, CourseHasId(id), MergeCourse(patch));
      }
      Finish(reply);
      outcome := reply;
    }

    method DeleteCourse(id: Id, reply: Remote<()>) returns (outcome: Remote<()>)
      modifies this
      ensures !loading && outcome == reply
      ensures reply.Ok? ==> Snapshot() == old(Snapshot()).(
                courses := RemoveWhere(old(courses), CourseHasId(id)),
                currentCourse := ClearIf(old(currentCourse), CourseHasId(id)))
      ensures reply.Ok? ==> error == None
      ensures reply.Fail? ==> Snapshot() == old(Snapshot())
      ensures reply.Fail? ==> error == Some(Message(reply.thrown, GenericError))
    {
      loading, error := true, None;
      if reply.Ok? {
        courses := RemoveWhere(courses, CourseHasId(id));
        currentCourse := ClearIf(currentCourse, CourseHasId(id));
      }
      Finish(reply);
      outcome := reply;
    }

    /** `createSection`: insert, then reload the course's sections; the
        reload's own error is not checked and a missing list becomes `[]`. */
    method CreateSection(insert: Remote<()>, reload: Option<seq<Section>>) returns (outcome: Remote<()>)
      modifies this
      ensures !loading && outcome == insert
      ensures insert.Ok? ==> Snapshot() == old(Snapshot()).(sections := OrEmpty(reload)) && error == None
      ensures insert.Fail? ==> Snapshot() == old(Snapshot())
      ensures insert.Fail? ==> error == Some(Message(insert.thrown, GenericError))
    {
      loading, error := true, None;
      if insert.Ok? {
        sections := OrEmpty(reload);
      }
      Finish(insert);
      outcome := insert;
    }

    method UpdateSection(id: Id, patch: SectionPatch, reply: Remote<()>) returns (outcome: Remote<()>)
      modifies this
      ensures !loading && outcome == reply
      ensures reply.Ok? ==> Snapshot() == old(Snapshot()).(
                sections := UpdateWhere(old(sections), SectionHasId(id), MergeSection(patch)))
      ensures reply.Ok? ==> error == None
      ensures reply.Fail? ==> Snapshot() == old(Snapshot())
      ensures reply.Fail? ==> error == Some(Message(reply.thrown, GenericError))
    {
      loading, error := true, None;
      if reply.Ok? {
        sections := UpdateWhere(sections, SectionHasId(id), MergeSection(patch));
      }
      Finish(reply);
      outcome := reply;
    }

    method DeleteSection(id: Id, reply: Remote<()>) returns (outcome: Remote<()>)
      modifies this
      ensures !loading && outcome == reply
      ensures reply.Ok? ==> Snapshot() == old(Snapshot()).(sections := RemoveWhere(old(sections), SectionHasId(id)))
      ensures reply.Ok? ==> error == None
      ensures reply.Fail? ==> Snapshot() == old(Snapshot())
      ensures reply.Fail? ==> error == Some(Message(reply.thrown, GenericError))
    {
      loading, error := true, None;
      if reply.Ok? {
        sections := RemoveWhere(sections, SectionHasId(id));
      }
      Finish(reply);
      outcome := reply;
    }

    /** `updateProgress`: without a current course it fails with "No current
        course" before any remote call (after `loading` was raised); otherwise
        upsert, then reload the course's progress rows. */
    method UpdateProgress(sectionId: Id, completed: bool, upsert: Remote<()>, reload: Option<seq<Progress>>)
      returns (outcome: Remote<()>)
      modifies this
      ensures !loading
      ensures old(currentCourse).None? ==> outcome == Fail(ErrorInstance(NoCurrentCourse))
      ensures old(currentCourse).None? ==> Snapshot() == old(Snapshot()) && error == Some(NoCurrentCourse)
      ensures old(currentCourse).Some? ==> outcome == upsert
      ensures old(currentCourse).Some? && upsert.Ok? ==>
                Snapshot() == old(Snapshot()).(progress := OrEmpty(reload)) && error == None
      ensures old(currentCourse).Some? && upsert.Fail? ==>
                Snapshot() == old(Snapshot()) && error == Some(Message(upsert.thrown, GenericError))
    {
      loading, error := true, None;
      if currentCourse.None? {
        outcome := Fail(ErrorInstance(NoCurrentCourse));
      } else {
        outcome := upsert;
        if upsert.Ok? {
          progress := OrEmpty(reload);
        }
      }
      Finish(outcome);
    }

    method CreateReview(insert: Remote<()>, reload: Option<seq<Review>>) returns (outcome: Remote<()>)
      modifies this
      ensures !loading && outcome == insert
      ensures insert.Ok? ==> Snapshot() == old(Snapshot()).(reviews := OrEmpty(reload)) && error == None
      ensures insert.Fail? ==> Snapshot() == old(Snapshot())
      ensures insert.Fail? ==> error == Some(Message(insert.thrown, GenericError))
    {
      loading, error := true, None;
      if insert.Ok? {
        reviews := OrEmpty(reload);
      }
      Finish(insert);
      outcome := insert;
    }

    method UpdateReview(id: Id, patch: ReviewPatch, reply: Remote<()>) returns (outcome: Remote<()>)
      modifies this
      ensures !loading && outcome == reply
      ensures reply.Ok? ==> Snapshot() == old(Snapshot()).(
                reviews := UpdateWhere(old(reviews), ReviewHasId(id), MergeReview(patch)))
      ensures reply.Ok? ==> error == None
      ensures reply.Fail? ==> Snapshot() == old(Snapshot())
      ensures reply.Fail? ==> error == Some(Message(reply.thrown, GenericError))
    {
      loading, error := true, None;
      if reply.Ok? {
        reviews := UpdateWhere(reviews, ReviewHasId(id), MergeReview(patch));
      }
      Finish(reply);
      outcome := reply;
    }

    method DeleteReview(id: Id, reply: Remote<()>) returns (outcome: Remote<()>)
      modifies this
      ensures !loading && outcome == reply
      ensures reply.Ok? ==> Snapshot() == old(Snapshot()).(reviews := RemoveWhere(old(reviews), ReviewHasId(id)))
      ensures reply.Ok? ==> error == None
      ensures reply.Fail? ==> Snapshot() == old(Snapshot())
      ensures reply.Fail? ==> error == Some(Message(reply.thrown, GenericError))
    {
      loading, error := true, None;
      if reply.Ok? {
        reviews := RemoveWhere(reviews, ReviewHasId(id));
      }
      Finish(reply);
      outcome := reply;
    }
  }

  /** After an update, a course with the id has exactly the patch's fields
      where the patch has them and its old fields elsewhere; courses with
      other ids are untouched. */
  lemma UpdateCourseFields(cs: seq<Course>, id: Id, p: CoursePatch, i: nat)
    requires i < |cs|
    ensures var u := UpdateWhere(cs, CourseHasId(id), MergeCourse(p))[i];
            if cs[i].id == id then
              (p.title.Some? ==> u.title == p.title.value) && (p.title.None? ==> u.title == cs[i].title)
              && (p.status.Some? ==> u.status == p.status.value) && (p.status.None? ==> u.status == cs[i].status)
              && (p.id.None? ==> u.id == id) && u == cs[i].Merge(p)
            else u == cs[i]
  {
    assert CourseHasId(id)(cs[i]) == (cs[i].id == id);
  }

  /** Deleting the id of a course just created, under an id not used before,
      gives the old list back. */
  lemma CreateThenDeleteCourse(cs: seq<Course>, c: Course)
    requires forall i :: 0 <= i < |cs| ==> cs[i].id != c.id
    ensures RemoveWhere([c] + cs, CourseHasId(c.id)) == cs
  {
    RemoveWhereCons(c, cs, CourseHasId(c.id));
    RemoveWhereNone(cs, CourseHasId(c.id));
  }

  /** Deleting an id after updating it is just deleting it, when the patch
      does not move the row to another id. */
  lemma DeleteAfterUpdateCourse(cs: seq<Course>, id: Id, p: CoursePatch)
    requires p.id.None? || p.id == Some(id)
    ensures RemoveWhere(UpdateWhere(cs, CourseHasId(id), MergeCourse(p)), CourseHasId(id))
            == RemoveWhere(cs, CourseHasId(id))
  {
    RemoveAfterUpdate(cs, CourseHasId(id), MergeCourse(p));
  }

  /** Applying the same course patch twice is applying it once. */
  lemma UpdateCourseTwice(cs: seq<Course>, id: Id, p: CoursePatch)
    requires p.id.None? || p.id == Some(id)
    ensures UpdateWhere(UpdateWhere(cs, CourseHasId(id), MergeCourse(p)), CourseHasId(id), MergeCourse(p))
            == UpdateWhere(cs, CourseHasId(id), MergeCourse(p))
  {
    forall c | CourseHasId(id)(c)
      ensures CourseHasId(id)(MergeCourse(p)(c)) && MergeCourse(p)(MergeCourse(p)(c)) == MergeCourse(p)(c)
    {
      CourseMergeLaws(c, c, p);
    }
    UpdateWhereTwice(cs, CourseHasId(id), MergeCourse(p));
  }
}

=== FILE: courses_page.dfy ===
/** The courses page: the search and level filters and the sort over the
    loaded courses. */
module CoursesPage {
  import opened Seqs
  import opened Entities

  /** The level value that switches the level filter off. */
  const AllLevels := "all"

  /** `selectedSort`: the most recent first, one of the two orders the page
      only simulates with a random comparator, or any other value, which
      leaves the order alone. */
  datatype CourseSort = Recent | Popular | Rating | Unsorted

  function CreatedAt(): Course -> int {
    (c: Course) => c.createdAt
  }

  /** The lowercased title or description contains the lowercased term. */
  predicate SearchHit(c: Course, term: string) {
    Includes(ToLower(c.title), ToLower(term)) || Includes(ToLower(c.description), ToLower(term))
  }

  /** Whether the page lists a course: an empty term or the level "all"
      switches the corresponding filter off. */
  predicate Shown(c: Course, term: string, level: string) {
    (term == [] || SearchHit(c, term)) && (level == AllLevels || c.level == level)
  }

  function ShownBy(term: string, level: string): Course -> bool {
    (c: Course) => Shown(c, term, level)
  }

  function SearchOk(term: string): Course -> bool {
    (c: Course) => term == [] || SearchHit(c, term)
  }

  function LevelOk(level: string): Course -> bool {
    (c: Course) => level == AllLevels || c.level == level
  }

  function SearchBy(term: string): Course -> bool {
    (c: Course) => SearchHit(c, term)
  }

  function AtLevel(level: string): Course -> bool {
    (c: Course) => c.level == level
  }

  /** The courses the page lists, in the loaded order. */
  function Listed(courses: seq<Course>, term: string, level: string): (r: seq<Course>)
    ensures forall x :: x in r <==> x in courses && Shown(x, term, level)
    ensures multiset(r) <= multiset(courses)
    ensures Subsequence(r, courses)
  {
    var l := Filter(courses, ShownBy(term, level));
    assert forall x :: x in multiset(l) ==> multiset(l)[x] <= multiset(courses)[x];
    l
  }

  /** The search filter, applied only to a non-empty term. */
  function BySearch(courses: seq<Course>, term: string): (r: seq<Course>)
    ensures r == Filter(courses, SearchOk(term))
  {
    if term != [] then
      FilterAgree(courses, SearchBy(term), SearchOk(term));
      Filter(courses, SearchBy(term))
    else
      FilterKeepsAll(courses, SearchOk(term));
      courses
  }

  /** The level filter, applied unless the level is "all". */
  function ByLevel(courses: seq<Course>, level: string): (r: seq<Course>)
    ensures r == Filter(courses, LevelOk(level))
  {
    if level != AllLevels then
      FilterAgree(courses, AtLevel(level), LevelOk(level));
      Filter(courses, AtLevel(level))
    else
      FilterKeepsAll(courses, LevelOk(level));
      courses
  }

  /** The two filters applied in turn are the one filter `Shown`. */
  lemma FilteredIsListed(courses: seq<Course>, term: string, level: string)
    ensures ByLevel(BySearch(courses, term), level) == Listed(courses, term, level)
  {
    FilterBoth(courses, SearchOk(term), LevelOk(level));
    FilterAgree(courses, Both(SearchOk(term), LevelOk(level)), ShownBy(term, level));
  }

  /** `filteredAndSortedCourses`: the listed courses, the most recent first
      under `Recent` (ties in the loaded order), in the loaded order when the
      sort is not one the page knows.  Under the two random sorts the
      contract says only which courses are listed. */
  method FilteredAndSorted(courses: seq<Course>, term: string, level: string, sortBy: CourseSort)
    returns (result: seq<Course>)
    ensures multiset(result) == multiset(Listed(courses, term, level))
    ensures forall c :: c in result <==> c in courses && Shown(c, term, level)
    ensures sortBy == Recent ==> result == SortDesc(Listed(courses, term, level), CreatedAt())
    ensures sortBy == Recent ==> SortedDesc(result, CreatedAt())
    ensures sortBy == Unsorted ==> result == Listed(courses, term, level)
  {
    result := courses;
    if term != [] {
      result := Filter(result, SearchBy(term));
    }
    if level != AllLevels {
      result := Filter(result, AtLevel(level));
    }
    assert result == ByLevel(BySearch(courses, term), level);
    FilteredIsListed(courses, term, level);
    var shown := result;
    if sortBy == Recent {
      SortDescSorted(shown, CreatedAt());
      result := SortDesc(shown, CreatedAt());
    }
    SameMembers(result, shown);
  }

  /** Under `Recent`, courses created at the same time keep their loaded
      order. */
  lemma SameDateKeepsLoadedOrder(courses: seq<Course>, term: string, level: string, v: int)
    ensures Filter(SortDesc(Listed(courses, term, level), CreatedAt()), Having(CreatedAt(), v))
            == Filter(Listed(courses, term, level), Having(CreatedAt(), v))
  {
    SortDescStable(Listed(courses, term, level), CreatedAt(), v);
  }
}

=== FILE: diagram_editor.dfy ===
/** The diagram editor: a canvas of shapes that can be added with a tool,
    dragged, undone and redone, and saved under a title. */
module DiagramEditor {
  import opened Wrappers
  import opened Seqs
  import opened Entities

  // ---------------------------------------------------------------------
  // The undo history: the recorded canvases and the position of the one on
  // screen, -1 before anything is recorded.
  // ---------------------------------------------------------------------

  datatype History = History(entries: seq<seq<Shape>>, index: int)
  {
    predicate WellFormed() {
      -1 <= index < |entries|
    }

    predicate CanUndo() { index > 0 }

    predicate CanRedo() { index < |entries| - 1 }
  }

  const Initial := History([], -1)

  /** The effect run after every change of the shapes, as written: it records
      only when the index is behind the end of the history. */
  function RecordAsWritten(h: History, shapes: seq<Shape>): (r: History)
    requires h.WellFormed()
    ensures r.WellFormed()
    ensures !(|shapes| > 0 && h.CanRedo()) ==> r == h
  {
    if |shapes| > 0 && h.index < |h.entries| - 1 then
      History(h.entries[..h.index + 1] + [shapes], h.index + 1)
    else h
  }

  /** `handleUndo` on the history: one step back when possible. */
  function Undo(h: History): (r: History)
    requires h.WellFormed()
    ensures r.WellFormed() && r.entries == h.entries
    ensures h.CanUndo() ==> r.index == h.index - 1
    ensures !h.CanUndo() ==> r == h
  {
    if h.index > 0 then History(h.entries, h.index - 1) else h
  }

  /** `handleRedo` on the history: one step forward when possible. */
  function Redo(h: History): (r: History)
    requires h.WellFormed()
    ensures r.WellFormed() && r.entries == h.entries
    ensures h.CanRedo() ==> r.index == h.index + 1
    ensures !h.CanRedo() ==> r == h
  {
    if h.index < |h.entries| - 1 then History(h.entries, h.index + 1) else h
  }

  /** What can happen to the history. */
  datatype Event = ShapesChanged(shapes: seq<Shape>) | UndoPressed | RedoPressed

  function Step(h: History, e: Event): (r: History)
    requires h.WellFormed()
    ensures r.WellFormed()
  {
    match e
    case ShapesChanged(shapes) => RecordAsWritten(h, shapes)
    case UndoPressed => Undo(h)
    case RedoPressed => Redo(h)
  }

  function Run(h: History, events: seq<Event>): (r: History)
    requires h.WellFormed()
    ensures r.WellFormed()
    decreases |events|
  {
    if events == [] then h else Run(Step(h, events[0]), events[1..])
  }

  /** As written, nothing is ever recorded: the guard needs an index behind
      the end, which only a recording could create, so whatever the user
      does the history stays empty and undo and redo stay disabled. */
  lemma {:induction false} HistoryStaysEmpty(events: seq<Event>)
    ensures Run(Initial, events) == Initial
    ensures !Run(Initial, events).CanUndo() && !Run(Initial, events).CanRedo()
    decreases |events|
  {
    if events != [] {
      assert Step(Initial, events[0]) == Initial;
      HistoryStaysEmpty(events[1..]);
    }
  }

  /** Whether `shapes` is a canvas the history does not already show: a
      non-empty one, other than the entry at the index.  `handleUndo` and
      `handleRedo` put that entry back on screen, which runs the effect
      again; such a canvas is not a new step. */
  predicate IsNewCanvas(h: History, shapes: seq<Shape>)
    requires h.WellFormed()
  {
    |shapes| > 0 && (h.index < 0 || h.entries[h.index] != shapes)
  }

  /** What the effect is evidently meant to do: save every new canvas,
      dropping the steps that were undone. */
  function Record(h: History, shapes: seq<Shape>): (r: History)
    requires h.WellFormed()
    ensures r.WellFormed()
    ensures IsNewCanvas(h, shapes) ==> r.index == h.index + 1 && r.entries[r.index] == shapes
    ensures IsNewCanvas(h, shapes) ==> r.entries[..r.index] == h.entries[..h.index + 1]
    ensures !IsNewCanvas(h, shapes) ==> r == h
  {
    if IsNewCanvas(h, shapes) then
      var kept := h.entries[..h.index + 1];
      assert (kept + [shapes])[..h.index + 1] == kept;
      History(kept + [shapes], h.index + 1)
    else h
  }

  /** The events with the intended recording: an undo or a redo that acts
      sets the shapes to the entry it moves to, and the effect follows. */
  function StepIntended(h: History, e: Event): (r: History)
    requires h.WellFormed()
    ensures r.WellFormed()
  {
    match e
    case ShapesChanged(shapes) => Record(h, shapes)
    case UndoPressed => if h.CanUndo() then Record(Undo(h), h.entries[h.index - 1]) else h
    case RedoPressed => if h.CanRedo() then Record(Redo(h), h.entries[h.index + 1]) else h
  }

  function RunIntended(h: History, events: seq<Event>): (r: History)
    requires h.WellFormed()
    ensures r.WellFormed()
    decreases |events|
  {
    if events == [] then h else RunIntended(StepIntended(h, events[0]), events[1..])
  }

  /** The effect that follows an undo or a redo records nothing: the step is
      exactly the move of the index. */
  lemma EffectAfterUndoRedo(h: History)
    requires h.WellFormed()
    ensures StepIntended(h, UndoPressed) == Undo(h)
    ensures StepIntended(h, RedoPressed) == Redo(h)
  {
  }

  /** With the intended recording, a first non-empty canvas is recorded, and
      a new canvas can be undone back to the one saved before it and then
      redone, the effect running after each; nothing is left to redo after
      a change. */
  lemma UndoRedoRoundTrip(h: History, shapes: seq<Shape>)
    requires h.WellFormed() && IsNewCanvas(h, shapes)
    ensures var r := RunIntended(h, [ShapesChanged(shapes)]);
            r.index >= 0 && r.entries[r.index] == shapes && !r.CanRedo()
    ensures h.index >= 0 ==>
              var u := RunIntended(h, [ShapesChanged(shapes), UndoPressed]);
              u.index >= 0 && u.entries[u.index] == h.entries[h.index]
    ensures h.index >= 0 ==>
              RunIntended(h, [ShapesChanged(shapes), UndoPressed, RedoPressed]) == RunIntended(h, [ShapesChanged(shapes)])
  {
    var r := Record(h, shapes);
    RunIntendedSteps(h, ShapesChanged(shapes), UndoPressed, RedoPressed);
    if h.index >= 0 {
      EffectAfterUndoRedo(r);
      EffectAfterUndoRedo(Undo(r));
      assert r.entries[h.index] == r.entries[..r.index][h.index];
    }
  }

  /** Runs of one, two and three events, step by step. */
  lemma RunIntendedSteps(h: History, e1: Event, e2: Event, e3: Event)
    requires h.WellFormed()
    ensures RunIntended(h, [e1]) == StepIntended(h, e1)
    ensures RunIntended(h, [e1, e2]) == StepIntended(StepIntended(h, e1), e2)
    ensures RunIntended(h, [e1, e2, e3]) == StepIntended(StepIntended(StepIntended(h, e1), e2), e3)
  {
    assert [e1][1..] == [] && [e1, e2][1..] == [e2] && [e2][1..] == [];
    assert [e1, e2, e3][1..] == [e2, e3] && [e2, e3][1..] == [e3];
    var h1 := StepIntended(h, e1);
    var h2 := StepIntended(h1, e2);
    assert RunIntended(h1, [e2]) == RunIntended(h2, []) == h2;
    assert RunIntended(h2, [e3]) == StepIntended(h2, e3);
    assert RunIntended(h1, [e2, e3]) == RunIntended(h2, [e3]);
  }

  /** Undoing and redoing never changes the recorded canvases, and a redo
      takes back an undo. */
  lemma RedoAfterUndo(h: History)
    requires h.WellFormed() && h.CanUndo()
    ensures Redo(Undo(h)) == h
  {
  }

  lemma UndoAfterRedo(h: History)
    requires h.WellFormed() && h.CanRedo() && h.index >= 0
    ensures Undo(Redo(h)) == h
  {
  }

  // ---------------------------------------------------------------------
  // Shapes.
  // ---------------------------------------------------------------------

  /** The shape a click with a tool creates at the clicked point. */
  function NewShape(id: Id, kind: ShapeKind, x: int, y: int): Shape {
    Shape(id, kind, x, y, 100, 100, "#4f46e5", "#ffffff", 2)
  }

  function ShapeHasId(id: Id): Shape -> bool {
    (s: Shape) => s.id == id
  }

  function MovedTo(x: int, y: int): Shape -> Shape {
    (s: Shape) => s.(x := x, y := y)
  }

  function ShapeIds(shapes: seq<Shape>): set<Id> {
    set i | 0 <= i < |shapes| :: shapes[i].id
  }

  const TitleRequired := "Le titre est requis"

  /** Every field of the editor that its handlers may change. */
  datatype EditorState = EditorState(
    title: string, description: string, shapes: seq<Shape>, selectedShape: Option<Shape>,
    selectedTool: Option<ShapeKind>, history: seq<seq<Shape>>, historyIndex: int, error: string)

  class Editor {
    const diagram: Diagram
    var title: string
    var description: string
    var shapes: seq<Shape>
    var selectedShape: Option<Shape>
    var selectedTool: Option<ShapeKind>
    var history: seq<seq<Shape>>
    var historyIndex: int
    var error: string

    function Recorded(): History
      reads this
    {
      History(history, historyIndex)
    }

    function State(): EditorState
      reads this
    {
      EditorState(title, description, shapes, selectedShape, selectedTool, history, historyIndex, error)
    }

    predicate Valid()
      reads this
    {
      Recorded().WellFormed()
    }

    constructor (d: Diagram)
      ensures diagram == d && title == d.title && description == d.description && shapes == d.shapes
      ensures selectedShape == None && selectedTool == None && error == ""
      ensures Recorded() == Initial && Valid()
    {
      diagram := d;
      title, description, shapes := d.title, d.description, d.shapes;
      selectedShape, selectedTool := None, None;
      history, historyIndex := [], -1;
      error := "";
    }

    /** The effect that follows each change of the shapes. */
    method RecordShapes()
      requires Valid()
      modifies this
      ensures Valid() && Recorded() == RecordAsWritten(old(Recorded()), shapes)
      ensures State() == old(State()).(history := history, historyIndex := historyIndex)
    {
      if |shapes| > 0 && historyIndex < |history| - 1 {
        history := history[..historyIndex + 1] + [shapes];
        historyIndex := historyIndex + 1;
      }
    }

    method HandleUndo()
      requires Valid()
      modifies this
      ensures Valid() && Recorded() == Undo(old(Recorded()))
      ensures old(Recorded()).CanUndo() ==> shapes == old(history)[old(historyIndex) - 1]
      ensures !old(Recorded()).CanUndo() ==> shapes == old(shapes)
      ensures State() == old(State()).(shapes := shapes, historyIndex := historyIndex)
    {
      if historyIndex > 0 {
        historyIndex := historyIndex - 1;
        shapes := history[historyIndex];
      }
    }

    method HandleRedo()
      requires Valid()
      modifies this
      ensures Valid() && Recorded() == Redo(old(Recorded()))
      ensures old(Recorded()).CanRedo() ==> shapes == old(history)[old(historyIndex) + 1]
      ensures !old(Recorded()).CanRedo() ==> shapes == old(shapes)
      ensures State() == old(State()).(shapes := shapes, historyIndex := historyIndex)
    {
      if historyIndex < |history| - 1 {
        historyIndex := historyIndex + 1;
        shapes := history[historyIndex];
      }
    }

    method SelectTool(tool: Option<ShapeKind>)
      modifies this
      ensures State() == old(State()).(selectedTool := tool)
    {
      selectedTool := tool;
    }

    /** `handleCanvasClick` at (x, y): with a tool chosen and the canvas on
        screen, one shape of that tool is added at the end and selected.
        `freshId` stands for the random identifier. */
    method HandleCanvasClick(x: int, y: int, canvasReady: bool, freshId: Id)
      requires freshId !in ShapeIds(shapes)
      modifies this
      ensures selectedTool.None? || !canvasReady ==>
                shapes == old(shapes) && selectedShape == old(selectedShape)
      ensures selectedTool.Some? && canvasReady ==>
                shapes == old(shapes) + [NewShape(freshId, selectedTool.value, x, y)]
                && selectedShape == Some(NewShape(freshId, selectedTool.value, x, y))
      ensures State() == old(State()).(shapes := shapes, selectedShape := selectedShape)
    {
      if selectedTool.None? || !canvasReady {
        return;
      }
      var shape := NewShape(freshId, selectedTool.value, x, y);
      shapes := shapes + [shape];
      selectedShape := Some(shape);
    }

    method HandleShapeClick(shape: Shape)
      modifies this
      ensures State() == old(State()).(selectedShape := Some(shape))
    {
      selectedShape := Some(shape);
    }

    /** `handleShapeDrag`: the shapes with the dragged shape's id move to the
        mouse position; every other shape stays. */
    method HandleShapeDrag(id: Id, x: int, y: int, canvasReady: bool)
      modifies this
      ensures !canvasReady ==> shapes == old(shapes)
      ensures canvasReady ==> shapes == UpdateWhere(old(shapes), ShapeHasId(id), MovedTo(x, y))
      ensures |shapes| == |old(shapes)|
      ensures forall i :: 0 <= i < |shapes| && old(shapes)[i].id != id ==> shapes[i] == old(shapes)[i]
      ensures canvasReady ==> forall i :: 0 <= i < |shapes| && old(shapes)[i].id == id ==>
                shapes[i] == old(shapes)[i].(x := x, y := y)
      ensures State() == old(State()).(shapes := shapes)
    {
      if !canvasReady {
        return;
      }
      shapes := UpdateWhere(shapes, ShapeHasId(id), MovedTo(x, y));
    }

    method SetTitle(t: string)
      modifies this
      ensures State() == old(State()).(title := t)
    {
      title := t;
    }

    method SetDescription(d: string)
      modifies this
      ensures State() == old(State()).(description := d)
    {
      description := d;
    }

    /** `handleSubmit`: refused without a title; otherwise the diagram is
        handed over with the edited title, description and shapes. */
    method HandleSubmit(saveReply: Remote<()>) returns (sent: Option<Diagram>)
      modifies this
      ensures State() == old(State()).(error := error)
      ensures title == "" <==> sent.None?
      ensures title == "" ==> error == TitleRequired
      ensures sent.Some? ==> sent.value == diagram.(title := title, description := description, shapes := shapes)
      ensures sent.Some? && saveReply.Ok? ==> error == ""
      ensures sent.Some? && saveReply.Fail? ==> error == Message(saveReply.thrown, "Une erreur est survenue")
    {
      error := "";
      if title == "" {
        error := TitleRequired;
        return None;
      }
      sent := Some(diagram.(title := title, description := description, shapes := shapes));
      if saveReply.Fail? {
        error := Message(saveReply.thrown, "Une erreur est survenue");
      }
    }
  }

  /** A new shape gets an id no other shape has, so dragging it moves it
      alone. */
  lemma DragNewShapeOnly(shapes: seq<Shape>, id: Id, kind: ShapeKind, x: int, y: int, nx: int, ny: int)
    requires id !in ShapeIds(shapes)
    ensures UpdateWhere(shapes + [NewShape(id, kind, x, y)], ShapeHasId(id), MovedTo(nx, ny))
            == shapes + [NewShape(id, kind, nx, ny)]
  {
    var r := UpdateWhere(shapes + [NewShape(id, kind, x, y)], ShapeHasId(id), MovedTo(nx, ny));
    forall i | 0 <= i < |shapes| ensures r[i] == shapes[i] {
      assert shapes[i].id in ShapeIds(shapes);
    }
  }
}

=== FILE: diagram_store.dfy ===
/** The diagram store: the diagrams of a section and the diagram being
    edited. */
module DiagramStore {
  import opened Wrappers
  import opened Seqs
  import opened Entities

  function DiagramHasId(id: Id): Diagram -> bool {
    (d: Diagram) => d.id == id
  }

  function MergeDiagram(p: DiagramPatch): Diagram -> Diagram {
    (d: Diagram) => d.Merge(p)
  }

  class Store {
    var diagrams: seq<Diagram>
    var currentDiagram: Option<Diagram>
    var loading: bool
    var error: Option<string>

    constructor ()
      ensures diagrams == [] && currentDiagram == None && !loading && error == None
    {
      diagrams := [];
      currentDiagram := None;
      loading := false;
      error := None;
    }

    method FetchDiagrams(sectionId: Id, reply: Remote<seq<Diagram>>)
      modifies this
      ensures !loading && currentDiagram == old(currentDiagram)
      ensures reply.Ok? ==> diagrams == reply.value && error == None
      ensures reply.Fail? ==> diagrams == old(diagrams)
      ensures reply.Fail? ==> error == Some(Message(reply.thrown, GenericError))
    {
      loading, error := true, None;
      match reply {
        case Ok(data) =>
          diagrams := data;
        case Fail(thrown) =>
          error := Some(Message(thrown, GenericError));
      }
      loading := false;
    }

    method FetchDiagram(id: Id, reply: Remote<Diagram>)
      modifies this
      ensures !loading && diagrams == old(diagrams)
      ensures reply.Ok? ==> currentDiagram == Some(reply.value) && error == None
      ensures reply.Fail? ==> currentDiagram == old(currentDiagram)
      ensures reply.Fail? ==> error == Some(Message(reply.thrown, GenericError))
    {
      loading, error := true, None;
      match reply {
        case Ok(data) =>
          currentDiagram := Some(data);
        case Fail(thrown) =>
          error := Some(Message(thrown, GenericError));
      }
      loading := false;
    }

    method CreateDiagram(reply: Remote<Diagram>) returns (outcome: Remote<Diagram>)
      modifies this
      ensures !loading && outcome == reply && currentDiagram == old(currentDiagram)
      ensures reply.Ok? ==> diagrams == [reply.value] + old(diagrams) && error == None
      ensures reply.Fail? ==> diagrams == old(diagrams)
      ensures reply.Fail? ==> error == Some(Message(reply.thrown, GenericError))
    {
      loading, error := true, None;
      match reply {
        case Ok(data) =>
          diagrams := [data] + diagrams;
        case Fail(thrown) =>
          error := Some(Message(thrown, GenericError));
      }
      loading := false;
      outcome := reply;
    }

    method UpdateDiagram(id: Id, patch: DiagramPatch, reply: Remote<()>) returns (outcome: Remote<()>)
      modifies this
      ensures !loading && outcome == reply
      ensures reply.Ok? ==> diagrams == UpdateWhere(old(diagrams), DiagramHasId(id), MergeDiagram(patch))
      ensures reply.Ok? ==> currentDiagram == UpdateIf(old(currentDiagram), DiagramHasId(id), MergeDiagram(patch))
      ensures reply.Ok? ==> error == None
      ensures reply.Fail? ==> diagrams == old(diagrams) && currentDiagram == old(currentDiagram)
      ensures reply.Fail? ==> error == Some(Message(reply.thrown, GenericError))
    {
      loading, error := true, None;
      match reply {
        case Ok(_) =>
          diagrams := UpdateWhere(diagrams, DiagramHasId(id), MergeDiagram(patch));
          currentDiagram := UpdateIf(currentDiagram, DiagramHasId(id), MergeDiagram(patch));
        case Fail(thrown) =>
          error := Some(Message(thrown, GenericError));
      }
      loading := false;
      outcome := reply;
    }

    method DeleteDiagram(id: Id, reply: Remote<()>) returns (outcome: Remote<()>)
      modifies this
      ensures !loading && outcome == reply
      ensures reply.Ok? ==> diagrams == RemoveWhere(old(diagrams), DiagramHasId(id))
      ensures reply.Ok? ==> currentDiagram == ClearIf(old(currentDiagram), DiagramHasId(id))
      ensures reply.Ok? ==> error == None
      ensures reply.Fail? ==> diagrams == old(diagrams) && currentDiagram == old(currentDiagram)
      ensures reply.Fail? ==> error == Some(Message(reply.thrown, GenericError))
    {
      loading, error := true, None;
      match reply {
        case Ok(_) =>
          diagrams := RemoveWhere(diagrams, DiagramHasId(id));
          currentDiagram := ClearIf(currentDiagram, DiagramHasId(id));
        case Fail(thrown) =>
          error := Some(Message(thrown, GenericError));
      }
      loading := false;
      outcome := reply;
    }
  }

  /** Saving the editor's shapes replaces exactly the shapes of the diagrams
      with the id and keeps their other fields. */
  lemma SaveShapes(ds: seq<Diagram>, id: Id, shapes: seq<Shape>, i: nat)
    requires i < |ds|
    ensures var u := UpdateWhere(ds, DiagramHasId(id), MergeDiagram(DiagramPatch(None, None, None, None, Some(shapes))))[i];
            if ds[i].id == id then u == ds[i].(shapes := shapes) else u == ds[i]
  {
    assert DiagramHasId(id)(ds[i]) == (ds[i].id == id);
  }

  /** Deleting a diagram after updating it is just deleting it, when the patch
      does not move the row to another id. */
  lemma DeleteAfterUpdateDiagram(ds: seq<Diagram>, id: Id, p: DiagramPatch)
    requires p.id.None? || p.id == Some(id)
    ensures RemoveWhere(UpdateWhere(ds, DiagramHasId(id), MergeDiagram(p)), DiagramHasId(id))
            == RemoveWhere(ds, DiagramHasId(id))
  {
    RemoveAfterUpdate(ds, DiagramHasId(id), MergeDiagram(p));
  }
}

=== FILE: entities.dfy ===
/** The rows the stores cache, with the fields the code reads or writes, and
    the partial rows (`Partial<T>`) that update actions shallow-merge into
    them.  A patch holds `Some(v)` for every key present in the object
    literal and `None` for every absent key; `{...row, ...patch}` keeps the
    row's value exactly where the patch has none. */
module Entities {
  import opened Wrappers

  type Id = string

  /** The value of `v` if the patch has one, else the row's `current`. */
  function Pick<T>(v: Option<T>, current: T): T {
    if v.Some? then v.value else current
  }

  // ----- courses -----------------------------------------------------------

  /** The workflow states of a course. */
  datatype CourseStatus = Draft | Pending | Published | Rejected

  datatype Course = Course(
    id: Id, title: string, description: string, level: string, duration: int,
    imageUrl: string, authorId: Id, createdAt: int, status: CourseStatus)
  {
    function Merge(p: CoursePatch): Course {
      Course(Pick(p.id, id), Pick(p.title, title), Pick(p.description, description),
             Pick(p.level, level), Pick(p.duration, duration), Pick(p.imageUrl, imageUrl),
             Pick(p.authorId, authorId), Pick(p.createdAt, createdAt), Pick(p.status, status))
    }
  }

  datatype CoursePatch = CoursePatch(
    id: Option<Id>, title: Option<string>, description: Option<string>, level: Option<string>,
    duration: Option<int>, imageUrl: Option<string>, authorId: Option<Id>,
    createdAt: Option<int>, status: Option<CourseStatus>)

  const NoCourseChange := CoursePatch(None, None, None, None, None, None, None, None, None)

  /** Every field of `c`, as a patch: what `setFormData(currentCourse)` holds. */
  function CourseAsPatch(c: Course): CoursePatch {
    CoursePatch(Some(c.id), Some(c.title), Some(c.description), Some(c.level), Some(c.duration),
                Some(c.imageUrl), Some(c.authorId), Some(c.createdAt), Some(c.status))
  }

  /** Merging is idempotent, the empty patch changes nothing, and a patch that
      carries every field replaces the row. */
  lemma CourseMergeLaws(c: Course, d: Course, p: CoursePatch)
    ensures c.Merge(p).Merge(p) == c.Merge(p)
    ensures c.Merge(NoCourseChange) == c
    ensures c.Merge(CourseAsPatch(d)) == d
    ensures p.id.None? ==> c.Merge(p).id == c.id
  {
  }

  datatype Section = Section(
    id: Option<Id>, courseId: Option<Id>, title: string, content: string, orderIndex: int)
  {
    function Merge(p: SectionPatch): Section {
      Section(if p.id.Some? then p.id else id, if p.courseId.Some? then p.courseId else courseId,
              Pick(p.title, title), Pick(p.content, content), Pick(p.orderIndex, orderIndex))
    }
  }

  datatype SectionPatch = SectionPatch(
    id: Option<Id>, courseId: Option<Id>, title: Option<string>, content: Option<string>,
    orderIndex: Option<int>)

  datatype Progress = Progress(id: Id, sectionId: Id, courseId: Id, completed: bool)

  datatype Review = Review(id: Id, courseId: Id, userId: Id, rating: int, comment: string)
  {
    function Merge(p: ReviewPatch): Review {
      Review(Pick(p.id, id), Pick(p.courseId, courseId), Pick(p.userId, userId),
             Pick(p.rating, rating), Pick(p.comment, comment))
    }
  }

  datatype ReviewPatch = ReviewPatch(
    id: Option<Id>, courseId: Option<Id>, userId: Option<Id>, rating: Option<int>,
    comment: Option<string>)

  // ----- quizzes -----------------------------------------------------------

  datatype Quiz = Quiz(id: Id, sectionId: Id, title: string, description: string)
  {
    function Merge(p: QuizPatch): Quiz {
      Quiz(Pick(p.id, id), Pick(p.sectionId, sectionId), Pick(p.title, title),
           Pick(p.description, description))
    }
  }

  datatype QuizPatch = QuizPatch(
    id: Option<Id>, sectionId: Option<Id>, title: Option<string>, description: Option<string>)

  datatype QuestionType = MultipleChoice | TrueFalse | Open

  /** A stored quiz question. */
  datatype Question = Question(
    id: Id, quizId: Id, text: string, kind: QuestionType, options: seq<string>,
    correctAnswer: string, explanation: string, orderIndex: int)
  {
    function Merge(p: QuestionPatch): Question {
      Question(Pick(p.id, id), Pick(p.quizId, quizId), Pick(p.text, text),
               Pick(p.kind, kind), Pick(p.options, options), Pick(p.correctAnswer, correctAnswer),
               Pick(p.explanation, explanation), Pick(p.orderIndex, orderIndex))
    }
  }

  datatype QuestionPatch = QuestionPatch(
    id: Option<Id>, quizId: Option<Id>, text: Option<string>, kind: Option<QuestionType>,
    options: Option<seq<string>>, correctAnswer: Option<string>, explanation: Option<string>,
    orderIndex: Option<int>)

  datatype Attempt = Attempt(id: Id, quizId: Id, answers: map<Id, string>, score: Option<int>)

  // ----- diagrams ----------------------------------------------------------

  datatype ShapeKind = Rectangle | Circle | Triangle | Line | Text | Image

  /** A shape on the diagram canvas; coordinates are whole pixels. */
  datatype Shape = Shape(
    id: Id, kind: ShapeKind, x: int, y: int, width: int, height: int,
    fill: string, stroke: string, strokeWidth: int)

  datatype Diagram = Diagram(
    id: Id, sectionId: Id, title: string, description: string, shapes: seq<Shape>)
  {
    function Merge(p: DiagramPatch): Diagram {
      Diagram(Pick(p.id, id), Pick(p.sectionId, sectionId), Pick(p.title, title),
              Pick(p.description, description), Pick(p.shapes, shapes))
    }
  }

  datatype DiagramPatch = DiagramPatch(
    id: Option<Id>, sectionId: Option<Id>, title: Option<string>, description: Option<string>,
    shapes: Option<seq<Shape>>)

  // ----- forum -------------------------------------------------------------

  datatype Category = Category(id: Id, name: string, orderIndex: int)

  datatype Topic = Topic(
    id: Id, categoryId: Id, authorId: Id, title: string, content: string, tags: seq<string>,
    isPinned: bool, viewsCount: int, postsCount: int, lastPostAt: int)
  {
    function Merge(p: TopicPatch): Topic {
      Topic(Pick(p.id, id), Pick(p.categoryId, categoryId), Pick(p.authorId, authorId),
            Pick(p.title, title), Pick(p.content, content), Pick(p.tags, tags),
            Pick(p.isPinned, isPinned), Pick(p.viewsCount, viewsCount),
            Pick(p.postsCount, postsCount), Pick(p.lastPostAt, lastPostAt))
    }
  }

  datatype TopicPatch = TopicPatch(
    id: Option<Id>, categoryId: Option<Id>, authorId: Option<Id>, title: Option<string>,
    content: Option<string>, tags: Option<seq<string>>, isPinned: Option<bool>,
    viewsCount: Option<int>, postsCount: Option<int>, lastPostAt: Option<int>)

  datatype Post = Post(id: Id, topicId: Id, authorId: Id, content: string, isSolution: bool)
  {
    function Merge(p: PostPatch): Post {
      Post(Pick(p.id, id), Pick(p.topicId, topicId), Pick(p.authorId, authorId),
           Pick(p.content, content), Pick(p.isSolution, isSolution))
    }
  }

  datatype PostPatch = PostPatch(
    id: Option<Id>, topicId: Option<Id>, authorId: Option<Id>, content: Option<string>,
    isSolution: Option<bool>)

  datatype ReactionType = Like | Helpful | Insightful | Agree | Disagree

  datatype Reaction = Reaction(id: Id, postId: Id, userId: Id, kind: ReactionType)

  // ----- resources ---------------------------------------------------------

  datatype Tag = Tag(id: Id, name: string, color: string)

  /** One row of the nested `resource_tag_relations(resource_tags(*))` select. */
  datatype TagRelation = TagRelation(tag: Tag)

  /** A resource as the select returns it, with its tag relations nested
      (absent when the relation is null). */
  datatype RawResource = RawResource(
    id: Id, title: string, description: string, url: string, kind: string,
    helpfulnessScore: int, votesUp: int, votesDown: int, createdAt: int,
    relations: Option<seq<TagRelation>>)

  /** A resource as the store keeps it: the tags themselves. */
  datatype Resource = Resource(
    id: Id, title: string, description: string, url: string, kind: string,
    helpfulnessScore: int, votesUp: int, votesDown: int, createdAt: int, tags: seq<Tag>)

  datatype VoteType = HelpfulVote | NotHelpfulVote

  datatype Vote = Vote(id: Id, resourceId: Id, kind: VoteType)

  // ----- notifications and accounts -----------------------------------------

  datatype Notification = Notification(id: Id, message: string, read: bool)

  datatype Role = User | Author | Admin

  datatype Profile = Profile(id: Id, username: string, avatarUrl: string, role: Role)

  /** The authenticated user of the session. */
  datatype AuthUser = AuthUser(id: Id, email: string, emailConfirmed: bool)
}

=== FILE: forum_page.dfy ===
/** The forum page: the category, search and tag filters and the sort over
    the loaded topics. */
module ForumPage {
  import opened Wrappers
  import opened Seqs
  import opened Entities

  /** `sortBy`: always one of the three orders. */
  datatype TopicSort = RecentPosts | MostViewed | MostReplies

  function SortKey(sortBy: TopicSort): Topic -> int {
    match sortBy
    case RecentPosts => (t: Topic) => t.lastPostAt
    case MostViewed => (t: Topic) => t.viewsCount
    case MostReplies => (t: Topic) => t.postsCount
  }

  predicate SearchHit(t: Topic, term: string) {
    Includes(ToLower(t.title), ToLower(term)) || Includes(ToLower(t.content), ToLower(term))
  }

  /** Every selected tag is among the topic's tags. */
  predicate HasAllTags(t: Topic, selected: seq<string>) {
    forall i :: 0 <= i < |selected| ==> selected[i] in t.tags
  }

  /** Whether the page lists a topic: no category, an empty term or an empty
      selection switches the corresponding filter off. */
  predicate Shown(t: Topic, category: Option<Id>, term: string, selected: seq<string>) {
    (category.None? || t.categoryId == category.value)
    && (term == [] || SearchHit(t, term))
    && HasAllTags(t, selected)
  }

  function ShownBy(category: Option<Id>, term: string, selected: seq<string>): Topic -> bool {
    (t: Topic) => Shown(t, category, term, selected)
  }

  function InCategory(id: Id): Topic -> bool {
    (t: Topic) => t.categoryId == id
  }

  function SearchBy(term: string): Topic -> bool {
    (t: Topic) => SearchHit(t, term)
  }

  function TagsBy(selected: seq<string>): Topic -> bool {
    (t: Topic) => HasAllTags(t, selected)
  }

  /** Each filter of the page, with its switch folded in. */
  function CategoryOk(category: Option<Id>): Topic -> bool {
    (t: Topic) => category.None? || t.categoryId == category.value
  }

  function SearchOk(term: string): Topic -> bool {
    (t: Topic) => term == [] || SearchHit(t, term)
  }

  /** The topics the page lists, in the loaded order. */
  function Listed(topics: seq<Topic>, category: Option<Id>, term: string, selected: seq<string>): (r: seq<Topic>)
    ensures forall x :: x in r <==> x in topics && Shown(x, category, term, selected)
    ensures multiset(r) <= multiset(topics)
    ensures Subsequence(r, topics)
  {
    var l := Filter(topics, ShownBy(category, term, selected));
    assert forall x :: x in multiset(l) ==> multiset(l)[x] <= multiset(topics)[x];
    l
  }

  /** The category filter, applied only when a category is chosen. */
  function ByCategory(topics: seq<Topic>, category: Option<Id>): (r: seq<Topic>)
    ensures r == Filter(topics, CategoryOk(category))
  {
    if category.Some? then
      FilterAgree(topics, InCategory(category.value), CategoryOk(category));
      Filter(topics, InCategory(category.value))
    else
      FilterKeepsAll(topics, CategoryOk(category));
      topics
  }

  /** The search filter, applied only to a non-empty term. */
  function BySearch(topics: seq<Topic>, term: string): (r: seq<Topic>)
    ensures r == Filter(topics, SearchOk(term))
  {
    if term != [] then
      FilterAgree(topics, SearchBy(term), SearchOk(term));
      Filter(topics, SearchBy(term))
    else
      FilterKeepsAll(topics, SearchOk(term));
      topics
  }

  /** The tag filter, applied only to a non-empty selection. */
  function ByTags(topics: seq<Topic>, selected: seq<string>): (r: seq<Topic>)
    ensures r == Filter(topics, TagsBy(selected))
  {
    if |selected| > 0 then Filter(topics, TagsBy(selected))
    else
      FilterKeepsAll(topics, TagsBy(selected));
      topics
  }

  /** The filters applied in turn are the one filter `Shown`. */
  lemma FilteredIsListed(topics: seq<Topic>, category: Option<Id>, term: string, selected: seq<string>)
    ensures ByTags(BySearch(ByCategory(topics, category), term), selected) == Listed(topics, category, term, selected)
  {
    var c, s, g := CategoryOk(category), SearchOk(term), TagsBy(selected);
    FilterBoth(topics, c, s);
    FilterBoth(topics, Both(c, s), g);
    ShownIsConjunction(category, term, selected);
    FilterAgree(topics, Both(Both(c, s), g), ShownBy(category, term, selected));
  }

  lemma ShownIsConjunction(category: Option<Id>, term: string, selected: seq<string>)
    ensures forall t :: Both(Both(CategoryOk(category), SearchOk(term)), TagsBy(selected))(t)
                        == ShownBy(category, term, selected)(t)
  {
  }

  /** `filteredTopics`: the listed topics in the chosen order, ties in the
      loaded order; the loaded list itself is left alone. */
  method FilteredTopics(topics: seq<Topic>, category: Option<Id>, term: string, selected: seq<string>, sortBy: TopicSort)
    returns (result: seq<Topic>)
    ensures multiset(result) == multiset(Listed(topics, category, term, selected))
    ensures forall t :: t in result <==> t in topics && Shown(t, category, term, selected)
    ensures result == SortDesc(Listed(topics, category, term, selected), SortKey(sortBy))
    ensures SortedDesc(result, SortKey(sortBy))
  {
    result := topics;
    if category.Some? {
      result := Filter(result, InCategory(category.value));
    }
    if term != [] {
      result := Filter(result, SearchBy(term));
    }
    if |selected| > 0 {
      result := Filter(result, TagsBy(selected));
    }
    assert result == ByTags(BySearch(ByCategory(topics, category), term), selected);
    FilteredIsListed(topics, category, term, selected);
    var shown := result;
    SortDescSorted(shown, SortKey(sortBy));
    result := SortDesc(shown, SortKey(sortBy));
    SameMembers(result, shown);
  }

  /** Topics with the same sort value keep their loaded order. */
  lemma TiesKeepLoadedOrder(topics: seq<Topic>, category: Option<Id>, term: string, selected: seq<string>, sortBy: TopicSort, v: int)
    ensures Filter(SortDesc(Listed(topics, category, term, selected), SortKey(sortBy)), Having(SortKey(sortBy), v))
            == Filter(Listed(topics, category, term, selected), Having(SortKey(sortBy), v))
  {
    SortDescStable(Listed(topics, category, term, selected), SortKey(sortBy), v);
  }
}

=== FILE: forum_store.dfy ===
/** The forum store: categories, the topic list and the open topic, the
    open topic's posts, and the reactions to those posts grouped by post. */
module ForumStore {
  import opened Wrappers
  import opened Seqs
  import opened Grouping
  import opened Entities

  function TopicHasId(id: Id): Topic -> bool {
    (t: Topic) => t.id == id
  }

  function MergeTopic(p: TopicPatch): Topic -> Topic {
    (t: Topic) => t.Merge(p)
  }

  function PostHasId(id: Id): Post -> bool {
    (p: Post) => p.id == id
  }

  function MergePost(p: PostPatch): Post -> Post {
    (q: Post) => q.Merge(p)
  }

  function ReactionPost(r: Reaction): Id {
    r.postId
  }

  function OfKind(kind: ReactionType): Reaction -> bool {
    (r: Reaction) => r.kind == kind
  }

  function PostIds(ps: seq<Post>): (ids: seq<Id>)
    ensures |ids| == |ps| && forall i :: 0 <= i < |ps| ==> ids[i] == ps[i].id
  {
    seq(|ps|, i requires 0 <= i < |ps| => ps[i].id)
  }

  /** `reactions[postId] || []` */
  function ReactionsOf(reactions: map<Id, seq<Reaction>>, postId: Id): (r: seq<Reaction>)
    ensures postId in reactions ==> r == reactions[postId]
    ensures postId !in reactions ==> r == []
  {
    if postId in reactions then reactions[postId] else []
  }

  /** What `removeReaction` stores under the post: its list without that
      type, or the empty list when the post had no entry. */
  function WithoutKind(reactions: map<Id, seq<Reaction>>, postId: Id, kind: ReactionType): (r: seq<Reaction>)
    ensures forall x :: x in r <==> x in ReactionsOf(reactions, postId) && x.kind != kind
    ensures Subsequence(r, ReactionsOf(reactions, postId))
  {
    RemoveWhere(ReactionsOf(reactions, postId), OfKind(kind))
  }

  datatype Cache = Cache(
    categories: seq<Category>, topics: seq<Topic>, currentTopic: Option<Topic>,
    posts: seq<Post>, reactions: map<Id, seq<Reaction>>)

  class Store {
    var categories: seq<Category>
    var topics: seq<Topic>
    var currentTopic: Option<Topic>
    var posts: seq<Post>
    var reactions: map<Id, seq<Reaction>>
    var loading: bool
    var error: Option<string>

    function Snapshot(): Cache
      reads this
    {
      Cache(categories, topics, currentTopic, posts, reactions)
    }

    constructor ()
      ensures Snapshot() == Cache([], [], None, [], map[]) && !loading && error == None
    {
      categories := [];
      topics := [];
      currentTopic := None;
      posts := [];
      reactions := map[];
      loading := false;
      error := None;
    }

    /** The common tail of every action: on failure, record the message. */
    method Finish<T>(reply: Remote<T>)
      modifies this
      ensures Snapshot() == old(Snapshot()) && !loading
      ensures reply.Ok? ==> error == old(error)
      ensures reply.Fail? ==> error == Some(Message(reply.thrown, GenericError))
    {
      if reply.Fail? {
        error := Some(Message(reply.thrown, GenericError));
      }
      loading := false;
    }

    method FetchCategories(reply: Remote<seq<Category>>)
      modifies this
      ensures !loading
      ensures reply.Ok? ==> Snapshot() == old(Snapshot()).(categories := reply.value) && error == None
      ensures reply.Fail? ==> Snapshot() == old(Snapshot())
      ensures reply.Fail? ==> error == Some(Message(reply.thrown, GenericError))
    {
      loading, error := true, None;
      if reply.Ok? {
        categories := reply.value;
      }
      Finish(reply);
    }

    /** `fetchTopics(categoryId?)`: the category only narrows the select. */
    method FetchTopics(categoryId: Option<Id>, reply: Remote<seq<Topic>>)
      modifies this
      ensures !loading
      ensures reply.Ok? ==> Snapshot() == old(Snapshot()).(topics := reply.value) && error == None
      ensures reply.Fail? ==> Snapshot() == old(Snapshot())
      ensures reply.Fail? ==> error == Some(Message(reply.thrown, GenericError))
    {
      loading, error := true, None;
      if reply.Ok? {
        topics := reply.value;
      }
      Finish(reply);
    }

    /** `fetchTopic(id)`, without the view-count call that follows it. */
    method FetchTopic(id: Id, reply: Remote<Topic>)
      modifies this
      ensures !loading
      ensures reply.Ok? ==> Snapshot() == old(Snapshot()).(currentTopic := Some(reply.value)) && error == None
      ensures reply.Fail? ==> Snapshot() == old(Snapshot())
      ensures reply.Fail? ==> error == Some(Message(reply.thrown, GenericError))
    {
      loading, error := true, None;
      if reply.Ok? {
        currentTopic := Some(reply.value);
      }
      Finish(reply);
    }

    /** `fetchReactions(postIds)`: the flat list is regrouped by post; a
        failure is only logged. */
    method FetchReactions(postIds: seq<Id>, reply: Remote<seq<Reaction>>)
      modifies this
      ensures loading == old(loading) && error == old(error)
      ensures reply.Ok? ==> Snapshot() == old(Snapshot()).(reactions := reactions)
      ensures reply.Ok? ==> reactions.Keys == KeysOf(reply.value, ReactionPost)
      ensures reply.Ok? ==> forall k :: k in reactions ==> reactions[k] == Filter(reply.value, Having(ReactionPost, k))
      ensures reply.Fail? ==> Snapshot() == old(Snapshot())
    {
      if reply.Ok? {
        var byPost := GroupBy(reply.value, ReactionPost);
        reactions := byPost;
      }
    }

    /** `fetchPosts(topicId)`: the posts, then their reactions when there is at
        least one post.  `requested` is the id list the reactions were asked
        for, if they were. */
    method FetchPosts(topicId: Id, reply: Remote<seq<Post>>, reactionsReply: Remote<seq<Reaction>>)
      returns (requested: Option<seq<Id>>)
      modifies this
      ensures !loading
      ensures requested.Some? <==> reply.Ok? && |reply.value| > 0
      ensures requested.Some? ==> requested.value == PostIds(reply.value)
      ensures reply.Ok? ==> posts == reply.value && error == None
      ensures reply.Ok? ==> categories == old(categories) && topics == old(topics) && currentTopic == old(currentTopic)
      ensures reply.Ok? && (|reply.value| == 0 || reactionsReply.Fail?) ==> reactions == old(reactions)
      ensures reply.Ok? && |reply.value| > 0 && reactionsReply.Ok? ==>
                reactions.Keys == KeysOf(reactionsReply.value, ReactionPost)
                && forall k :: k in reactions ==> reactions[k] == Filter(reactionsReply.value, Having(ReactionPost, k))
      ensures reply.Fail? ==> Snapshot() == old(Snapshot())
      ensures reply.Fail? ==> error == Some(Message(reply.thrown, GenericError))
    {
      loading, error := true, None;
      requested := None;
      if reply.Ok? {
        posts := reply.value;
        if |reply.value| > 0 {
          requested := Some(PostIds(reply.value));
          FetchReactions(requested.value, reactionsReply);
        }
      }
      Finish(reply);
    }

    method CreateTopic(reply: Remote<Topic>) returns (outcome: Remote<Topic>)
      modifies this
      ensures !loading && outcome == reply
      ensures reply.Ok? ==> Snapshot() == old(Snapshot()).(topics := [reply.value] + old(topics)) && error == None
      ensures reply.Fail? ==> Snapshot() == old(Snapshot())
      ensures reply.Fail? ==> error == Some(Message(reply.thrown, GenericError))
    {
      loading, error := true, None;
      if reply.Ok? {
        topics := [reply.value] + topics;
      }
      Finish(reply);
      outcome := reply;
    }

    method UpdateTopic(id: Id, patch: TopicPatch, reply: Remote<()>) returns (outcome: Remote<()>)
      modifies this
      ensures !loading && outcome == reply
      ensures reply.Ok? ==> Snapshot() == old(Snapshot()).(
                topics := UpdateWhere(old(topics), TopicHasId(id), MergeTopic(patch)),
                currentTopic := UpdateIf(old(currentTopic), TopicHasId(id), MergeTopic(patch)))
      ensures reply.Ok? ==> error == None
      ensures reply.Fail? ==> Snapshot() == old(Snapshot())
      ensures reply.Fail? ==> error == Some(Message(reply.thrown, GenericError))
    {
      loading, error := true, None;
      if reply.Ok? {
        topics := UpdateWhere(topics, TopicHasId(id), MergeTopic(patch));
        currentTopic := UpdateIf(currentTopic, TopicHasId(id), MergeTopic(patch));
      }
      Finish(reply);
      outcome := reply;
    }

    method DeleteTopic(id: Id, reply: Remote<()>) returns (outcome: Remote<()>)
      modifies this
      ensures !loading && outcome == reply
      ensures reply.Ok? ==> Snapshot() == old(Snapshot()).(
                topics := RemoveWhere(old(topics), TopicHasId(id)),
                currentTopic := ClearIf(old(currentTopic), TopicHasId(id)))
      ensures reply.Ok? ==> error == None
      ensures reply.Fail? ==> Snapshot() == old(Snapshot())
      ensures reply.Fail? ==> error == Some(Message(reply.thrown, GenericError))
    {
      loading, error := true, None;
      if reply.Ok? {
        topics := RemoveWhere(topics, TopicHasId(id));
        currentTopic := ClearIf(currentTopic, TopicHasId(id));
      }
      Finish(reply);
      outcome := reply;
    }

    /** `createPost`: the new post goes last. */
    method CreatePost(reply: Remote<Post>) returns (outcome: Remote<Post>)
      modifies this
      ensures !loading && outcome == reply
      ensures reply.Ok? ==> Snapshot() == old(Snapshot()).(posts := old(posts) + [reply.value]) && error == None
      ensures reply.Fail? ==> Snapshot() == old(Snapshot())
      ensures reply.Fail? ==> error == Some(Message(reply.thrown, GenericError))
    {
      loading, error := true, None;
      if reply.Ok? {
        posts := posts + [reply.value];
      }
      Finish(reply);
      outcome := reply;
    }

    method UpdatePost(id: Id, patch: PostPatch, reply: Remote<()>) returns (outcome: Remote<()>)
      modifies this
      ensures !loading && outcome == reply
      ensures reply.Ok? ==> Snapshot() == old(Snapshot()).(posts := UpdateWhere(old(posts), PostHasId(id), MergePost(patch)))
      ensures reply.Ok? ==> error == None
      ensures reply.Fail? ==> Snapshot() == old(Snapshot())
      ensures reply.Fail? ==> error == Some(Message(reply.thrown, GenericError))
    {
      loading, error := true, None;
      if reply.Ok? {
        posts := UpdateWhere(posts, PostHasId(id), MergePost(patch));
      }
      Finish(reply);
      outcome := reply;
    }

    method DeletePost(id: Id, reply: Remote<()>) returns (outcome: Remote<()>)
      modifies this
      ensures !loading && outcome == reply
      ensures reply.Ok? ==> Snapshot() == old(Snapshot()).(posts := RemoveWhere(old(posts), PostHasId(id)))
      ensures reply.Ok? ==> error == None
      ensures reply.Fail? ==> Snapshot() == old(Snapshot())
      ensures reply.Fail? ==> error == Some(Message(reply.thrown, GenericError))
    {
      loading, error := true, None;
      if reply.Ok? {
        posts := RemoveWhere(posts, PostHasId(id));
      }
      Finish(reply);
      outcome := reply;
    }

    /** `addReaction(postId, type)`: the returned reaction is appended to the
        post's list, created if missing; a failure is only logged. */
    method AddReaction(postId: Id, kind: ReactionType, reply: Remote<Reaction>)
      modifies this
      ensures loading == old(loading) && error == old(error)
      ensures reply.Ok? ==> Snapshot() == old(Snapshot()).(
                reactions := old(reactions)[postId := ReactionsOf(old(reactions), postId) + [reply.value]])
      ensures reply.Fail? ==> Snapshot() == old(Snapshot())
    {
      if reply.Ok? {
        reactions := reactions[postId := ReactionsOf(reactions, postId) + [reply.value]];
      }
    }

    /** `removeReaction(postId, type)`: every reaction of that type on the post
        goes; the post's entry exists afterwards even if it did not before. */
    method RemoveReaction(postId: Id, kind: ReactionType, reply: Remote<()>)
      modifies this
      ensures loading == old(loading) && error == old(error)
      ensures reply.Ok? ==> Snapshot() == old(Snapshot()).(
                reactions := old(reactions)[postId := WithoutKind(old(reactions), postId, kind)])
      ensures reply.Fail? ==> Snapshot() == old(Snapshot())
    {
      if reply.Ok? {
        reactions := reactions[postId := WithoutKind(reactions, postId, kind)];
      }
    }
  }

  /** Every fetched reaction sits in the group of its own post exactly as
      often as it was fetched, and in no other group; every group that exists
      is non-empty. */
  lemma ReactionGroups(rs: seq<Reaction>, k: Id, x: Reaction)
    ensures multiset(Filter(rs, Having(ReactionPost, k)))[x] == if x.postId == k then multiset(rs)[x] else 0
    ensures k in KeysOf(rs, ReactionPost) ==> Filter(rs, Having(ReactionPost, k)) != []
  {
    GroupHoldsItems(rs, ReactionPost, k, x);
    GroupsNonEmpty(rs, ReactionPost);
  }

  /** Removing a reaction type right after adding one of that type leaves the
      post's list as removing it alone would. */
  lemma RemoveAfterAdd(reactions: map<Id, seq<Reaction>>, postId: Id, r: Reaction)
    ensures var added := reactions[postId := ReactionsOf(reactions, postId) + [r]];
            WithoutKind(added, postId, r.kind) == WithoutKind(reactions, postId, r.kind)
  {
    var before := ReactionsOf(reactions, postId);
    RemoveWhereAppend(before, [r], OfKind(r.kind));
    RemoveWhereCons(r, [], OfKind(r.kind));
    assert RemoveWhere(before, OfKind(r.kind)) + [] == RemoveWhere(before, OfKind(r.kind));
  }

  /** Removing the same type twice removes nothing more. */
  lemma RemoveReactionTwice(reactions: map<Id, seq<Reaction>>, postId: Id, kind: ReactionType)
    ensures var once := reactions[postId := WithoutKind(reactions, postId, kind)];
            WithoutKind(once, postId, kind) == WithoutKind(reactions, postId, kind)
  {
    RemoveWhereIdempotent(ReactionsOf(reactions, postId), OfKind(kind));
  }

  /** Deleting a topic after updating it is just deleting it, when the patch
      does not move the row to another id. */
  lemma DeleteAfterUpdateTopic(ts: seq<Topic>, id: Id, p: TopicPatch)
    requires p.id.None? || p.id == Some(id)
    ensures RemoveWhere(UpdateWhere(ts, TopicHasId(id), MergeTopic(p)), TopicHasId(id))
            == RemoveWhere(ts, TopicHasId(id))
  {
    RemoveAfterUpdate(ts, TopicHasId(id), MergeTopic(p));
  }

  /** Deleting the id of a post just created, under an id not used before,
      gives the old list back. */
  lemma CreateThenDeletePost(ps: seq<Post>, p: Post)
    requires forall i :: 0 <= i < |ps| ==> ps[i].id != p.id
    ensures RemoveWhere(ps + [p], PostHasId(p.id)) == ps
  {
    RemoveWhereAppend(ps, [p], PostHasId(p.id));
    RemoveWhereNone(ps, PostHasId(p.id));
    RemoveWhereCons(p, [], PostHasId(p.id));
    assert ps + [] == ps;
  }
}

=== FILE: global_store.dfy ===
/** The interface store: a loading flag, an error, the theme and sidebar
    switches, and the list of toasts shown on screen. */
module GlobalStore {
  import opened Wrappers
  import opened Seqs

  datatype ToastKind = Success | Error | Info

  datatype Toast = Toast(id: string, kind: ToastKind, message: string, duration: Option<int>)

  function ToastHasId(id: string): Toast -> bool {
    (t: Toast) => t.id == id
  }

  /** The ids in use. */
  function ToastIds(ts: seq<Toast>): (ids: set<string>)
    ensures forall t :: t in ts ==> t.id in ids
    ensures forall id :: id in ids ==> exists t :: t in ts && t.id == id
  {
    set t | t in ts :: t.id
  }

  class Store {
    var isLoading: bool
    var error: Option<string>
    var isDarkMode: bool
    var sidebarOpen: bool
    var notifications: seq<Toast>

    constructor ()
      ensures !isLoading && error == None && isDarkMode && !sidebarOpen && notifications == []
    {
      isLoading := false;
      error := None;
      isDarkMode := true;
      sidebarOpen := false;
      notifications := [];
    }

    method SetLoading(value: bool)
      modifies this
      ensures isLoading == value
      ensures error == old(error) && isDarkMode == old(isDarkMode)
      ensures sidebarOpen == old(sidebarOpen) && notifications == old(notifications)
    {
      isLoading := value;
    }

    method SetError(value: Option<string>)
      modifies this
      ensures error == value
      ensures isLoading == old(isLoading) && isDarkMode == old(isDarkMode)
      ensures sidebarOpen == old(sidebarOpen) && notifications == old(notifications)
    {
      error := value;
    }

    method ToggleDarkMode()
      modifies this
      ensures isDarkMode == !old(isDarkMode)
      ensures isLoading == old(isLoading) && error == old(error)
      ensures sidebarOpen == old(sidebarOpen) && notifications == old(notifications)
    {
      isDarkMode := !isDarkMode;
    }

    method ToggleSidebar()
      modifies this
      ensures sidebarOpen == !old(sidebarOpen)
      ensures isLoading == old(isLoading) && error == old(error)
      ensures isDarkMode == old(isDarkMode) && notifications == old(notifications)
    {
      sidebarOpen := !sidebarOpen;
    }

    /** `addNotification`: the toast goes last under a fresh id (the random
        UUID is a parameter, required to be unused). */
    method AddNotification(kind: ToastKind, message: string, duration: Option<int>, freshId: string)
      requires freshId !in ToastIds(notifications)
      modifies this
      ensures notifications == old(notifications) + [Toast(freshId, kind, message, duration)]
      ensures isLoading == old(isLoading) && error == old(error)
      ensures isDarkMode == old(isDarkMode) && sidebarOpen == old(sidebarOpen)
    {
      notifications := notifications + [Toast(freshId, kind, message, duration)];
    }

    method RemoveNotification(id: string)
      modifies this
      ensures notifications == RemoveWhere(old(notifications), ToastHasId(id))
      ensures isLoading == old(isLoading) && error == old(error)
      ensures isDarkMode == old(isDarkMode) && sidebarOpen == old(sidebarOpen)
    {
      notifications := RemoveWhere(notifications, ToastHasId(id));
    }
  }

  /** Removing an id that is not shown changes nothing. */
  lemma {:induction false} RemoveAbsentToast(ts: seq<Toast>, id: string)
    requires id !in ToastIds(ts)
    ensures RemoveWhere(ts, ToastHasId(id)) == ts
    decreases |ts|
  {
    if ts != [] {
      assert ts == [ts[0]] + ts[1..];
      RemoveWhereCons(ts[0], ts[1..], ToastHasId(id));
      RemoveAbsentToast(ts[1..], id);
    }
  }

  /** Removing a toast just added under a fresh id gives the list back. */
  lemma RemoveAddedToast(ts: seq<Toast>, t: Toast)
    requires t.id !in ToastIds(ts)
    ensures RemoveWhere(ts + [t], ToastHasId(t.id)) == ts
  {
    RemoveWhereAppend(ts, [t], ToastHasId(t.id));
    RemoveAbsentToast(ts, t.id);
    RemoveWhereCons(t, [], ToastHasId(t.id));
    assert ts + [] == ts;
  }
}

=== FILE: grouping.dfy ===
/** The `forEach` loop that regroups a flat query result into a dictionary
    keyed by a foreign key (reactions by post, votes by resource). */
module Grouping {
  import opened Seqs

  /** The keys that occur in `items`. */
  ghost function KeysOf<T, K>(items: seq<T>, key: T -> K): set<K> {
    set i | 0 <= i < |items| :: key(items[i])
  }

  /** ```
      const groups = {};
      items.forEach(x => {
        if (!groups[key(x)]) groups[key(x)] = [];
        groups[key(x)].push(x);
      });
      ``` */
  method GroupBy<T(!new), K(==)>(items: seq<T>, key: T -> K) returns (groups: map<K, seq<T>>)
    ensures groups.Keys == KeysOf(items, key)
    ensures forall k :: k in groups ==> groups[k] == Filter(items, Having(key, k))
  {
    groups := map[];
    var i := 0;
    while i < |items|
      invariant 0 <= i <= |items|
      invariant Grouped(groups, items[..i], key)
    {
      var x := items[i];
      var k := key(x);
      var group := if k in groups then groups[k] else [];
      GroupStep(groups, items[..i], x, key);
      groups := groups[k := group + [x]];
      PrefixSnoc(items, i);
      i := i + 1;
    }
    assert items[..|items|] == items;
  }

  /** `groups` is the grouping of `s`: one group per key that occurs, each
      the items with that key in input order. */
  ghost predicate Grouped<T(!new), K>(groups: map<K, seq<T>>, s: seq<T>, key: T -> K) {
    groups.Keys == KeysOf(s, key)
    && forall k :: k in groups ==> groups[k] == Filter(s, Having(key, k))
  }

  /** Pushing one more item onto its key's group (created empty if missing)
      groups the longer list. */
  lemma GroupStep<T(!new), K>(groups: map<K, seq<T>>, s: seq<T>, x: T, key: T -> K)
    requires Grouped(groups, s, key)
    ensures var group := if key(x) in groups then groups[key(x)] else [];
            Grouped(groups[key(x) := group + [x]], s + [x], key)
  {
    var k := key(x);
    var group := if k in groups then groups[k] else [];
    if k !in groups {
      NoneHaving(s, key, k);
    }
    assert group == Filter(s, Having(key, k));
    var after := groups[k := group + [x]];
    KeysOfSnoc(s, x, key);
    assert after.Keys == KeysOf(s + [x], key);
    forall k' | k' in after ensures after[k'] == Filter(s + [x], Having(key, k')) {
      FilterSnoc(s, x, Having(key, k'));
      assert Having(key, k')(x) == (k == k');
    }
  }

  lemma KeysOfSnoc<T, K>(s: seq<T>, x: T, key: T -> K)
    ensures KeysOf(s + [x], key) == KeysOf(s, key) + {key(x)}
  {
    var t := s + [x];
    assert key(t[|s|]) == key(x);
    forall k | k in KeysOf(t, key) ensures k in KeysOf(s, key) + {key(x)} {
      var j :| 0 <= j < |t| && key(t[j]) == k;
      if j < |s| {
        assert t[j] == s[j];
      }
    }
    forall k | k in KeysOf(s, key) ensures k in KeysOf(t, key) {
      var j :| 0 <= j < |s| && key(s[j]) == k;
      assert t[j] == s[j];
    }
  }

  lemma {:induction false} NoneHaving<T(!new), K>(s: seq<T>, key: T -> K, k: K)
    requires k !in KeysOf(s, key)
    ensures Filter(s, Having(key, k)) == []
    decreases |s|
  {
    if s != [] {
      assert key(s[0]) in KeysOf(s, key);
      assert KeysOf(s[1..], key) <= KeysOf(s, key) by {
        forall k' | k' in KeysOf(s[1..], key) ensures k' in KeysOf(s, key) {
          var j :| 0 <= j < |s[1..]| && key(s[1..][j]) == k';
          assert s[1..][j] == s[j + 1];
        }
      }
      NoneHaving(s[1..], key, k);
      assert s == [s[0]] + s[1..];
      FilterCons(s[0], s[1..], Having(key, k));
    }
  }

  /** Nothing is lost or duplicated: an item occurs in the group of its own key
      exactly as often as in the input, and in no other group. */
  lemma GroupHoldsItems<T(!new), K>(items: seq<T>, key: T -> K, k: K, x: T)
    ensures multiset(Filter(items, Having(key, k)))[x] == if key(x) == k then multiset(items)[x] else 0
  {
    assert Having(key, k)(x) == (key(x) == k);
  }

  /** Every group that exists is non-empty, and every item's key has a group. */
  lemma GroupsNonEmpty<T(!new), K>(items: seq<T>, key: T -> K)
    ensures forall k :: k in KeysOf(items, key) ==> Filter(items, Having(key, k)) != []
    ensures forall i :: 0 <= i < |items| ==> key(items[i]) in KeysOf(items, key)
  {
    forall k | k in KeysOf(items, key) ensures Filter(items, Having(key, k)) != [] {
      var i :| 0 <= i < |items| && key(items[i]) == k;
      assert Having(key, k)(items[i]);
      assert items[i] in Filter(items, Having(key, k));
    }
  }
}

=== FILE: notification_store.dfy ===
/** The notification store: the user's notifications, newest first, and a
    counter of the unread ones that the actions adjust by hand. */
module NotificationStore {
  import opened Wrappers
  import opened Seqs
  import opened Entities

  function IsUnread(n: Notification): bool {
    !n.read
  }

  function HasId(id: Id): Notification -> bool {
    (n: Notification) => n.id == id
  }

  function MarkedRead(n: Notification): Notification {
    n.(read := true)
  }

  /** The number of unread notifications in `ns`. */
  function UnreadCount(ns: seq<Notification>): (c: nat)
    ensures c <= |ns|
    ensures c == 0 <==> forall i :: 0 <= i < |ns| ==> ns[i].read
  {
    if ns == [] then 0 else (if ns[0].read then 0 else 1) + UnreadCount(ns[1..])
  }

  /** `data.filter(n => !n.read).length` is that number. */
  lemma {:induction false} FilterCountsUnread(ns: seq<Notification>)
    ensures |Filter(ns, IsUnread)| == UnreadCount(ns)
    decreases |ns|
  {
    if ns != [] {
      assert ns == [ns[0]] + ns[1..];
      FilterCons(ns[0], ns[1..], IsUnread);
      FilterCountsUnread(ns[1..]);
    }
  }

  lemma UnreadCons(n: Notification, ns: seq<Notification>)
    ensures UnreadCount([n] + ns) == (if n.read then 0 else 1) + UnreadCount(ns)
  {
    assert ([n] + ns)[1..] == ns;
  }

  /** The number of unread notifications with the id. */
  function UnreadWith(ns: seq<Notification>, id: Id): (c: nat)
    ensures c <= UnreadCount(ns)
  {
    if ns == [] then 0 else (if !ns[0].read && ns[0].id == id then 1 else 0) + UnreadWith(ns[1..], id)
  }

  /** The unread notifications are those with the id and those without it. */
  lemma {:induction false} UnreadSplit(ns: seq<Notification>, id: Id)
    ensures UnreadCount(ns) == UnreadCount(RemoveWhere(ns, HasId(id))) + UnreadWith(ns, id)
    decreases |ns|
  {
    if ns != [] {
      assert ns == [ns[0]] + ns[1..];
      RemoveWhereCons(ns[0], ns[1..], HasId(id));
      if !HasId(id)(ns[0]) {
        UnreadCons(ns[0], RemoveWhere(ns[1..], HasId(id)));
      }
      UnreadSplit(ns[1..], id);
    }
  }

  /** `notifications.map(n => n.id === id ? { ...n, read: true } : n)` */
  function MarkRead(ns: seq<Notification>, id: Id): (r: seq<Notification>)
    ensures |r| == |ns|
    ensures forall i :: 0 <= i < |ns| ==> r[i] == if ns[i].id == id then ns[i].(read := true) else ns[i]
  {
    UpdateWhere(ns, HasId(id), MarkedRead)
  }

  /** After marking, the only unread notifications are those with other ids. */
  lemma {:induction false} MarkReadCount(ns: seq<Notification>, id: Id)
    ensures UnreadCount(MarkRead(ns, id)) == UnreadCount(RemoveWhere(ns, HasId(id)))
    decreases |ns|
  {
    if ns != [] {
      var m := MarkRead(ns, id);
      assert m == [m[0]] + MarkRead(ns[1..], id);
      UnreadCons(m[0], MarkRead(ns[1..], id));
      assert ns == [ns[0]] + ns[1..];
      RemoveWhereCons(ns[0], ns[1..], HasId(id));
      if !HasId(id)(ns[0]) {
        UnreadCons(ns[0], RemoveWhere(ns[1..], HasId(id)));
      }
      MarkReadCount(ns[1..], id);
    }
  }

  /** `notifications.map(n => ({ ...n, read: true }))` */
  function MarkAllRead(ns: seq<Notification>): (r: seq<Notification>)
    ensures |r| == |ns|
    ensures forall i :: 0 <= i < |ns| ==> r[i] == ns[i].(read := true)
    ensures UnreadCount(r) == 0
  {
    seq(|ns|, i requires 0 <= i < |ns| => ns[i].(read := true))
  }

  /** `notifications.find(n => n.id === id)`: the first notification with the id. */
  function Find(ns: seq<Notification>, id: Id): (r: Option<Notification>)
    ensures r.None? <==> forall i :: 0 <= i < |ns| ==> ns[i].id != id
    ensures r.Some? ==> exists i :: 0 <= i < |ns| && ns[i] == r.value && r.value.id == id
                                    && forall j :: 0 <= j < i ==> ns[j].id != id
  {
    if ns == [] then None
    else if ns[0].id == id then Some(ns[0])
    else
      var r := Find(ns[1..], id);
      if r.Some? then
        var i :| 0 <= i < |ns[1..]| && ns[1..][i] == r.value && r.value.id == id
                 && forall j :: 0 <= j < i ==> ns[1..][j] != r.value && ns[1..][j].id != id;
        assert ns[i + 1] == r.value;
        r
      else r
  }

  /** The counter after `deleteNotification(id)`, as written: kept when the first
      notification with the id is read, decremented otherwise, including when
      there is none. */
  function CountAfterDelete(ns: seq<Notification>, id: Id, count: int): (r: int)
    ensures Find(ns, id).Some? && Find(ns, id).value.read ==> r == count
    ensures Find(ns, id).None? ==> r == count - 1
    ensures Find(ns, id).Some? && !Find(ns, id).value.read ==> r == count - 1
  {
    var found := Find(ns, id);
    if found.Some? && found.value.read then count else count - 1
  }

  /** The counter after `markAsRead(id)`, as written: one less, whether or
      not the row was unread, and whether or not there is one. */
  function CountAfterMark(count: int): int {
    count - 1
  }

  /** The store state. */
  class Store {
    var notifications: seq<Notification>
    var unreadCount: int
    var loading: bool
    var error: Option<string>

    /** The counter agrees with the list. */
    predicate Counted()
      reads this
    {
      unreadCount == UnreadCount(notifications)
    }

    constructor ()
      ensures notifications == [] && unreadCount == 0 && !loading && error == None
      ensures Counted()
    {
      notifications := [];
      unreadCount := 0;
      loading := false;
      error := None;
    }

    /** `fetchNotifications`, given the reply of the select. */
    method FetchNotifications(reply: Remote<seq<Notification>>)
      modifies this
      ensures !loading
      ensures reply.Ok? ==> notifications == reply.value && error == None && Counted()
      ensures reply.Ok? ==> unreadCount == UnreadCount(reply.value)
      ensures reply.Fail? ==> notifications == old(notifications) && unreadCount == old(unreadCount)
      ensures reply.Fail? ==> error == Some(Message(reply.thrown, GenericError))
    {
      loading := true;
      error := None;
      match reply {
        case Ok(data) =>
          FilterCountsUnread(data);
          notifications := data;
          unreadCount := |Filter(data, IsUnread)|;
        case Fail(thrown) =>
          error := Some(Message(thrown, GenericError));
      }
      loading := false;
    }

    /** `markAsRead(id)`; a failure is only logged. */
    method MarkAsRead(id: Id, reply: Remote<()>)
      modifies this
      ensures loading == old(loading) && error == old(error)
      ensures reply.Ok? ==> notifications == MarkRead(old(notifications), id)
      ensures reply.Ok? ==> unreadCount == CountAfterMark(old(unreadCount))
      ensures reply.Fail? ==> notifications == old(notifications) && unreadCount == old(unreadCount)
    {
      if reply.Ok? {
        notifications := MarkRead(notifications, id);
        unreadCount := CountAfterMark(unreadCount);
      }
    }

    /** `markAllAsRead`; a failure is only logged. */
    method MarkAllAsRead(reply: Remote<()>)
      modifies this
      ensures loading == old(loading) && error == old(error)
      ensures reply.Ok? ==> notifications == MarkAllRead(old(notifications)) && unreadCount == 0
      ensures reply.Ok? ==> Counted()
      ensures reply.Fail? ==> notifications == old(notifications) && unreadCount == old(unreadCount)
    {
      if reply.Ok? {
        notifications := MarkAllRead(notifications);
        unreadCount := 0;
      }
    }

    /** `deleteNotification(id)`; a failure is only logged. */
    method DeleteNotification(id: Id, reply: Remote<()>)
      modifies this
      ensures loading == old(loading) && error == old(error)
      ensures reply.Ok? ==> notifications == RemoveWhere(old(notifications), HasId(id))
      ensures reply.Ok? ==> unreadCount == CountAfterDelete(old(notifications), id, old(unreadCount))
      ensures reply.Fail? ==> notifications == old(notifications) && unreadCount == old(unreadCount)
    {
      if reply.Ok? {
        unreadCount := CountAfterDelete(notifications, id, unreadCount);
        notifications := RemoveWhere(notifications, HasId(id));
      }
    }

    /** The realtime INSERT handler: the new row goes first and the counter
        goes up, whatever the row. */
    method OnInsert(n: Notification)
      modifies this
      ensures notifications == [n] + old(notifications)
      ensures unreadCount == old(unreadCount) + 1
      ensures loading == old(loading) && error == old(error)
    {
      notifications := [n] + notifications;
      unreadCount := unreadCount + 1;
    }
  }

  /** A realtime insert keeps the counter right exactly when the new row is unread. */
  lemma InsertCount(n: Notification, ns: seq<Notification>)
    ensures UnreadCount([n] + ns) == UnreadCount(ns) + (if n.read then 0 else 1)
  {
    assert ([n] + ns)[1..] == ns;
  }

  /** How far `markAsRead` moves the counter from the truth: it subtracts one,
      while the number of unread rows drops by the number of unread rows with
      the id.  So a consistent counter stays consistent exactly when one unread
      row has the id. */
  lemma MarkAsReadEffect(ns: seq<Notification>, id: Id)
    ensures UnreadCount(MarkRead(ns, id)) == UnreadCount(ns) - UnreadWith(ns, id)
    ensures UnreadCount(MarkRead(ns, id)) == CountAfterMark(UnreadCount(ns))
            <==> UnreadWith(ns, id) == 1
  {
    MarkReadCount(ns, id);
    UnreadSplit(ns, id);
  }

  /** Marking a notification that is already read makes a correct counter
      wrong: the counter goes from 0 to -1 while no row is unread. */
  lemma MarkAsReadDrifts()
    ensures var ns := [Notification("a", "bienvenue", true)];
            UnreadCount(ns) == 0 && UnreadCount(MarkRead(ns, "a")) == 0
            && CountAfterMark(UnreadCount(ns)) == -1
  {
    var ns := [Notification("a", "bienvenue", true)];
    assert MarkRead(ns, "a")[0] == ns[0];
    assert MarkRead(ns, "a") == ns;
  }

  /** The counter the mark was evidently meant to leave: one less for each
      unread row it marks. */
  function CountAfterMarkRead(ns: seq<Notification>, id: Id, count: int): int {
    count - UnreadWith(ns, id)
  }

  lemma MarkReadKeepsCounted(ns: seq<Notification>, id: Id, count: int)
    requires count == UnreadCount(ns)
    ensures CountAfterMarkRead(ns, id, count) == UnreadCount(MarkRead(ns, id))
  {
    MarkAsReadEffect(ns, id);
  }

  /** Deleting an id that is not in the list makes a correct counter wrong. */
  lemma DeleteAbsentDrifts()
    ensures CountAfterDelete([], "a", 0) == -1 && UnreadCount(RemoveWhere([], HasId("a"))) == 0
  {
  }

  /** The counter the delete was evidently meant to leave: one less for each
      unread row it removes. */
  function CountAfterRemove(ns: seq<Notification>, id: Id, count: int): int {
    count - UnreadWith(ns, id)
  }

  lemma RemoveKeepsCounted(ns: seq<Notification>, id: Id, count: int)
    requires count == UnreadCount(ns)
    ensures CountAfterRemove(ns, id, count) == UnreadCount(RemoveWhere(ns, HasId(id)))
  {
    UnreadSplit(ns, id);
  }

  /** With one row per id, the written delete agrees with the intended one
      whenever the id is present. */
  lemma DeletePresentAgrees(ns: seq<Notification>, i: nat, count: int)
    requires i < |ns| && forall j :: 0 <= j < |ns| && j != i ==> ns[j].id != ns[i].id
    ensures CountAfterDelete(ns, ns[i].id, count) == CountAfterRemove(ns, ns[i].id, count)
  {
    SingleRow(ns, i);
  }

  lemma {:induction false} SingleRow(ns: seq<Notification>, i: nat)
    requires i < |ns| && forall j :: 0 <= j < |ns| && j != i ==> ns[j].id != ns[i].id
    ensures Find(ns, ns[i].id) == Some(ns[i])
    ensures UnreadWith(ns, ns[i].id) == if ns[i].read then 0 else 1
    decreases i
  {
    if i == 0 {
      NoneWith(ns[1..], ns[0].id);
    } else {
      SingleRow(ns[1..], i - 1);
    }
  }

  lemma {:induction false} NoneWith(ns: seq<Notification>, id: Id)
    requires forall j :: 0 <= j < |ns| ==> ns[j].id != id
    ensures UnreadWith(ns, id) == 0
    decreases |ns|
  {
    if ns != [] {
      NoneWith(ns[1..], id);
    }
  }
}

=== FILE: numerals.dfy ===
/** Decimal numerals: the text of a count (the label of a new quiz option)
    and `parseInt`, which reads the duration typed into the course form. */
module Numerals {
  import opened Wrappers

  predicate IsDigit(c: char) { '0' <= c <= '9' }

  function DigitChar(d: nat): (c: char)
    requires d < 10
    ensures IsDigit(c)
  {
    ('0' as int + d) as char
  }

  function DigitValue(c: char): (d: nat)
    requires IsDigit(c)
    ensures d < 10 && DigitChar(d) == c
  {
    c as int - '0' as int
  }

  predicate AllDigits(s: string) {
    forall i :: 0 <= i < |s| ==> IsDigit(s[i])
  }

  /** The value of a string of decimal digits, most significant first. */
  function DigitsValue(s: string): nat
    requires AllDigits(s)
    decreases |s|
  {
    if s == [] then 0 else 10 * DigitsValue(s[..|s| - 1]) + DigitValue(s[|s| - 1])
  }

  /** `String(n)` for a natural number: its decimal digits without leading
      zeros. */
  function DecimalString(n: nat): (s: string)
    ensures |s| > 0 && AllDigits(s)
    ensures |s| > 1 ==> s[0] != '0'
    decreases n
  {
    if n < 10 then [DigitChar(n)] else DecimalString(n / 10) + [DigitChar(n % 10)]
  }

  /** Reading back the digits of a number gives the number. */
  lemma {:induction false} DecimalRoundTrip(n: nat)
    ensures DigitsValue(DecimalString(n)) == n
    decreases n
  {
    var s := DecimalString(n);
    if n >= 10 {
      DecimalRoundTrip(n / 10);
      assert s[..|s| - 1] == DecimalString(n / 10);
      assert DigitValue(s[|s| - 1]) == n % 10;
    } else {
      assert s[..0] == [];
    }
  }

  /** The characters `parseInt` skips before the number. */
  predicate IsSpace(c: char) {
    c == ' ' || c == '\t' || c == '\n' || c == '\r' || c == '\U{000B}' || c == '\U{000C}'
  }

  function SkipSpaces(s: string): (r: string)
    ensures |r| <= |s| && r == s[|s| - |r|..]
    ensures r == [] || !IsSpace(r[0])
    decreases |s|
  {
    if s != [] && IsSpace(s[0]) then SkipSpaces(s[1..]) else s
  }

  /** The longest prefix made of digits. */
  function DigitPrefix(s: string): (r: string)
    ensures r <= s && AllDigits(r)
    ensures |r| < |s| ==> !IsDigit(s[|r|])
    decreases |s|
  {
    if s != [] && IsDigit(s[0]) then [s[0]] + DigitPrefix(s[1..]) else []
  }

  /** `parseInt(s)` in base ten: skip the leading blanks, read an optional
      sign and then as many digits as there are; no number (NaN) when no
      digit follows. */
  function ParseInt(s: string): (r: Option<int>)
    ensures r.None? <==> var t := SkipSpaces(s);
                         var u := if t != [] && (t[0] == '+' || t[0] == '-') then t[1..] else t;
                         u == [] || !IsDigit(u[0])
  {
    var t := SkipSpaces(s);
    var negative := t != [] && t[0] == '-';
    var u := if t != [] && (t[0] == '+' || t[0] == '-') then t[1..] else t;
    var digits := DigitPrefix(u);
    var magnitude: int := DigitsValue(digits);
    if digits == [] then None
    else if negative then Some(-magnitude)
    else Some(magnitude)
  }

  /** A number's own text parses back to it. */
  lemma ParseDecimal(n: nat)
    ensures ParseInt(DecimalString(n)) == Some(n)
  {
    ParseDigits(DecimalString(n));
    DecimalRoundTrip(n);
  }

  /** A non-empty string of digits parses to its value. */
  lemma ParseDigits(s: string)
    requires s != [] && AllDigits(s)
    ensures ParseInt(s) == Some(DigitsValue(s))
  {
    assert !IsSpace(s[0]) && s[0] != '+' && s[0] != '-';
    assert SkipSpaces(s) == s;
    DigitPrefixOfDigits(s);
  }

  lemma {:induction false} DigitPrefixOfDigits(s: string)
    requires AllDigits(s)
    ensures DigitPrefix(s) == s
    decreases |s|
  {
    if s != [] {
      DigitPrefixOfDigits(s[1..]);
    }
  }

  /** Reading stops at the first character that is not a digit. */
  lemma ParseStopsAtNonDigit(n: nat, rest: string)
    requires rest == [] || !IsDigit(rest[0])
    ensures ParseInt(DecimalString(n) + rest) == Some(n)
  {
    var s := DecimalString(n);
    assert SkipSpaces(s + rest) == s + rest;
    DigitPrefixStops(s, rest);
    DecimalRoundTrip(n);
  }

  lemma {:induction false} DigitPrefixStops(s: string, rest: string)
    requires AllDigits(s) && (rest == [] || !IsDigit(rest[0]))
    ensures DigitPrefix(s + rest) == s
    decreases |s|
  {
    if s != [] {
      assert (s + rest)[1..] == s[1..] + rest;
      DigitPrefixStops(s[1..], rest);
    } else {
      assert s + rest == rest;
    }
  }
}

=== FILE: quiz_editor.dfy ===
/** The quiz editor: the quiz's title and description and a working copy of
    its questions, which can be added, edited, deleted and reordered before
    the whole is handed over for saving. */
module QuizEditor {
  import opened Wrappers
  import opened Seqs
  import opened Entities
  import opened Numerals

  /** A question being edited: a new one has no id yet. */
  datatype QuestionDraft = QuestionDraft(
    id: Option<Id>, quizId: Id, text: string, kind: QuestionType, options: seq<string>,
    correctAnswer: string, explanation: string, orderIndex: int)
  {
    /** `{ ...question, [field]: value }`, for the fields the patch sets. */
    function Merge(p: QuestionPatch): (d: QuestionDraft)
      ensures p.id.Some? ==> d.id == p.id
      ensures p.id.None? ==> d.id == id
      ensures d.quizId == Pick(p.quizId, quizId) && d.text == Pick(p.text, text)
      ensures d.kind == Pick(p.kind, kind) && d.options == Pick(p.options, options)
      ensures d.correctAnswer == Pick(p.correctAnswer, correctAnswer)
      ensures d.explanation == Pick(p.explanation, explanation)
      ensures d.orderIndex == Pick(p.orderIndex, orderIndex)
    {
      QuestionDraft(if p.id.Some? then p.id else id, Pick(p.quizId, quizId), Pick(p.text, text),
            Pick(p.kind, kind), Pick(p.options, options), Pick(p.correctAnswer, correctAnswer),
            Pick(p.explanation, explanation), Pick(p.orderIndex, orderIndex))
    }
  }

  function FromQuestion(q: Question): QuestionDraft {
    QuestionDraft(Some(q.id), q.quizId, q.text, q.kind, q.options, q.correctAnswer, q.explanation, q.orderIndex)
  }

  const NoPatch := QuestionPatch(None, None, None, None, None, None, None, None)

  /** `handleAddQuestion`: a blank multiple-choice question with two options,
      numbered after the existing ones. */
  function AddQuestion(qs: seq<QuestionDraft>, quizId: Id): (r: seq<QuestionDraft>)
    ensures |r| == |qs| + 1 && r[..|qs|] == qs
    ensures r[|qs|] == QuestionDraft(None, quizId, "", MultipleChoice, ["Option 1", "Option 2"], "", "", |qs|)
  {
    qs + [QuestionDraft(None, quizId, "", MultipleChoice, ["Option 1", "Option 2"], "", "", |qs|)]
  }

  /** `handleQuestionChange`: only question i, and only the keys the patch
      sets, change. */
  function ChangeQuestion(qs: seq<QuestionDraft>, i: nat, p: QuestionPatch): (r: seq<QuestionDraft>)
    requires i < |qs|
    ensures |r| == |qs| && r[i] == qs[i].Merge(p)
    ensures forall j :: 0 <= j < |qs| && j != i ==> r[j] == qs[j]
  {
    qs[i := qs[i].Merge(p)]
  }

  /** `handleDeleteQuestion`: exactly position i goes. */
  function DeleteQuestion(qs: seq<QuestionDraft>, i: nat): (r: seq<QuestionDraft>)
    requires i < |qs|
    ensures |r| == |qs| - 1
    ensures forall j :: 0 <= j < i ==> r[j] == qs[j]
    ensures forall j :: i <= j < |r| ==> r[j] == qs[j + 1]
    ensures multiset(r) + multiset{qs[i]} == multiset(qs)
  {
    RemoveAt(qs, i)
  }

  function OptionsPatch(options: seq<string>): QuestionPatch {
    NoPatch.(options := Some(options))
  }

  /** `handleAddOption`: a multiple-choice question gets one more option,
      labelled with its position; other questions are left alone. */
  function AddOption(qs: seq<QuestionDraft>, qi: nat): (r: seq<QuestionDraft>)
    requires qi < |qs|
    ensures qs[qi].kind != MultipleChoice ==> r == qs
    ensures qs[qi].kind == MultipleChoice ==>
              r == ChangeQuestion(qs, qi, OptionsPatch(qs[qi].options + ["Option " + DecimalString(|qs[qi].options| + 1)]))
  {
    if qs[qi].kind == MultipleChoice then
      var options := qs[qi].options + ["Option " + DecimalString(|qs[qi].options| + 1)];
      ChangeQuestion(qs, qi, OptionsPatch(options))
    else qs
  }

  /** `handleOptionChange`: option oi of a multiple-choice question takes the
      new text. */
  function ChangeOption(qs: seq<QuestionDraft>, qi: nat, oi: nat, value: string): (r: seq<QuestionDraft>)
    requires qi < |qs| && (qs[qi].kind == MultipleChoice ==> oi < |qs[qi].options|)
    ensures qs[qi].kind != MultipleChoice ==> r == qs
    ensures qs[qi].kind == MultipleChoice ==> r == ChangeQuestion(qs, qi, OptionsPatch(qs[qi].options[oi := value]))
  {
    if qs[qi].kind == MultipleChoice then ChangeQuestion(qs, qi, OptionsPatch(qs[qi].options[oi := value]))
    else qs
  }

  /** `handleDeleteOption`: option oi of a multiple-choice question goes. */
  function DeleteOption(qs: seq<QuestionDraft>, qi: nat, oi: nat): (r: seq<QuestionDraft>)
    requires qi < |qs| && (qs[qi].kind == MultipleChoice ==> oi < |qs[qi].options|)
    ensures qs[qi].kind != MultipleChoice ==> r == qs
    ensures qs[qi].kind == MultipleChoice ==> r == ChangeQuestion(qs, qi, OptionsPatch(RemoveAt(qs[qi].options, oi)))
  {
    if qs[qi].kind == MultipleChoice then ChangeQuestion(qs, qi, OptionsPatch(RemoveAt(qs[qi].options, oi)))
    else qs
  }

  /** The options of a multiple-choice question after an option edit: one
      more, one changed, or one fewer, with the others in place. */
  lemma OptionEdits(qs: seq<QuestionDraft>, qi: nat, oi: nat, value: string)
    requires qi < |qs| && qs[qi].kind == MultipleChoice && oi < |qs[qi].options|
    ensures var o := AddOption(qs, qi)[qi].options;
            |o| == |qs[qi].options| + 1 && o[..|qs[qi].options|] == qs[qi].options
    ensures var o := ChangeOption(qs, qi, oi, value)[qi].options;
            |o| == |qs[qi].options| && o[oi] == value
            && forall k :: 0 <= k < |o| && k != oi ==> o[k] == qs[qi].options[k]
    ensures var o := DeleteOption(qs, qi, oi)[qi].options;
            |o| == |qs[qi].options| - 1 && o[..oi] == qs[qi].options[..oi] && o[oi..] == qs[qi].options[oi + 1..]
  {
    var o := DeleteOption(qs, qi, oi)[qi].options;
    assert o == RemoveAt(qs[qi].options, oi);
  }

  /** `items.map((item, index) => ({ ...item, order_index: index }))` */
  function Renumber(qs: seq<QuestionDraft>): (r: seq<QuestionDraft>)
    ensures |r| == |qs|
    ensures forall i :: 0 <= i < |qs| ==> r[i].orderIndex == i
    ensures forall i :: 0 <= i < |qs| ==> r[i] == qs[i].(orderIndex := i)
  {
    seq(|qs|, i requires 0 <= i < |qs| => qs[i].(orderIndex := i))
  }

  /** The questions with their position numbers left out. */
  function Unnumbered(qs: seq<QuestionDraft>): (r: seq<QuestionDraft>)
    ensures |r| == |qs|
    ensures forall i :: 0 <= i < |qs| ==> r[i] == qs[i].(orderIndex := 0)
  {
    seq(|qs|, i requires 0 <= i < |qs| => qs[i].(orderIndex := 0))
  }

  /** Numbering positions commutes with moving an element. */
  lemma UnnumberedMove(qs: seq<QuestionDraft>, src: nat, dst: nat)
    requires src < |qs| && dst < |qs|
    ensures Unnumbered(Move(qs, src, dst)) == Move(Unnumbered(qs), src, dst)
  {
    var a := Unnumbered(Move(qs, src, dst));
    var b := Move(Unnumbered(qs), src, dst);
    forall k | 0 <= k < |qs| ensures a[k] == b[k] {
      MoveAt(qs, src, dst, k);
      MoveAt(Unnumbered(qs), src, dst, k);
    }
  }

  /** After a reorder the questions are the same ones, numbered 0..n-1 in
      their new order, and the moved question is at its destination. */
  lemma ReorderIsPermutation(qs: seq<QuestionDraft>, src: nat, dst: nat)
    requires src < |qs| && dst < |qs|
    ensures multiset(Unnumbered(Renumber(Move(qs, src, dst)))) == multiset(Unnumbered(qs))
    ensures Renumber(Move(qs, src, dst))[dst] == qs[src].(orderIndex := dst)
  {
    var m := Move(qs, src, dst);
    assert Unnumbered(Renumber(m)) == Unnumbered(m);
    UnnumberedMove(qs, src, dst);
  }

  /** A reorder is undone by the opposite reorder, up to the numbering. */
  lemma ReorderBack(qs: seq<QuestionDraft>, src: nat, dst: nat)
    requires src < |qs| && dst < |qs|
    ensures Renumber(Move(Renumber(Move(qs, src, dst)), dst, src)) == Renumber(qs)
  {
    var m := Move(qs, src, dst);
    var back := Move(Renumber(m), dst, src);
    MoveBack(qs, src, dst);
    assert Unnumbered(Renumber(m)) == Unnumbered(m);
    UnnumberedMove(Renumber(m), dst, src);
    UnnumberedMove(m, dst, src);
    assert Unnumbered(back) == Unnumbered(qs);
    forall i | 0 <= i < |qs| ensures Renumber(back)[i] == Renumber(qs)[i] {
      assert Unnumbered(back)[i] == Unnumbered(qs)[i];
    }
  }

  const TitleRequired := "Le titre du quiz est requis"
  const TextRequired := "Toutes les questions doivent avoir un énoncé"
  const AnswerRequired := "Toutes les questions doivent avoir une réponse correcte"
  const TooFewOptions := "Les questions à choix multiples doivent avoir au moins 2 options"

  /** The checks made on one question, in order. */
  function QuestionProblem(d: QuestionDraft): (r: Option<string>)
    ensures r == None <==> d.text != "" && d.correctAnswer != "" && (d.kind == MultipleChoice ==> |d.options| >= 2)
    ensures r == Some(TextRequired) <==> d.text == ""
    ensures r == Some(AnswerRequired) <==> d.text != "" && d.correctAnswer == ""
    ensures r == Some(TooFewOptions) <==>
              d.text != "" && d.correctAnswer != "" && d.kind == MultipleChoice && |d.options| < 2
  {
    if d.text == "" then Some(TextRequired)
    else if d.correctAnswer == "" then Some(AnswerRequired)
    else if d.kind == MultipleChoice && |d.options| < 2 then Some(TooFewOptions)
    else None
  }

  /** The problem of the first question that has one. */
  function FirstProblem(qs: seq<QuestionDraft>): (r: Option<string>)
    ensures r == None <==> forall i :: 0 <= i < |qs| ==> QuestionProblem(qs[i]) == None
    ensures r.Some? ==> exists i :: 0 <= i < |qs| && QuestionProblem(qs[i]) == r
                                    && forall j :: 0 <= j < i ==> QuestionProblem(qs[j]) == None
    decreases |qs|
  {
    if qs == [] then None
    else if QuestionProblem(qs[0]).Some? then QuestionProblem(qs[0])
    else
      var r := FirstProblem(qs[1..]);
      assert forall i :: 1 <= i < |qs| ==> qs[1..][i - 1] == qs[i];
      if r.Some? then
        var i :| 0 <= i < |qs[1..]| && QuestionProblem(qs[1..][i]) == r
                 && forall j :: 0 <= j < i ==> QuestionProblem(qs[1..][j]) == None;
        assert QuestionProblem(qs[i + 1]) == r;
        r
      else r
  }

  /** What `handleSubmit` reports: the title first, then question by question. */
  function SubmitProblem(title: string, qs: seq<QuestionDraft>): (r: Option<string>)
    ensures r == Some(TitleRequired) <==> title == ""
    ensures title != "" ==> r == FirstProblem(qs)
  {
    if title == "" then Some(TitleRequired) else FirstProblem(qs)
  }

  class Editor {
    /** The id of the quiz the editor was opened on (the `quiz` prop). */
    const quizId: Id
    var quiz: Quiz
    var questions: seq<QuestionDraft>
    var error: string

    constructor (q: Quiz, qs: seq<Question>)
      ensures quizId == q.id && quiz == q && |questions| == |qs| && error == ""
      ensures forall i :: 0 <= i < |qs| ==> questions[i] == FromQuestion(qs[i])
    {
      quizId := q.id;
      quiz := q;
      questions := seq(|qs|, i requires 0 <= i < |qs| => FromQuestion(qs[i]));
      error := "";
    }

    method HandleQuizChange(p: QuizPatch)
      modifies this
      ensures quiz == old(quiz).Merge(p) && questions == old(questions) && error == old(error)
    {
      quiz := quiz.Merge(p);
    }

    method HandleAddQuestion()
      modifies this
      ensures questions == AddQuestion(old(questions), quizId)
      ensures quiz == old(quiz) && error == old(error)
    {
      questions := AddQuestion(questions, quizId);
    }

    method HandleDeleteQuestion(i: nat)
      requires i < |questions|
      modifies this
      ensures questions == DeleteQuestion(old(questions), i)
      ensures quiz == old(quiz) && error == old(error)
    {
      questions := DeleteQuestion(questions, i);
    }

    method HandleQuestionChange(i: nat, p: QuestionPatch)
      requires i < |questions|
      modifies this
      ensures questions == ChangeQuestion(old(questions), i, p)
      ensures quiz == old(quiz) && error == old(error)
    {
      questions := ChangeQuestion(questions, i, p);
    }

    /** `handleDragEnd`: a drop outside the list (no destination) changes
        nothing; otherwise the question moves and all are renumbered. */
    method HandleDragEnd(src: nat, dst: Option<nat>)
      requires src < |questions| && (dst.Some? ==> dst.value < |questions|)
      modifies this
      ensures dst.None? ==> questions == old(questions)
      ensures dst.Some? ==> questions == Renumber(Move(old(questions), src, dst.value))
      ensures quiz == old(quiz) && error == old(error)
    {
      if dst.None? {
        return;
      }
      var items := Move(questions, src, dst.value);
      questions := Renumber(items);
    }

    /** `handleSubmit`: the title, then each question in turn; the first
        failing check is reported and nothing is saved.  `sent` tells whether
        the quiz and questions were handed over. */
    method HandleSubmit(saveReply: Remote<()>) returns (sent: bool)
      modifies this
      ensures quiz == old(quiz) && questions == old(questions)
      ensures sent <==> SubmitProblem(quiz.title, questions) == None
      ensures !sent ==> error == SubmitProblem(quiz.title, questions).value
      ensures sent && saveReply.Ok? ==> error == ""
      ensures sent && saveReply.Fail? ==> error == Message(saveReply.thrown, "Une erreur est survenue")
    {
      error := "";
      sent := false;
      if quiz.title == "" {
        error := TitleRequired;
        return;
      }
      var i := 0;
      while i < |questions|
        invariant 0 <= i <= |questions|
        invariant FirstProblem(questions) == FirstProblem(questions[i..])
      {
        var question := questions[i];
        assert questions[i..][0] == question && questions[i..][1..] == questions[i + 1..];
        if question.text == "" {
          error := TextRequired;
          return;
        }
        if question.correctAnswer == "" {
          error := AnswerRequired;
          return;
        }
        if question.kind == MultipleChoice && |question.options| < 2 {
          error := TooFewOptions;
          return;
        }
        i := i + 1;
      }
      sent := true;
      if saveReply.Fail? {
        error := Message(saveReply.thrown, "Une erreur est survenue");
      }
    }
  }
}

=== FILE: quiz_player.dfy ===
/** The quiz player: one question at a time, the answers given so far, and
    the results screen with the score. */
module QuizPlayer {
  import opened Wrappers
  import opened Seqs
  import opened Entities
  import opened Scoring

  /** The ids of the questions. */
  function IdsOf(qs: seq<Question>): (ids: set<Id>)
    ensures forall i :: 0 <= i < |qs| ==> qs[i].id in ids
    ensures forall k :: k in ids ==> exists i :: 0 <= i < |qs| && qs[i].id == k
  {
    set i | 0 <= i < |qs| :: qs[i].id
  }

  predicate DistinctIds(qs: seq<Question>) {
    forall i, j :: 0 <= i < j < |qs| ==> qs[i].id != qs[j].id
  }

  /** Distinct questions have as many ids as there are questions. */
  lemma {:induction false} DistinctIdCount(qs: seq<Question>)
    requires DistinctIds(qs)
    ensures |IdsOf(qs)| == |qs|
    decreases |qs|
  {
    if qs != [] {
      var init := qs[..|qs| - 1];
      IdsOfSnoc(qs);
      DistinctIdCount(init);
    }
  }

  /** The ids of a non-empty list: those of all but the last question, and
      the last one's, which is new when the ids are distinct. */
  lemma IdsOfSnoc(qs: seq<Question>)
    requires qs != []
    ensures DistinctIds(qs) ==> DistinctIds(qs[..|qs| - 1])
    ensures IdsOf(qs) == IdsOf(qs[..|qs| - 1]) + {qs[|qs| - 1].id}
    ensures DistinctIds(qs) ==> qs[|qs| - 1].id !in IdsOf(qs[..|qs| - 1])
  {
    var init := qs[..|qs| - 1];
    forall k | k in IdsOf(qs) ensures k in IdsOf(init) + {qs[|qs| - 1].id} {
      var i :| 0 <= i < |qs| && qs[i].id == k;
      if i < |qs| - 1 {
        assert init[i] == qs[i];
      }
    }
  }

  lemma SubsetOfSameSize<T>(a: set<T>, b: set<T>)
    requires a <= b && |a| == |b|
    ensures a == b
  {
    assert |b - a| == |b| - |a|;
  }

  /** What the results icon shows. */
  datatype Verdict = Passed | Partial | Failed

  function VerdictOf(score: int): (v: Verdict)
    ensures v == Passed <==> score >= 70
    ensures v == Partial <==> 40 <= score < 70
    ensures v == Failed <==> score < 40
  {
    if score >= 70 then Passed else if score >= 40 then Partial else Failed
  }

  class Player {
    const questions: seq<Question>
    var index: nat
    var answers: map<Id, string>
    var showResults: bool
    var isSubmitting: bool
    var error: string

    /** The player is shown a non-empty quiz (the first render reads the first
        question), stays on one of its questions, and records answers only
        under question ids. */
    predicate Valid()
      reads this
    {
      0 <= index < |questions| && answers.Keys <= IdsOf(questions)
    }

    constructor (qs: seq<Question>)
      requires |qs| > 0
      ensures questions == qs && Valid()
      ensures index == 0 && answers == map[] && !showResults && !isSubmitting && error == []
    {
      questions := qs;
      index := 0;
      answers := map[];
      showResults := false;
      isSubmitting := false;
      error := [];
    }

    predicate HasAnsweredCurrent()
      reads this
      requires Valid()
    {
      questions[index].id in answers
    }

    predicate IsLastQuestion()
      reads this
    {
      index == |questions| - 1
    }

    /** The next button is enabled only once the question is answered. */
    predicate NextEnabled()
      reads this
      requires Valid()
    {
      HasAnsweredCurrent()
    }

    method HandleAnswer(answer: string)
      requires Valid()
      modifies this
      ensures Valid()
      ensures answers == old(answers)[questions[index].id := answer]
      ensures forall k :: k != questions[index].id ==> (k in answers <==> k in old(answers))
      ensures forall k :: k in old(answers) && k != questions[index].id ==> answers[k] == old(answers)[k]
      ensures index == old(index) && showResults == old(showResults) && error == old(error)
      ensures isSubmitting == old(isSubmitting)
    {
      answers := answers[questions[index].id := answer];
    }

    method HandleNext()
      requires Valid()
      modifies this
      ensures Valid()
      ensures !old(IsLastQuestion()) ==> index == old(index) + 1 && showResults == old(showResults)
      ensures old(IsLastQuestion()) ==> index == old(index)
      ensures old(IsLastQuestion()) && |answers| == |questions| ==> showResults
      ensures old(IsLastQuestion()) && |answers| != |questions| ==> showResults == old(showResults)
      ensures answers == old(answers) && error == old(error) && isSubmitting == old(isSubmitting)
    {
      if index != |questions| - 1 {
        index := index + 1;
      } else if |answers| == |questions| {
        showResults := true;
      }
    }

    /** `handleSubmit`: hands the answers to the page; `sent` is what it
        hands over. */
    method HandleSubmit(reply: Remote<()>) returns (sent: map<Id, string>)
      modifies this
      ensures sent == answers
      ensures !isSubmitting
      ensures reply.Ok? ==> error == []
      ensures reply.Fail? ==> error == Message(reply.thrown, "Une erreur est survenue")
      ensures answers == old(answers) && index == old(index) && showResults == old(showResults)
    {
      isSubmitting := true;
      error := [];
      sent := answers;
      if reply.Fail? {
        error := Message(reply.thrown, "Une erreur est survenue");
      }
      isSubmitting := false;
    }

    method HandleRetry()
      requires Valid()
      modifies this
      ensures Valid()
      ensures answers == map[] && index == 0 && !showResults && error == []
      ensures isSubmitting == old(isSubmitting)
    {
      answers := map[];
      index := 0;
      showResults := false;
      error := [];
    }

    /** `calculateScore`, together with the count shown beside it. */
    method CalculateScore() returns (score: int, shown: nat)
      requires Valid()
      ensures Some(score) == Score(answers, questions)
      ensures 0 <= score <= 100
      ensures shown == |Filter(questions, CorrectIn(answers))|
      ensures Some(score) == RoundedPercent(shown, |questions|)
    {
      var correct := CountCorrect(answers, questions);
      score := RoundedPercent(correct, |questions|).value;
      PercentBounds(correct, |questions|);
      shown := |Filter(questions, CorrectIn(answers))|;
      DisplayedCount(answers, questions);
    }
  }

  /** For a quiz whose questions have distinct ids, the answer count reaches
      the question count exactly when every question has been answered, so
      the results appear only then. */
  lemma ResultsIffAllAnswered(questions: seq<Question>, answers: map<Id, string>)
    requires DistinctIds(questions) && answers.Keys <= IdsOf(questions)
    ensures |answers| == |questions| <==> forall i :: 0 <= i < |questions| ==> questions[i].id in answers
  {
    DistinctIdCount(questions);
    if |answers| == |questions| {
      assert |answers.Keys| == |answers|;
      SubsetOfSameSize(answers.Keys, IdsOf(questions));
    }
    if forall i :: 0 <= i < |questions| ==> questions[i].id in answers {
      assert answers.Keys == IdsOf(questions);
      assert |answers.Keys| == |answers|;
    }
  }
}

=== FILE: quiz_store.dfy ===
/** The quiz store: the quizzes of a section, the open quiz, its questions and
    the user's attempts. */
module QuizStore {
  import opened Wrappers
  import opened Seqs
  import opened Entities
  import opened Scoring

  function QuizHasId(id: Id): Quiz -> bool {
    (q: Quiz) => q.id == id
  }

  function MergeQuiz(p: QuizPatch): Quiz -> Quiz {
    (q: Quiz) => q.Merge(p)
  }

  function QuestionHasId(id: Id): Question -> bool {
    (q: Question) => q.id == id
  }

  function MergeQuestion(p: QuestionPatch): Question -> Question {
    (q: Question) => q.Merge(p)
  }

  /** The row `submitAttempt` inserts; a missing score stands for NaN, what
      the division gives when the quiz has no question. */
  datatype AttemptRow = AttemptRow(quizId: Id, answers: map<Id, string>, score: Option<int>)

  datatype Cache = Cache(
    quizzes: seq<Quiz>, currentQuiz: Option<Quiz>, questions: seq<Question>, attempts: seq<Attempt>)

  class Store {
    var quizzes: seq<Quiz>
    var currentQuiz: Option<Quiz>
    var questions: seq<Question>
    var attempts: seq<Attempt>
    var loading: bool
    var error: Option<string>

    function Snapshot(): Cache
      reads this
    {
      Cache(quizzes, currentQuiz, questions, attempts)
    }

    constructor ()
      ensures Snapshot() == Cache([], None, [], []) && !loading && error == None
    {
      quizzes := [];
      currentQuiz := None;
      questions := [];
      attempts := [];
      loading := false;
      error := None;
    }

    /** The common tail of every action: on failure, record the message. */
    method Finish<T>(reply: Remote<T>)
      modifies this
      ensures Snapshot() == old(Snapshot()) && !loading
      ensures reply.Ok? ==> error == old(error)
      ensures reply.Fail? ==> error == Some(Message(reply.thrown, GenericError))
    {
      if reply.Fail? {
        error := Some(Message(reply.thrown, GenericError));
      }
      loading := false;
    }

    method FetchQuizzes(sectionId: Id, reply: Remote<seq<Quiz>>)
      modifies this
      ensures !loading
      ensures reply.Ok? ==> Snapshot() == old(Snapshot()).(quizzes := reply.value) && error == None
      ensures reply.Fail? ==> Snapshot() == old(Snapshot())
      ensures reply.Fail? ==> error == Some(Message(reply.thrown, GenericError))
    {
      loading, error := true, None;
      if reply.Ok? {
        quizzes := reply.value;
      }
      Finish(reply);
    }

    method FetchQuiz(id: Id, reply: Remote<Quiz>)
      modifies this
      ensures !loading
      ensures reply.Ok? ==> Snapshot() == old(Snapshot()).(currentQuiz := Some(reply.value)) && error == None
      ensures reply.Fail? ==> Snapshot() == old(Snapshot())
      ensures reply.Fail? ==> error == Some(Message(reply.thrown, GenericError))
    {
      loading, error := true, None;
      if reply.Ok? {
        currentQuiz := Some(reply.value);
      }
      Finish(reply);
    }

    method FetchQuestions(quizId: Id, reply: Remote<seq<Question>>)
      modifies this
      ensures !loading
      ensures reply.Ok? ==> Snapshot() == old(Snapshot()).(questions := reply.value) && error == None
      ensures reply.Fail? ==> Snapshot() == old(Snapshot())
      ensures reply.Fail? ==> error == Some(Message(reply.thrown, GenericError))
    {
      loading, error := true, None;
      if reply.Ok? {
        questions := reply.value;
      }
      Finish(reply);
    }

    method FetchAttempts(quizId: Id, reply: Remote<seq<Attempt>>)
      modifies this
      ensures !loading
      ensures reply.Ok? ==> Snapshot() == old(Snapshot()).(attempts := reply.value) && error == None
      ensures reply.Fail? ==> Snapshot() == old(Snapshot())
      ensures reply.Fail? ==> error == Some(Message(reply.thrown, GenericError))
    {
      loading, error := true, None;
      if reply.Ok? {
        attempts := reply.value;
      }
      Finish(reply);
    }

    method CreateQuiz(reply: Remote<Quiz>) returns (outcome: Remote<Quiz>)
      modifies this
      ensures !loading && outcome == reply
      ensures reply.Ok? ==> Snapshot() == old(Snapshot()).(quizzes := [reply.value] + old(quizzes)) && error == None
      ensures reply.Fail? ==> Snapshot() == old(Snapshot())
      ensures reply.Fail? ==> error == Some(Message(reply.thrown, GenericError))
    {
      loading, error := true, None;
      if reply.Ok? {
        quizzes := [reply.value] + quizzes;
      }
      Finish(reply);
      outcome := reply;
    }

    method UpdateQuiz(id: Id, patch: QuizPatch, reply: Remote<()>) returns (outcome: Remote<()>)
      modifies this
      ensures !loading && outcome == reply
      ensures reply.Ok? ==> Snapshot() == old(Snapshot()).(
                quizzes := UpdateWhere(old(quizzes), QuizHasId(id), MergeQuiz(patch)),
                currentQuiz := UpdateIf(old(currentQuiz), QuizHasId(id), MergeQuiz(patch)))
      ensures reply.Ok? ==> error == None
      ensures reply.Fail? ==> Snapshot() == old(Snapshot())
      ensures reply.Fail? ==> error == Some(Message(reply.thrown, GenericError))
    {
      loading, error := true, None;
      if reply.Ok? {
        quizzes := UpdateWhere(quizzes, QuizHasId(id), MergeQuiz(patch));
        currentQuiz := UpdateIf(currentQuiz, QuizHasId(id), MergeQuiz(patch));
      }
      Finish(reply);
      outcome := reply;
    }

    method DeleteQuiz(id: Id, reply: Remote<()>) returns (outcome: Remote<()>)
      modifies this
      ensures !loading && outcome == reply
      ensures reply.Ok? ==> Snapshot() == old(Snapshot()).(
                quizzes := RemoveWhere(old(quizzes), QuizHasId(id)),
                currentQuiz := ClearIf(old(currentQuiz), QuizHasId(id)))
      ensures reply.Ok? ==> error == None
      ensures reply.Fail? ==> Snapshot() == old(Snapshot())
      ensures reply.Fail? ==> error == Some(Message(reply.thrown, GenericError))
    {
      loading, error := true, None;
      if reply.Ok? {
        quizzes := RemoveWhere(quizzes, QuizHasId(id));
        currentQuiz := ClearIf(currentQuiz, QuizHasId(id));
      }
      Finish(reply);
      outcome := reply;
    }

    /** `createQuestion`: insert, then reload the quiz's questions. */
    method CreateQuestion(insert: Remote<()>, reload: Option<seq<Question>>) returns (outcome: Remote<()>)
      modifies this
      ensures !loading && outcome == insert
      ensures insert.Ok? ==> Snapshot() == old(Snapshot()).(questions := OrEmpty(reload)) && error == None
      ensures insert.Fail? ==> Snapshot() == old(Snapshot())
      ensures insert.Fail? ==> error == Some(Message(insert.thrown, GenericError))
    {
      loading, error := true, None;
      if insert.Ok? {
        questions := OrEmpty(reload);
      }
      Finish(insert);
      outcome := insert;
    }

    method UpdateQuestion(id: Id, patch: QuestionPatch, reply: Remote<()>) returns (outcome: Remote<()>)
      modifies this
      ensures !loading && outcome == reply
      ensures reply.Ok? ==> Snapshot() == old(Snapshot()).(
                questions := UpdateWhere(old(questions), QuestionHasId(id), MergeQuestion(patch)))
      ensures reply.Ok? ==> error == None
      ensures reply.Fail? ==> Snapshot() == old(Snapshot())
      ensures reply.Fail? ==> error == Some(Message(reply.thrown, GenericError))
    {
      loading, error := true, None;
      if reply.Ok? {
        questions := UpdateWhere(questions, QuestionHasId(id), MergeQuestion(patch));
      }
      Finish(reply);
      outcome := reply;
    }

    method DeleteQuestion(id: Id, reply: Remote<()>) returns (outcome: Remote<()>)
      modifies this
      ensures !loading && outcome == reply
      ensures reply.Ok? ==> Snapshot() == old(Snapshot()).(questions := RemoveWhere(old(questions), QuestionHasId(id)))
      ensures reply.Ok? ==> error == None
      ensures reply.Fail? ==> Snapshot() == old(Snapshot())
      ensures reply.Fail? ==> error == Some(Message(reply.thrown, GenericError))
    {
      loading, error := true, None;
      if reply.Ok? {
        questions := RemoveWhere(questions, QuestionHasId(id));
      }
      Finish(reply);
      outcome := reply;
    }

    /** `submitAttempt(quizId, answers)`: score the answers against the loaded
        questions, insert the attempt, then reload the quiz's attempts.  `sent`
        is the inserted row. */
    method SubmitAttempt(quizId: Id, answers: map<Id, string>, insert: Remote<()>, reload: Option<seq<Attempt>>)
      returns (outcome: Remote<()>, sent: AttemptRow)
      modifies this
      ensures !loading && outcome == insert
      ensures sent == AttemptRow(quizId, answers, Score(answers, old(questions)))
      ensures insert.Ok? ==> Snapshot() == old(Snapshot()).(attempts := OrEmpty(reload)) && error == None
      ensures insert.Fail? ==> Snapshot() == old(Snapshot())
      ensures insert.Fail? ==> error == Some(Message(insert.thrown, GenericError))
    {
      loading, error := true, None;
      var correct := CountCorrect(answers, questions);
      var score := RoundedPercent(correct, |questions|);
      sent := AttemptRow(quizId, answers, score);
      if insert.Ok? {
        attempts := OrEmpty(reload);
      }
      Finish(insert);
      outcome := insert;
    }
  }

  /** The score sent with an attempt is a percentage whenever there is a
      question, and answers under ids that are not questions do not move it. */
  lemma SentScore(answers: map<Id, string>, qs: seq<Question>, k: Id, v: string)
    requires forall i :: 0 <= i < |qs| ==> qs[i].id != k
    ensures |qs| > 0 ==> 0 <= Score(answers, qs).value <= 100
    ensures Score(answers[k := v], qs) == Score(answers, qs)
  {
    if |qs| > 0 {
      PercentBounds(CorrectCount(answers, qs), |qs|);
    }
    OtherAnswersIgnored(answers, qs, k, v);
  }
}

=== FILE: resource_store.dfy ===
/** The resource store: the shared resources with their tags, the tag list,
    the user's votes grouped by resource and the set of bookmarked resource
    ids. */
module ResourceStore {
  import opened Wrappers
  import opened Seqs
  import opened Grouping
  import opened Entities

  /** `resource.tags?.map(t => t.resource_tags) || []` */
  function TagsOf(relations: Option<seq<TagRelation>>): (tags: seq<Tag>)
    ensures relations.None? ==> tags == []
    ensures relations.Some? ==> |tags| == |relations.value|
                                && forall i :: 0 <= i < |tags| ==> tags[i] == relations.value[i].tag
  {
    if relations.None? then []
    else seq(|relations.value|, i requires 0 <= i < |relations.value| => relations.value[i].tag)
  }

  /** One fetched row with its nested relations replaced by the tags. */
  function Flatten(x: RawResource): (r: Resource)
    ensures r.id == x.id && r.title == x.title && r.description == x.description && r.url == x.url
    ensures r.kind == x.kind && r.helpfulnessScore == x.helpfulnessScore
    ensures r.votesUp == x.votesUp && r.votesDown == x.votesDown && r.createdAt == x.createdAt
    ensures r.tags == TagsOf(x.relations)
  {
    Resource(x.id, x.title, x.description, x.url, x.kind, x.helpfulnessScore,
             x.votesUp, x.votesDown, x.createdAt, TagsOf(x.relations))
  }

  /** The transformation of `fetchResources`, row by row and in order. */
  function FlattenAll(data: seq<RawResource>): (rs: seq<Resource>)
    ensures |rs| == |data| && forall i :: 0 <= i < |data| ==> rs[i] == Flatten(data[i])
  {
    seq(|data|, i requires 0 <= i < |data| => Flatten(data[i]))
  }

  /** Flattening loses no field: the raw row can be rebuilt from the result
      whenever it had its relations. */
  lemma FlattenKeepsRow(x: RawResource)
    requires x.relations.Some?
    ensures var r := Flatten(x);
            RawResource(r.id, r.title, r.description, r.url, r.kind, r.helpfulnessScore, r.votesUp,
                        r.votesDown, r.createdAt, Some(seq(|r.tags|, i requires 0 <= i < |r.tags| => TagRelation(r.tags[i]))))
            == x
  {
    var r := Flatten(x);
    var back := seq(|r.tags|, i requires 0 <= i < |r.tags| => TagRelation(r.tags[i]));
    assert back == x.relations.value;
  }

  function ResourceHasId(id: Id): Resource -> bool {
    (r: Resource) => r.id == id
  }

  function VoteResource(v: Vote): Id {
    v.resourceId
  }

  /** The relation rows inserted for a resource's tags. */
  function Relations(resourceId: Id, tags: seq<Tag>): (rows: seq<(Id, Id)>)
    ensures |rows| == |tags| && forall i :: 0 <= i < |tags| ==> rows[i] == (resourceId, tags[i].id)
  {
    seq(|tags|, i requires 0 <= i < |tags| => (resourceId, tags[i].id))
  }

  /** `find(v => v.vote_type === type)` */
  function FindVote(votes: seq<Vote>, kind: VoteType): (r: Option<Vote>)
    ensures r.None? <==> forall i :: 0 <= i < |votes| ==> votes[i].kind != kind
    ensures r.Some? ==> r.value in votes && r.value.kind == kind
    ensures r.Some? ==> exists i :: 0 <= i < |votes| && votes[i] == r.value
                                    && forall j :: 0 <= j < i ==> votes[j].kind != kind
  {
    if votes == [] then None
    else if votes[0].kind == kind then Some(votes[0])
    else FindVote(votes[1..], kind)
  }

  /** What `vote` sends: delete the existing vote of that type, or insert one. */
  datatype VoteAction = DeleteVote(voteId: Id) | InsertVote(resourceId: Id, kind: VoteType)

  /** The decision `vote` makes from the cached votes of the resource. */
  function DecideVote(userVotes: map<Id, seq<Vote>>, resourceId: Id, kind: VoteType): (r: VoteAction)
    ensures r.InsertVote? ==> r == InsertVote(resourceId, kind)
    ensures r.InsertVote? <==> resourceId !in userVotes || FindVote(userVotes[resourceId], kind).None?
  {
    var votes := if resourceId in userVotes then userVotes[resourceId] else [];
    var existing := FindVote(votes, kind);
    if existing.Some? then DeleteVote(existing.value.id) else InsertVote(resourceId, kind)
  }

  /** `vote` toggles by presence: it deletes exactly when the user already has a
      vote of that type on the resource, and then deletes the first of those. */
  lemma VoteTogglesByPresence(userVotes: map<Id, seq<Vote>>, resourceId: Id, kind: VoteType)
    ensures DecideVote(userVotes, resourceId, kind).DeleteVote?
            <==> resourceId in userVotes && exists v :: v in userVotes[resourceId] && v.kind == kind
    ensures DecideVote(userVotes, resourceId, kind).DeleteVote? ==>
              exists i :: 0 <= i < |userVotes[resourceId]| && userVotes[resourceId][i].kind == kind
                          && userVotes[resourceId][i].id == DecideVote(userVotes, resourceId, kind).voteId
                          && forall j :: 0 <= j < i ==> userVotes[resourceId][j].kind != kind
    ensures DecideVote(userVotes, resourceId, kind).InsertVote? ==>
              DecideVote(userVotes, resourceId, kind) == InsertVote(resourceId, kind)
  {
    if resourceId in userVotes {
      var votes := userVotes[resourceId];
      if exists v :: v in votes && v.kind == kind {
        var v :| v in votes && v.kind == kind;
        var i :| 0 <= i < |votes| && votes[i] == v;
      }
    }
  }

  /** After the regrouping that follows a successful insert, the same call
      would delete: the user's vote list now holds a vote of that type. */
  lemma VoteAfterInsert(data: seq<Vote>, v: Vote, groups: map<Id, seq<Vote>>)
    requires v in data
    requires groups.Keys == KeysOf(data, VoteResource)
    requires forall k :: k in groups ==> groups[k] == Filter(data, Having(VoteResource, k))
    ensures DecideVote(groups, v.resourceId, v.kind).DeleteVote?
  {
    var i :| 0 <= i < |data| && data[i] == v;
    assert VoteResource(data[i]) in KeysOf(data, VoteResource);
    assert Having(VoteResource, v.resourceId)(v);
    VoteTogglesByPresence(groups, v.resourceId, v.kind);
  }

  /** The bookmark set after a toggle. */
  function Toggled(bookmarks: set<Id>, resourceId: Id): (r: set<Id>)
    ensures resourceId in bookmarks ==> r == bookmarks - {resourceId}
    ensures resourceId !in bookmarks ==> r == bookmarks + {resourceId}
  {
    if resourceId in bookmarks then bookmarks - {resourceId} else bookmarks + {resourceId}
  }

  /** Two successful toggles of the same id restore the set; other ids are
      never affected. */
  lemma ToggleTwice(bookmarks: set<Id>, resourceId: Id)
    ensures Toggled(Toggled(bookmarks, resourceId), resourceId) == bookmarks
    ensures forall x :: x != resourceId ==> (x in Toggled(bookmarks, resourceId) <==> x in bookmarks)
    ensures resourceId in Toggled(bookmarks, resourceId) <==> resourceId !in bookmarks
  {
  }

  datatype Cache = Cache(
    resources: seq<Resource>, tags: seq<Tag>, userVotes: map<Id, seq<Vote>>, userBookmarks: set<Id>)

  class Store {
    var resources: seq<Resource>
    var tags: seq<Tag>
    var userVotes: map<Id, seq<Vote>>
    var userBookmarks: set<Id>
    var loading: bool
    var error: Option<string>

    function Snapshot(): Cache
      reads this
    {
      Cache(resources, tags, userVotes, userBookmarks)
    }

    constructor ()
      ensures Snapshot() == Cache([], [], map[], {}) && !loading && error == None
    {
      resources := [];
      tags := [];
      userVotes := map[];
      userBookmarks := {};
      loading := false;
      error := None;
    }

    /** `fetchResources`: records its own failure and does not throw. */
    method FetchResources(reply: Remote<seq<RawResource>>)
      modifies this
      ensures !loading
      ensures reply.Ok? ==> Snapshot() == old(Snapshot()).(resources := FlattenAll(reply.value)) && error == None
      ensures reply.Fail? ==> Snapshot() == old(Snapshot())
      ensures reply.Fail? ==> error == Some(Message(reply.thrown, GenericError))
    {
      loading, error := true, None;
      match reply {
        case Ok(data) =>
          resources := FlattenAll(data);
        case Fail(thrown) =>
          error := Some(Message(thrown, GenericError));
      }
      loading := false;
    }

    /** `fetchTags`; a failure is only logged. */
    method FetchTags(reply: Remote<seq<Tag>>)
      modifies this
      ensures loading == old(loading) && error == old(error)
      ensures reply.Ok? ==> Snapshot() == old(Snapshot()).(tags := reply.value)
      ensures reply.Fail? ==> Snapshot() == old(Snapshot())
    {
      if reply.Ok? {
        tags := reply.value;
      }
    }

    /** `fetchUserVotes`: the flat vote list regrouped by resource; a failure
        is only logged. */
    method FetchUserVotes(reply: Remote<seq<Vote>>)
      modifies this
      ensures loading == old(loading) && error == old(error)
      ensures reply.Ok? ==> Snapshot() == old(Snapshot()).(userVotes := userVotes)
      ensures reply.Ok? ==> userVotes.Keys == KeysOf(reply.value, VoteResource)
      ensures reply.Ok? ==> forall k :: k in userVotes ==> userVotes[k] == Filter(reply.value, Having(VoteResource, k))
      ensures reply.Fail? ==> Snapshot() == old(Snapshot())
    {
      if reply.Ok? {
        var byResource := GroupBy(reply.value, VoteResource);
        userVotes := byResource;
      }
    }

    /** `fetchUserBookmarks`: exactly the fetched resource ids; a failure is
        only logged. */
    method FetchUserBookmarks(reply: Remote<seq<Id>>)
      modifies this
      ensures loading == old(loading) && error == old(error)
      ensures reply.Ok? ==> Snapshot() == old(Snapshot()).(userBookmarks := userBookmarks)
      ensures reply.Ok? ==> forall id :: id in userBookmarks <==> id in reply.value
      ensures reply.Fail? ==> Snapshot() == old(Snapshot())
    {
      if reply.Ok? {
        userBookmarks := set id | id in reply.value;
      }
    }

    /** `createResource`: insert the row; when it has tags, insert one relation
        per tag; then reload the list.  `sent` is the relation rows inserted.
        The reload records its own failure without throwing. */
    method CreateResource(resourceTags: Option<seq<Tag>>, insert: Remote<Id>, relations: Remote<()>,
                          reload: Remote<seq<RawResource>>)
      returns (outcome: Remote<()>, sent: Option<seq<(Id, Id)>>)
      modifies this
      ensures !loading
      ensures sent.Some? <==> insert.Ok? && resourceTags.Some? && |resourceTags.value| > 0
      ensures sent.Some? ==> sent.value == Relations(insert.value, resourceTags.value)
      ensures insert.Fail? ==> outcome == Fail(insert.thrown) && Snapshot() == old(Snapshot())
      ensures insert.Fail? ==> error == Some(Message(insert.thrown, GenericError))
      ensures sent.Some? && relations.Fail? ==> outcome == Fail(relations.thrown) && Snapshot() == old(Snapshot())
      ensures sent.Some? && relations.Fail? ==> error == Some(Message(relations.thrown, GenericError))
      ensures insert.Ok? && (sent.None? || relations.Ok?) ==> outcome == Ok(())
      ensures insert.Ok? && (sent.None? || relations.Ok?) && reload.Ok? ==>
                Snapshot() == old(Snapshot()).(resources := FlattenAll(reload.value)) && error == None
      ensures insert.Ok? && (sent.None? || relations.Ok?) && reload.Fail? ==>
                Snapshot() == old(Snapshot()) && error == Some(Message(reload.thrown, GenericError))
    {
      loading, error := true, None;
      sent := None;
      if insert.Fail? {
        outcome := Fail(insert.thrown);
      } else {
        if resourceTags.Some? && |resourceTags.value| > 0 {
          sent := Some(Relations(insert.value, resourceTags.value));
        }
        if sent.Some? && relations.Fail? {
          outcome := Fail(relations.thrown);
        } else {
          FetchResources(reload);
          outcome := Ok(());
        }
      }
      if outcome.Fail? {
        error := Some(Message(outcome.thrown, GenericError));
      }
      loading := false;
    }

    /** `updateResource(id, patch)`: update the row; when the patch carries a
        tag list, even an empty one, drop the old relations (whose failure is
        ignored) and insert the new ones; then reload the list. */
    method UpdateResource(id: Id, resourceTags: Option<seq<Tag>>, update: Remote<()>, relations: Remote<()>,
                          reload: Remote<seq<RawResource>>)
      returns (outcome: Remote<()>, sent: Option<seq<(Id, Id)>>)
      modifies this
      ensures !loading
      ensures sent.Some? <==> update.Ok? && resourceTags.Some?
      ensures sent.Some? ==> sent.value == Relations(id, resourceTags.value)
      ensures update.Fail? ==> outcome == Fail(update.thrown) && Snapshot() == old(Snapshot())
      ensures update.Fail? ==> error == Some(Message(update.thrown, GenericError))
      ensures sent.Some? && relations.Fail? ==> outcome == Fail(relations.thrown) && Snapshot() == old(Snapshot())
      ensures sent.Some? && relations.Fail? ==> error == Some(Message(relations.thrown, GenericError))
      ensures update.Ok? && (sent.None? || relations.Ok?) ==> outcome == Ok(())
      ensures update.Ok? && (sent.None? || relations.Ok?) && reload.Ok? ==>
                Snapshot() == old(Snapshot()).(resources := FlattenAll(reload.value)) && error == None
      ensures update.Ok? && (sent.None? || relations.Ok?) && reload.Fail? ==>
                Snapshot() == old(Snapshot()) && error == Some(Message(reload.thrown, GenericError))
    {
      loading, error := true, None;
      sent := None;
      if update.Fail? {
        outcome := Fail(update.thrown);
      } else {
        if resourceTags.Some? {
          sent := Some(Relations(id, resourceTags.value));
        }
        if sent.Some? && relations.Fail? {
          outcome := Fail(relations.thrown);
        } else {
          FetchResources(reload);
          outcome := Ok(());
        }
      }
      if outcome.Fail? {
        error := Some(Message(outcome.thrown, GenericError));
      }
      loading := false;
    }

    method DeleteResource(id: Id, reply: Remote<()>) returns (outcome: Remote<()>)
      modifies this
      ensures !loading && outcome == reply
      ensures reply.Ok? ==> Snapshot() == old(Snapshot()).(resources := RemoveWhere(old(resources), ResourceHasId(id)))
      ensures reply.Ok? ==> error == None
      ensures reply.Fail? ==> Snapshot() == old(Snapshot())
      ensures reply.Fail? ==> error == Some(Message(reply.thrown, GenericError))
    {
      loading, error := true, None;
      match reply {
        case Ok(_) =>
          resources := RemoveWhere(resources, ResourceHasId(id));
        case Fail(thrown) =>
          error := Some(Message(thrown, GenericError));
      }
      loading := false;
      outcome := reply;
    }

    /** `vote(resourceId, type)`: the decision is taken on the cached votes;
        after a successful delete or insert both the resources and the votes
        are reloaded.  A failure of the vote call is only logged. */
    method Vote(resourceId: Id, kind: VoteType, reply: Remote<()>,
                reloadResources: Remote<seq<RawResource>>, reloadVotes: Remote<seq<Vote>>)
      returns (action: VoteAction)
      modifies this
      ensures action == DecideVote(old(userVotes), resourceId, kind)
      ensures reply.Fail? ==> Snapshot() == old(Snapshot()) && loading == old(loading) && error == old(error)
      ensures reply.Ok? ==> !loading && tags == old(tags) && userBookmarks == old(userBookmarks)
      ensures reply.Ok? && reloadResources.Ok? ==> resources == FlattenAll(reloadResources.value) && error == None
      ensures reply.Ok? && reloadResources.Fail? ==>
                resources == old(resources) && error == Some(Message(reloadResources.thrown, GenericError))
      ensures reply.Ok? && reloadVotes.Ok? ==> userVotes.Keys == KeysOf(reloadVotes.value, VoteResource)
      ensures reply.Ok? && reloadVotes.Ok? ==>
                forall k :: k in userVotes ==> userVotes[k] == Filter(reloadVotes.value, Having(VoteResource, k))
      ensures reply.Ok? && reloadVotes.Fail? ==> userVotes == old(userVotes)
    {
      action := DecideVote(userVotes, resourceId, kind);
      if reply.Ok? {
        FetchResources(reloadResources);
        FetchUserVotes(reloadVotes);
      }
    }

    /** `toggleBookmark(resourceId)`: remove the id if bookmarked, add it
        otherwise; a failure is only logged.  `wasBookmarked` is the branch
        taken. */
    method ToggleBookmark(resourceId: Id, reply: Remote<()>) returns (wasBookmarked: bool)
      modifies this
      ensures wasBookmarked <==> resourceId in old(userBookmarks)
      ensures loading == old(loading) && error == old(error)
      ensures reply.Ok? ==> Snapshot() == old(Snapshot()).(userBookmarks := Toggled(old(userBookmarks), resourceId))
      ensures reply.Fail? ==> Snapshot() == old(Snapshot())
    {
      wasBookmarked := resourceId in userBookmarks;
      if reply.Ok? {
        if wasBookmarked {
          userBookmarks := set id | id in userBookmarks && id != resourceId;
        } else {
          userBookmarks := userBookmarks + {resourceId};
        }
      }
    }
  }

  /** Every fetched vote sits in the group of its own resource exactly as
      often as it was fetched, and in no other group. */
  lemma VoteGroups(votes: seq<Vote>, k: Id, x: Vote)
    ensures multiset(Filter(votes, Having(VoteResource, k)))[x] == if x.resourceId == k then multiset(votes)[x] else 0
    ensures k in KeysOf(votes, VoteResource) ==> Filter(votes, Having(VoteResource, k)) != []
  {
    GroupHoldsItems(votes, VoteResource, k, x);
    GroupsNonEmpty(votes, VoteResource);
  }
}

=== FILE: resources_page.dfy ===
/** The resources page: the search, tag filter and sort over the loaded
    resources, the tag selection, and the form that proposes a resource. */
module ResourcesPage {
  import opened Wrappers
  import opened Seqs
  import opened Entities
  import TagPicker

  /** `sortBy`: one of the three orders, or any other value, which leaves
      the order alone. */
  datatype ResourceSort = Popular | Recent | Rating | Unsorted

  function SortKey(sortBy: ResourceSort): (key: Option<Resource -> int>)
    ensures key.None? <==> sortBy == Unsorted
  {
    match sortBy
    case Popular => Some((r: Resource) => r.helpfulnessScore)
    case Recent => Some((r: Resource) => r.createdAt)
    case Rating => Some((r: Resource) => r.votesUp - r.votesDown)
    case Unsorted => None
  }

  /** The lowercased title or description contains the lowercased term. */
  predicate SearchHit(r: Resource, term: string) {
    Includes(ToLower(r.title), ToLower(term)) || Includes(ToLower(r.description), ToLower(term))
  }

  /** One of the resource's tags is selected. */
  predicate TagHit(r: Resource, selected: seq<Id>) {
    exists i :: 0 <= i < |r.tags| && r.tags[i].id in selected
  }

  /** Whether the page lists a resource: an empty term or an empty selection
      switches its filter off. */
  predicate Shown(r: Resource, term: string, selected: seq<Id>) {
    (term == [] || SearchHit(r, term)) && (selected == [] || TagHit(r, selected))
  }

  function ShownBy(term: string, selected: seq<Id>): Resource -> bool {
    (r: Resource) => Shown(r, term, selected)
  }

  function SearchBy(term: string): Resource -> bool {
    (r: Resource) => SearchHit(r, term)
  }

  function TagsBy(selected: seq<Id>): Resource -> bool {
    (r: Resource) => TagHit(r, selected)
  }

  /** The resources the page lists, in the loaded order. */
  function Listed(resources: seq<Resource>, term: string, selected: seq<Id>): (r: seq<Resource>)
    ensures forall x :: x in r <==> x in resources && Shown(x, term, selected)
    ensures multiset(r) <= multiset(resources)
    ensures Subsequence(r, resources)
  {
    var l := Filter(resources, ShownBy(term, selected));
    assert forall x :: x in multiset(l) ==> multiset(l)[x] <= multiset(resources)[x];
    l
  }

  /** `filteredAndSortedResources`: the listed resources in the chosen
      order, ties in the loaded order; the loaded list itself is left
      alone. */
  method FilteredAndSorted(resources: seq<Resource>, term: string, selected: seq<Id>, sortBy: ResourceSort)
    returns (result: seq<Resource>)
    ensures multiset(result) == multiset(Listed(resources, term, selected))
    ensures forall r :: r in result <==> r in resources && Shown(r, term, selected)
    ensures SortKey(sortBy).None? ==> result == Listed(resources, term, selected)
    ensures SortKey(sortBy).Some? ==> result == SortDesc(Listed(resources, term, selected), SortKey(sortBy).value)
    ensures SortKey(sortBy).Some? ==> SortedDesc(result, SortKey(sortBy).value)
  {
    result := resources;
    if term != [] {
      result := Filter(result, SearchBy(term));
    }
    if |selected| > 0 {
      result := Filter(result, TagsBy(selected));
    }
    ShownFilters(resources, term, selected);
    var shown := Listed(resources, term, selected);
    assert result == shown;
    var key := SortKey(sortBy);
    if key.Some? {
      SortDescSorted(shown, key.value);
      result := SortDesc(shown, key.value);
    }
    SameMembers(result, shown);
  }

  /** The filters the page applies in turn are the one filter `Shown`. */
  lemma ShownFilters(resources: seq<Resource>, term: string, selected: seq<Id>)
    ensures var searched := if term != [] then Filter(resources, SearchBy(term)) else resources;
            (if |selected| > 0 then Filter(searched, TagsBy(selected)) else searched)
            == Listed(resources, term, selected)
  {
    var p := ShownBy(term, selected);
    if term != [] && |selected| > 0 {
      FilterBoth(resources, SearchBy(term), TagsBy(selected));
      FilterAgree(resources, Both(SearchBy(term), TagsBy(selected)), p);
    } else if term != [] {
      FilterAgree(resources, SearchBy(term), p);
    } else if |selected| > 0 {
      FilterAgree(resources, TagsBy(selected), p);
    } else {
      FilterKeepsAll(resources, p);
    }
  }

  /** Every resource matches the empty term, so the page's test on the term
      only saves work. */
  lemma EmptySearchMatchesAll(r: Resource)
    ensures SearchHit(r, [])
  {
    IncludesEmpty(ToLower(r.title));
  }

  // ---------------------------------------------------------------------
  // Tag selection.
  // ---------------------------------------------------------------------

  function IsId(id: Id): Id -> bool {
    (x: Id) => x == id
  }

  /** `handleTagSelect`: remove the tag if it is selected, add it otherwise. */
  function ToggleTag(selected: seq<Id>, tagId: Id): (r: seq<Id>)
    ensures tagId in selected ==> tagId !in r
    ensures tagId !in selected ==> r == selected + [tagId]
    ensures forall x :: x != tagId ==> (x in r <==> x in selected)
  {
    if tagId in selected then RemoveWhere(selected, IsId(tagId)) else selected + [tagId]
  }

  /** A click on a tag of the picker flips its highlight and leaves the
      highlight of every tag with another id as it was. */
  lemma ToggleFlipsHighlight(selected: seq<Id>, tag: Tag, other: Tag)
    requires other.id != tag.id
    ensures TagPicker.Selected(ToggleTag(selected, tag.id), tag) <==> !TagPicker.Selected(selected, tag)
    ensures TagPicker.Selected(ToggleTag(selected, tag.id), other) <==> TagPicker.Selected(selected, other)
  {
  }

  /** Selecting a tag twice gives back the same selection of tags, and
      exactly the same list when the tag was not selected. */
  lemma ToggleTagTwice(selected: seq<Id>, tagId: Id)
    ensures forall x :: x in ToggleTag(ToggleTag(selected, tagId), tagId) <==> x in selected
    ensures tagId !in selected ==> ToggleTag(ToggleTag(selected, tagId), tagId) == selected
  {
    if tagId !in selected {
      RemoveWhereAppend(selected, [tagId], IsId(tagId));
      RemoveWhereNone(selected, IsId(tagId));
      RemoveWhereCons(tagId, [], IsId(tagId));
      assert RemoveWhere([], IsId(tagId)) == [];
      assert [tagId] + [] == [tagId];
    }
  }

  // ---------------------------------------------------------------------
  // The form that proposes a resource.
  // ---------------------------------------------------------------------

  datatype ResourceForm = ResourceForm(
    title: string, description: string, url: string, kind: string, selectedTags: seq<Id>)

  const EmptyForm := ResourceForm("", "", "", "article", [])

  /** What the page asks the store to create. */
  datatype ResourceRequest = ResourceRequest(
    title: string, description: string, url: string, kind: string, tagIds: seq<Id>)

  const TitleRequired := "Le titre est requis"
  const UrlRequired := "L'URL est requise"
  const KindRequired := "Le type est requis"

  /** The form's checks, in order. */
  function FormProblem(f: ResourceForm): (r: Option<string>)
    ensures r == None <==> f.title != "" && f.url != "" && f.kind != ""
    ensures r == Some(TitleRequired) <==> f.title == ""
    ensures r == Some(UrlRequired) <==> f.title != "" && f.url == ""
    ensures r == Some(KindRequired) <==> f.title != "" && f.url != "" && f.kind == ""
  {
    if f.title == "" then Some(TitleRequired)
    else if f.url == "" then Some(UrlRequired)
    else if f.kind == "" then Some(KindRequired)
    else None
  }

  class Page {
    var selectedTags: seq<Id>
    var showAddResource: bool
    var newResource: ResourceForm
    var formError: string

    constructor ()
      ensures selectedTags == [] && !showAddResource && newResource == EmptyForm && formError == ""
    {
      selectedTags := [];
      showAddResource := false;
      newResource := EmptyForm;
      formError := "";
    }

    method HandleTagSelect(tagId: Id)
      modifies this
      ensures selectedTags == ToggleTag(old(selectedTags), tagId)
      ensures newResource == old(newResource) && showAddResource == old(showAddResource)
      ensures formError == old(formError)
    {
      selectedTags := ToggleTag(selectedTags, tagId);
    }

    /** `handleAddResource`: the first failing check is reported and nothing
        is sent; otherwise the resource is sent and, once created, the form
        is closed and emptied. */
    method HandleAddResource(reply: Remote<()>) returns (request: Option<ResourceRequest>)
      modifies this
      ensures selectedTags == old(selectedTags)
      ensures request.None? <==> FormProblem(old(newResource)).Some?
      ensures request.None? ==> formError == FormProblem(old(newResource)).value
      ensures request.None? ==> newResource == old(newResource) && showAddResource == old(showAddResource)
      ensures request.Some? ==> request.value == ResourceRequest(old(newResource).title, old(newResource).description,
                                  old(newResource).url, old(newResource).kind, old(newResource).selectedTags)
      ensures request.Some? && reply.Ok? ==> newResource == EmptyForm && !showAddResource && formError == ""
      ensures request.Some? && reply.Fail? ==> newResource == old(newResource) && showAddResource == old(showAddResource)
      ensures request.Some? && reply.Fail? ==> formError == Message(reply.thrown, "Une erreur est survenue")
    {
      formError := "";
      var problem := FormProblem(newResource);
      if problem.Some? {
        formError := problem.value;
        return None;
      }
      request := Some(ResourceRequest(newResource.title, newResource.description, newResource.url,
                                      newResource.kind, newResource.selectedTags));
      match reply {
        case Ok(_) =>
          showAddResource := false;
          newResource := EmptyForm;
        case Fail(t) =>
          formError := Message(t, "Une erreur est survenue");
      }
    }
  }
}

=== FILE: scoring.dfy ===
/** The quiz score, shared by the quiz store's `submitAttempt` and the quiz
    player: the number of questions whose recorded answer equals the
    expected one, as a percentage rounded to the nearest integer. */
module Scoring {
  import opened Wrappers
  import opened Seqs
  import opened Entities

  /** `answers[q.id] === q.correct_answer`: a missing answer is never right. */
  predicate IsCorrect(answers: map<Id, string>, q: Question) {
    q.id in answers && answers[q.id] == q.correctAnswer
  }

  function CorrectIn(answers: map<Id, string>): Question -> bool {
    (q: Question) => IsCorrect(answers, q)
  }

  /** The number of correctly answered questions. */
  function CorrectCount(answers: map<Id, string>, qs: seq<Question>): (c: nat)
    ensures c <= |qs|
    ensures c == |qs| <==> forall i :: 0 <= i < |qs| ==> IsCorrect(answers, qs[i])
    ensures c == 0 <==> forall i :: 0 <= i < |qs| ==> !IsCorrect(answers, qs[i])
    decreases |qs|
  {
    if qs == [] then 0
    else
      var init := qs[..|qs| - 1];
      var c := CorrectCount(answers, init) + (if IsCorrect(answers, qs[|qs| - 1]) then 1 else 0);
      assert forall i :: 0 <= i < |init| ==> init[i] == qs[i];
      c
  }

  /** The `forEach` loop that counts the correct answers. */
  method CountCorrect(answers: map<Id, string>, qs: seq<Question>) returns (correct: nat)
    ensures correct == CorrectCount(answers, qs)
  {
    correct := 0;
    var i := 0;
    while i < |qs|
      invariant 0 <= i <= |qs|
      invariant correct == CorrectCount(answers, qs[..i])
    {
      assert qs[..i + 1][..i] == qs[..i] && qs[..i + 1][i] == qs[i];
      if qs[i].id in answers && answers[qs[i].id] == qs[i].correctAnswer {
        correct := correct + 1;
      }
      i := i + 1;
    }
    assert qs[..|qs|] == qs;
  }

  /** The count shown under the score, `questions.filter(correct).length`, is
      the numerator of the score. */
  lemma {:induction false} DisplayedCount(answers: map<Id, string>, qs: seq<Question>)
    ensures |Filter(qs, CorrectIn(answers))| == CorrectCount(answers, qs)
    decreases |qs|
  {
    if qs != [] {
      var init := qs[..|qs| - 1];
      assert qs == init + [qs[|qs| - 1]];
      FilterSnoc(init, qs[|qs| - 1], CorrectIn(answers));
      DisplayedCount(answers, init);
    }
  }

  /** Answers recorded under an id that no question has do not count. */
  lemma {:induction false} OtherAnswersIgnored(answers: map<Id, string>, qs: seq<Question>, k: Id, v: string)
    requires forall i :: 0 <= i < |qs| ==> qs[i].id != k
    ensures CorrectCount(answers[k := v], qs) == CorrectCount(answers, qs)
    ensures CorrectCount(answers - {k}, qs) == CorrectCount(answers, qs)
    decreases |qs|
  {
    if qs != [] {
      OtherAnswersIgnored(answers, qs[..|qs| - 1], k, v);
    }
  }

  /** `Math.round((correct / n) * 100)`: the integer nearest to 100·correct/n,
      halves rounded up; no number at all (NaN) when there is no question. */
  function RoundedPercent(correct: nat, n: nat): (r: Option<int>)
    ensures n == 0 <==> r.None?
    ensures r.Some? ==> 2 * n * r.value <= 200 * correct + n < 2 * n * (r.value + 1)
  {
    if n == 0 then None
    else
      var q := (200 * correct + n) / (2 * n);
      Some(q)
  }

  /** With at most n correct answers the score is a percentage; it is 100
      when every answer is right and 0 when none is.  (The converse fails from
      200 questions on: 199 right out of 200 also rounds to 100.) */
  lemma PercentBounds(correct: nat, n: nat)
    requires 0 < n && correct <= n
    ensures 0 <= RoundedPercent(correct, n).value <= 100
    ensures correct == n ==> RoundedPercent(correct, n).value == 100
    ensures correct == 0 ==> RoundedPercent(correct, n).value == 0
  {
    var r := RoundedPercent(correct, n).value;
    var m := 2 * n;
    assert m * r <= 200 * correct + n < m * (r + 1);
    MulLe(200, correct, n);
    assert m * r < m * 101;
    MulLtCancel(m, r, 101);
    assert m * 0 < m * (r + 1);
    MulLtCancel(m, 0, r + 1);
    if correct == n {
      assert m * 100 < m * (r + 1);
      MulLtCancel(m, 100, r + 1);
    }
    if correct == 0 {
      assert m * r < m * 1;
      MulLtCancel(m, r, 1);
    }
  }

  lemma MulLe(a: nat, b: int, c: int)
    requires b <= c
    ensures a * b <= a * c
  {
  }

  lemma MulLtCancel(a: nat, b: int, c: int)
    requires 0 < a && a * b < a * c
    ensures b < c
  {
    if c <= b {
      MulLe(a, c, b);
    }
  }

  /** Below 200 questions, a score of 100 means every answer is right. */
  lemma FullMarksExact(correct: nat, n: nat)
    requires 0 < n < 200 && correct <= n
    ensures RoundedPercent(correct, n).value == 100 <==> correct == n
  {
    PercentBounds(correct, n);
    if correct < n {
      assert 200 * correct + n <= 200 * n - 200 + n;
      assert 200 * n - 200 + n < 200 * n;
    }
  }

  /** From 200 questions on, one wrong answer can still round to 100. */
  lemma FullMarksWithAMistake()
    ensures RoundedPercent(199, 200) == Some(100)
  {
  }

  /** More correct answers never give a lower score. */
  lemma PercentMonotone(c1: nat, c2: nat, n: nat)
    requires 0 < n && c1 <= c2
    ensures RoundedPercent(c1, n).value <= RoundedPercent(c2, n).value
  {
    var r1 := RoundedPercent(c1, n).value;
    var r2 := RoundedPercent(c2, n).value;
    if r1 > r2 {
      assert 2 * n * (r2 + 1) <= 2 * n * r1 by { MulLe(2 * n, r2 + 1, r1); }
    }
  }

  /** The score of a set of answers on a list of questions. */
  function Score(answers: map<Id, string>, qs: seq<Question>): Option<int> {
    RoundedPercent(CorrectCount(answers, qs), |qs|)
  }
}

=== FILE: seqs.dfy ===
/** Sequence operations that the stores and pages apply to their lists:
    `filter`, `map` over matching elements, `splice`, `includes`,
    `toLowerCase` and a stable sort. */
module Seqs {
  import opened Wrappers

  /** `s` is obtained from `t` by deleting elements: order is preserved. */
  ghost predicate Subsequence<T(!new)>(s: seq<T>, t: seq<T>)
    decreases |t|
  {
    s == [] || (t != [] && ((s[0] == t[0] && Subsequence(s[1..], t[1..])) || Subsequence(s, t[1..])))
  }

  /** `Array.prototype.filter`. */
  function Filter<T(!new)>(s: seq<T>, p: T -> bool): (r: seq<T>)
    ensures |r| <= |s|
    ensures forall x :: x in r <==> x in s && p(x)
    ensures forall x :: p(x) ==> multiset(r)[x] == multiset(s)[x]
    ensures forall x :: !p(x) ==> multiset(r)[x] == 0
    ensures Subsequence(r, s)
    decreases |s|
  {
    if s == [] then []
    else
      var rest := Filter(s[1..], p);
      assert s == [s[0]] + s[1..];
      assert multiset(s) == multiset{s[0]} + multiset(s[1..]);
      if p(s[0]) then [s[0]] + rest else rest
  }

  lemma {:induction false} FilterAppend<T(!new)>(a: seq<T>, b: seq<T>, p: T -> bool)
    ensures Filter(a + b, p) == Filter(a, p) + Filter(b, p)
    decreases |a|
  {
    if a == [] {
      assert a + b == b;
    } else {
      assert (a + b)[1..] == a[1..] + b;
      FilterAppend(a[1..], b, p);
    }
  }

  lemma FilterCons<T(!new)>(a: T, t: seq<T>, p: T -> bool)
    ensures Filter([a] + t, p) == (if p(a) then [a] else []) + Filter(t, p)
  {
    assert ([a] + t)[1..] == t;
  }

  lemma FilterSnoc<T(!new)>(s: seq<T>, x: T, p: T -> bool)
    ensures Filter(s + [x], p) == Filter(s, p) + (if p(x) then [x] else [])
  {
    FilterAppend(s, [x], p);
    FilterCons(x, [], p);
    assert [x] + [] == [x];
  }

  /** Filtering twice by the same predicate changes nothing more. */
  lemma {:induction false} FilterIdempotent<T(!new)>(s: seq<T>, p: T -> bool)
    ensures Filter(Filter(s, p), p) == Filter(s, p)
    decreases |s|
  {
    if s != [] {
      FilterIdempotent(s[1..], p);
    }
  }

  /** Filtering by two predicates, as one predicate. */
  function Both<T>(p: T -> bool, q: T -> bool): T -> bool {
    x => p(x) && q(x)
  }

  /** Two filters in a row are one filter by both predicates. */
  lemma {:induction false} FilterBoth<T(!new)>(s: seq<T>, p: T -> bool, q: T -> bool)
    ensures Filter(Filter(s, p), q) == Filter(s, Both(p, q))
    decreases |s|
  {
    if s != [] {
      var x, t := s[0], s[1..];
      assert s == [x] + t;
      FilterBoth(t, p, q);
      FilterCons(x, t, p);
      FilterCons(x, t, Both(p, q));
      assert Both(p, q)(x) == (p(x) && q(x));
      if p(x) {
        FilterCons(x, Filter(t, p), q);
      }
    }
  }

  /** Only the predicate's values on the list's own elements matter. */
  lemma {:induction false} FilterAgree<T(!new)>(s: seq<T>, p: T -> bool, q: T -> bool)
    requires forall i :: 0 <= i < |s| ==> p(s[i]) == q(s[i])
    ensures Filter(s, p) == Filter(s, q)
    decreases |s|
  {
    if s != [] {
      FilterAgree(s[1..], p, q);
    }
  }

  /** The predicate "has key k", as one term so that it can be compared. */
  function Having<T, K(==)>(key: T -> K, k: K): T -> bool {
    x => key(x) == k
  }

  /** `s.map(x => matches(x) ? f(x) : x)`: the update-by-id of every store. */
  function UpdateWhere<T(!new)>(s: seq<T>, matches: T -> bool, f: T -> T): (r: seq<T>)
    ensures |r| == |s|
    ensures forall i :: 0 <= i < |s| && !matches(s[i]) ==> r[i] == s[i]
    ensures forall i :: 0 <= i < |s| && matches(s[i]) ==> r[i] == f(s[i])
  {
    seq(|s|, i requires 0 <= i < |s| => if matches(s[i]) then f(s[i]) else s[i])
  }

  /** `s.filter(x => !matches(x))`: the delete-by-id of every store.  Nothing
      that matches is left, everything else is kept as often as it was and
      in the same order. */
  function RemoveWhere<T(!new)>(s: seq<T>, matches: T -> bool): (r: seq<T>)
    ensures forall x :: x in r <==> x in s && !matches(x)
    ensures forall x :: !matches(x) ==> multiset(r)[x] == multiset(s)[x]
    ensures Subsequence(r, s)
  {
    Filter(s, x => !matches(x))
  }

  /** `current?.id === id ? { ...current, ...patch } : current`: the open
      row after an update-by-id, changed exactly when it matches. */
  function UpdateIf<T>(current: Option<T>, matches: T -> bool, f: T -> T): (r: Option<T>)
    ensures r.Some? <==> current.Some?
    ensures current.Some? && matches(current.value) ==> r == Some(f(current.value))
    ensures current.Some? && !matches(current.value) ==> r == current
  {
    if current.Some? && matches(current.value) then Some(f(current.value)) else current
  }

  /** `current?.id === id ? null : current`: the open row after a
      delete-by-id, closed exactly when it matches. */
  function ClearIf<T>(current: Option<T>, matches: T -> bool): (r: Option<T>)
    ensures r.None? <==> current.None? || matches(current.value)
    ensures r.Some? ==> r == current
  {
    if current.Some? && matches(current.value) then None else current
  }

  /** The open row follows its list: when it is one of the rows, after an
      update it is still one of them, and after a delete it is open exactly
      when it is still listed. */
  lemma OpenRowFollowsList<T(!new)>(s: seq<T>, c: T, matches: T -> bool, f: T -> T)
    requires c in s
    ensures UpdateIf(Some(c), matches, f).value in UpdateWhere(s, matches, f)
    ensures ClearIf(Some(c), matches).Some? <==> c in RemoveWhere(s, matches)
  {
    var i :| 0 <= i < |s| && s[i] == c;
    assert UpdateWhere(s, matches, f)[i] == UpdateIf(Some(c), matches, f).value;
  }

  /** One more element of a prefix. */
  lemma PrefixSnoc<T>(s: seq<T>, i: nat)
    requires i < |s|
    ensures s[..i + 1] == s[..i] + [s[i]]
  {
  }

  /** A filter that every element passes keeps the list as it is. */
  lemma {:induction false} FilterKeepsAll<T(!new)>(s: seq<T>, p: T -> bool)
    requires forall i :: 0 <= i < |s| ==> p(s[i])
    ensures Filter(s, p) == s
    decreases |s|
  {
    if s != [] {
      FilterKeepsAll(s[1..], p);
      assert s == [s[0]] + s[1..];
    }
  }

  /** Two lists with the same elements counted with multiplicity have the
      same members. */
  lemma SameMembers<T>(a: seq<T>, b: seq<T>)
    requires multiset(a) == multiset(b)
    ensures forall x :: x in a <==> x in b
  {
    forall x ensures x in a <==> x in b {
      assert x in a <==> x in multiset(a);
      assert x in b <==> x in multiset(b);
    }
  }

  /** A filter and the matching delete split the list: every element lands
      on exactly one side, as often as it occurs. */
  lemma FilterPartition<T(!new)>(s: seq<T>, p: T -> bool)
    ensures multiset(Filter(s, p)) + multiset(RemoveWhere(s, p)) == multiset(s)
    ensures |Filter(s, p)| + |RemoveWhere(s, p)| == |s|
  {
    var a := Filter(s, p);
    var b := RemoveWhere(s, p);
    forall x ensures (multiset(a) + multiset(b))[x] == multiset(s)[x] {
      if p(x) {
        assert multiset(b)[x] == 0 by {
          assert x !in b;
        }
      } else {
        assert multiset(a)[x] == 0;
      }
    }
    assert multiset(a) + multiset(b) == multiset(s);
    assert |multiset(a)| + |multiset(b)| == |multiset(s)|;
  }

  lemma RemoveWhereCons<T(!new)>(a: T, t: seq<T>, matches: T -> bool)
    ensures RemoveWhere([a] + t, matches) == (if matches(a) then [] else [a]) + RemoveWhere(t, matches)
  {
    FilterCons(a, t, x => !matches(x));
  }

  lemma RemoveWhereAppend<T(!new)>(a: seq<T>, b: seq<T>, matches: T -> bool)
    ensures RemoveWhere(a + b, matches) == RemoveWhere(a, matches) + RemoveWhere(b, matches)
  {
    FilterAppend(a, b, x => !matches(x));
  }

  /** Updating and then deleting the same elements is just deleting them,
      provided the update keeps them matching. */
  lemma {:induction false} RemoveAfterUpdate<T(!new)>(s: seq<T>, matches: T -> bool, f: T -> T)
    requires forall x :: matches(x) ==> matches(f(x))
    ensures RemoveWhere(UpdateWhere(s, matches, f), matches) == RemoveWhere(s, matches)
    decreases |s|
  {
    if s != [] {
      var u := UpdateWhere(s, matches, f);
      assert u[1..] == UpdateWhere(s[1..], matches, f);
      RemoveAfterUpdate(s[1..], matches, f);
    }
  }

  /** Deleting the same elements twice deletes nothing more. */
  lemma RemoveWhereIdempotent<T(!new)>(s: seq<T>, matches: T -> bool)
    ensures RemoveWhere(RemoveWhere(s, matches), matches) == RemoveWhere(s, matches)
  {
    FilterIdempotent(s, x => !matches(x));
  }

  /** Applying the same update twice is applying it once, for an update that
      is itself idempotent and keeps the elements matching. */
  lemma UpdateWhereTwice<T(!new)>(s: seq<T>, matches: T -> bool, f: T -> T)
    requires forall x :: matches(x) ==> matches(f(x)) && f(f(x)) == f(x)
    ensures UpdateWhere(UpdateWhere(s, matches, f), matches, f) == UpdateWhere(s, matches, f)
  {
  }

  /** Deleting elements that are not there changes nothing. */
  lemma {:induction false} RemoveWhereNone<T(!new)>(s: seq<T>, matches: T -> bool)
    requires forall i :: 0 <= i < |s| ==> !matches(s[i])
    ensures RemoveWhere(s, matches) == s
    decreases |s|
  {
    if s != [] {
      assert s == [s[0]] + s[1..];
      RemoveWhereCons(s[0], s[1..], matches);
      RemoveWhereNone(s[1..], matches);
    }
  }

  /** `splice(i, 1)` on a copy. */
  function RemoveAt<T(!new)>(s: seq<T>, i: nat): (r: seq<T>)
    requires i < |s|
    ensures |r| == |s| - 1
    ensures multiset(r) + multiset{s[i]} == multiset(s)
  {
    assert s == s[..i] + [s[i]] + s[i + 1..];
    s[..i] + s[i + 1..]
  }

  /** `splice(i, 0, x)` on a copy, for a position inside the list or at its end. */
  function InsertAt<T(!new)>(s: seq<T>, i: nat, x: T): (r: seq<T>)
    requires i <= |s|
    ensures |r| == |s| + 1 && r[i] == x
    ensures multiset(r) == multiset(s) + multiset{x}
  {
    assert s == s[..i] + s[i..];
    s[..i] + [x] + s[i..]
  }

  /** Removing what was just inserted gives the list back. */
  lemma RemoveInserted<T(!new)>(s: seq<T>, i: nat, x: T)
    requires i <= |s|
    ensures RemoveAt(InsertAt(s, i, x), i) == s
  {
    var t := InsertAt(s, i, x);
    assert t[..i] == s[..i];
    assert t[i + 1..] == s[i..];
    assert s == s[..i] + s[i..];
  }

  /** Re-inserting a removed element where it was gives the list back. */
  lemma InsertRemoved<T(!new)>(s: seq<T>, i: nat)
    requires i < |s|
    ensures InsertAt(RemoveAt(s, i), i, s[i]) == s
  {
    var r := RemoveAt(s, i);
    assert r[..i] == s[..i];
    assert r[i..] == s[i + 1..];
    assert s == s[..i] + [s[i]] + s[i + 1..];
  }

  /** The drag-and-drop move: take the element at `src` out and put it back at `dst`. */
  function Move<T(!new)>(s: seq<T>, src: nat, dst: nat): (r: seq<T>)
    requires src < |s| && dst < |s|
    ensures |r| == |s| && r[dst] == s[src]
    ensures multiset(r) == multiset(s)
  {
    InsertAt(RemoveAt(s, src), dst, s[src])
  }

  /** A move is undone by the opposite move. */
  lemma MoveBack<T(!new)>(s: seq<T>, src: nat, dst: nat)
    requires src < |s| && dst < |s|
    ensures Move(Move(s, src, dst), dst, src) == s
  {
    var m := Move(s, src, dst);
    RemoveInserted(RemoveAt(s, src), dst, s[src]);
    assert RemoveAt(m, dst) == RemoveAt(s, src);
    InsertRemoved(s, src);
  }

  /** The elements between the two positions shift by one and the rest stay. */
  lemma MoveAt<T(!new)>(s: seq<T>, src: nat, dst: nat, k: nat)
    requires src < |s| && dst < |s| && k < |s|
    ensures k < src && k < dst ==> Move(s, src, dst)[k] == s[k]
    ensures k > src && k > dst ==> Move(s, src, dst)[k] == s[k]
    ensures src < dst && src <= k < dst ==> Move(s, src, dst)[k] == s[k + 1]
    ensures dst < src && dst < k <= src ==> Move(s, src, dst)[k] == s[k - 1]
  {
  }

  /** `String.prototype.includes`: `sub` occurs in `s` as a contiguous block. */
  predicate Includes(s: string, sub: string)
    decreases |s|
  {
    sub <= s || (s != [] && Includes(s[1..], sub))
  }

  lemma {:induction false} IncludesEmpty(s: string)
    ensures Includes(s, "")
  {
  }

  lemma {:induction false} IncludesWitness(s: string, sub: string, i: nat)
    requires i + |sub| <= |s| && s[i..i + |sub|] == sub
    ensures Includes(s, sub)
    decreases i
  {
    if i == 0 {
      assert sub <= s;
    } else {
      assert s[1..][i - 1..i - 1 + |sub|] == s[i..i + |sub|];
      IncludesWitness(s[1..], sub, i - 1);
    }
  }

  /** `toLowerCase` on the ASCII range; every other character is kept. */
  function LowerChar(c: char): char {
    if 'A' <= c <= 'Z' then (c as int + 32) as char else c
  }

  function ToLower(s: string): (r: string)
    ensures |r| == |s|
    ensures forall i :: 0 <= i < |s| ==> r[i] == LowerChar(s[i])
  {
    seq(|s|, i requires 0 <= i < |s| => LowerChar(s[i]))
  }

  lemma ToLowerIdempotent(s: string)
    ensures ToLower(ToLower(s)) == ToLower(s)
  {
  }

  lemma ToLowerHasNoUpper(s: string)
    ensures forall i :: 0 <= i < |s| ==> !('A' <= ToLower(s)[i] <= 'Z')
  {
  }

  // ---------------------------------------------------------------------
  // Stable sort in descending order of an integer key: what the pages get
  // from `result.sort((a, b) => key(b) - key(a))` (a stable sort).
  // ---------------------------------------------------------------------

  ghost predicate SortedDesc<T(!new)>(s: seq<T>, key: T -> int) {
    forall i, j :: 0 <= i < j < |s| ==> key(s[i]) >= key(s[j])
  }

  /** Puts `x` in front of the first element whose key is not larger, so that
      among equal keys `x` comes first. */
  function InsertDesc<T(!new)>(x: T, s: seq<T>, key: T -> int): (r: seq<T>)
    ensures multiset(r) == multiset(s) + multiset{x}
    decreases |s|
  {
    if s == [] || key(s[0]) <= key(x) then [x] + s
    else
      assert s == [s[0]] + s[1..];
      [s[0]] + InsertDesc(x, s[1..], key)
  }

  lemma {:induction false} InsertDescSorted<T(!new)>(x: T, s: seq<T>, key: T -> int)
    requires SortedDesc(s, key)
    ensures SortedDesc(InsertDesc(x, s, key), key)
    decreases |s|
  {
    if s == [] || key(s[0]) <= key(x) {
    } else {
      var rest := InsertDesc(x, s[1..], key);
      InsertDescSorted(x, s[1..], key);
      assert s == [s[0]] + s[1..];
      forall j | 0 <= j < |rest| ensures key(s[0]) >= key(rest[j]) {
        assert rest[j] in multiset(rest);
        assert rest[j] == x || rest[j] in multiset(s[1..]);
      }
    }
  }

  function SortDesc<T(!new)>(s: seq<T>, key: T -> int): (r: seq<T>)
    ensures multiset(r) == multiset(s)
    decreases |s|
  {
    if s == [] then []
    else
      assert s == [s[0]] + s[1..];
      InsertDesc(s[0], SortDesc(s[1..], key), key)
  }

  /** The sort's result is ordered by decreasing key. */
  lemma {:induction false} SortDescSorted<T(!new)>(s: seq<T>, key: T -> int)
    ensures SortedDesc(SortDesc(s, key), key)
    decreases |s|
  {
    if s != [] {
      SortDescSorted(s[1..], key);
      InsertDescSorted(s[0], SortDesc(s[1..], key), key);
    }
  }

  lemma {:induction false} InsertDescStable<T(!new)>(x: T, s: seq<T>, key: T -> int, v: int)
    ensures Filter(InsertDesc(x, s, key), Having(key, v)) == Filter([x] + s, Having(key, v))
    decreases |s|
  {
    var P := Having(key, v);
    if s == [] || key(s[0]) <= key(x) {
    } else {
      var r' := InsertDesc(x, s[1..], key);
      assert InsertDesc(x, s, key) == [s[0]] + r';
      InsertDescStable(x, s[1..], key, v);
      FilterCons(s[0], r', P);
      FilterCons(x, s[1..], P);
      FilterCons(x, s, P);
      assert s == [s[0]] + s[1..];
      FilterCons(s[0], s[1..], P);
      assert !(P(x) && P(s[0]));
    }
  }

  /** Elements with equal keys keep their input order. */
  lemma {:induction false} SortDescStable<T(!new)>(s: seq<T>, key: T -> int, v: int)
    ensures Filter(SortDesc(s, key), Having(key, v)) == Filter(s, Having(key, v))
    decreases |s|
  {
    if s != [] {
      SortDescStable(s[1..], key, v);
      InsertDescStable(s[0], SortDesc(s[1..], key), key, v);
      assert ([s[0]] + SortDesc(s[1..], key))[1..] == SortDesc(s[1..], key);
    }
  }
}

=== FILE: tag_picker.dfy ===
/** The resource tag picker: the tags split into content types and subjects,
    each shown as selected or not. */
module TagPicker {
  import opened Seqs
  import opened Entities

  /** The tag names that denote a kind of content. */
  const ContentTypeNames: seq<string> := ["article", "video", "podcast", "livre", "outil"]

  predicate IsContentType(t: Tag) {
    t.name in ContentTypeNames
  }

  function ContentTypeTag(): Tag -> bool {
    (t: Tag) => IsContentType(t)
  }

  /** The "Type de contenu" group. */
  function ContentTypes(tags: seq<Tag>): (r: seq<Tag>)
    ensures forall t :: t in r <==> t in tags && t.name in ContentTypeNames
    ensures Subsequence(r, tags)
  {
    Filter(tags, ContentTypeTag())
  }

  /** The "Sujets" group: every other tag. */
  function Subjects(tags: seq<Tag>): (r: seq<Tag>)
    ensures forall t :: t in r <==> t in tags && t.name !in ContentTypeNames
    ensures Subsequence(r, tags)
  {
    RemoveWhere(tags, ContentTypeTag())
  }

  /** Each tag is shown in exactly one group, as many times as it is listed,
      and each group keeps the order of the list. */
  lemma GroupsPartitionTags(tags: seq<Tag>)
    ensures multiset(ContentTypes(tags)) + multiset(Subjects(tags)) == multiset(tags)
    ensures |ContentTypes(tags)| + |Subjects(tags)| == |tags|
    ensures forall t :: t in tags ==> (t in ContentTypes(tags) <==> t !in Subjects(tags))
  {
    FilterPartition(tags, ContentTypeTag());
  }

  /** A tag is highlighted iff its id is among the selected ones. */
  predicate Selected(selectedTags: seq<Id>, tag: Tag) {
    tag.id in selectedTags
  }
}

=== FILE: workflow_store.dfy ===
/** The course review workflow store: the courses waiting for review, which
    an administrator publishes or rejects. */
module WorkflowStore {
  import opened Wrappers
  import opened Seqs
  import opened Entities

  function CourseHasId(id: Id): Course -> bool {
    (c: Course) => c.id == id
  }

  /** The status update each action sends for one course: the rejection
      reason and the publication time are sent only by the action that
      writes them. */
  datatype StatusChange = StatusChange(
    courseId: Id, status: CourseStatus, reason: Option<string>, publishedAt: Option<int>)

  class Store {
    var pendingCourses: seq<Course>
    var loading: bool
    var error: Option<string>

    constructor ()
      ensures pendingCourses == [] && !loading && error == None
    {
      pendingCourses := [];
      loading := false;
      error := None;
    }

    method FetchPendingCourses(reply: Remote<seq<Course>>)
      modifies this
      ensures !loading
      ensures reply.Ok? ==> pendingCourses == reply.value && error == None
      ensures reply.Fail? ==> pendingCourses == old(pendingCourses)
      ensures reply.Fail? ==> error == Some(Message(reply.thrown, GenericError))
    {
      loading, error := true, None;
      match reply {
        case Ok(data) =>
          pendingCourses := data;
        case Fail(thrown) =>
          error := Some(Message(thrown, GenericError));
      }
      loading := false;
    }

    /** `submitForReview`: asks for the pending status; the local list is not
        touched whatever the outcome. */
    method SubmitForReview(courseId: Id, reply: Remote<()>) returns (outcome: Remote<()>, sent: StatusChange)
      modifies this
      ensures !loading && outcome == reply && pendingCourses == old(pendingCourses)
      ensures sent == StatusChange(courseId, Pending, None, None)
      ensures reply.Ok? ==> error == None
      ensures reply.Fail? ==> error == Some(Message(reply.thrown, GenericError))
    {
      loading, error := true, None;
      sent := StatusChange(courseId, Pending, None, None);
      if reply.Fail? {
        error := Some(Message(reply.thrown, GenericError));
      }
      loading := false;
      outcome := reply;
    }

    /** A review decision: on success the course leaves the pending list. */
    method Decide(sent: StatusChange, reply: Remote<()>) returns (outcome: Remote<()>)
      modifies this
      ensures !loading && outcome == reply
      ensures reply.Ok? ==> pendingCourses == RemoveWhere(old(pendingCourses), CourseHasId(sent.courseId))
      ensures reply.Ok? ==> error == None
      ensures reply.Fail? ==> pendingCourses == old(pendingCourses)
      ensures reply.Fail? ==> error == Some(Message(reply.thrown, GenericError))
    {
      loading, error := true, None;
      match reply {
        case Ok(_) =>
          pendingCourses := RemoveWhere(pendingCourses, CourseHasId(sent.courseId));
        case Fail(thrown) =>
          error := Some(Message(thrown, GenericError));
      }
      loading := false;
      outcome := reply;
    }

    /** `approveCourse`: publishes the course, stamped with the time of the
        request; `now` stands for the clock. */
    method ApproveCourse(courseId: Id, now: int, reply: Remote<()>) returns (outcome: Remote<()>, sent: StatusChange)
      modifies this
      ensures !loading && outcome == reply
      ensures sent == StatusChange(courseId, Published, None, Some(now))
      ensures reply.Ok? ==> pendingCourses == RemoveWhere(old(pendingCourses), CourseHasId(courseId))
      ensures reply.Ok? ==> error == None
      ensures reply.Fail? ==> pendingCourses == old(pendingCourses)
      ensures reply.Fail? ==> error == Some(Message(reply.thrown, GenericError))
    {
      sent := StatusChange(courseId, Published, None, Some(now));
      outcome := Decide(sent, reply);
    }

    /** `rejectCourse`: rejects the course, with the reason. */
    method RejectCourse(courseId: Id, reason: string, reply: Remote<()>) returns (outcome: Remote<()>, sent: StatusChange)
      modifies this
      ensures !loading && outcome == reply
      ensures sent == StatusChange(courseId, Rejected, Some(reason), None)
      ensures reply.Ok? ==> pendingCourses == RemoveWhere(old(pendingCourses), CourseHasId(courseId))
      ensures reply.Ok? ==> error == None
      ensures reply.Fail? ==> pendingCourses == old(pendingCourses)
      ensures reply.Fail? ==> error == Some(Message(reply.thrown, GenericError))
    {
      sent := StatusChange(courseId, Rejected, Some(reason), None);
      outcome := Decide(sent, reply);
    }
  }

  /** After a decision no pending course has the id, every other pending
      course is still there in the same order, and deciding again changes
      nothing. */
  lemma DecisionRemovesOnlyTheCourse(pending: seq<Course>, id: Id)
    ensures forall c :: c in RemoveWhere(pending, CourseHasId(id)) ==> c.id != id
    ensures forall c :: c in pending && c.id != id ==> c in RemoveWhere(pending, CourseHasId(id))
    ensures Subsequence(RemoveWhere(pending, CourseHasId(id)), pending)
    ensures RemoveWhere(RemoveWhere(pending, CourseHasId(id)), CourseHasId(id)) == RemoveWhere(pending, CourseHasId(id))
  {
    RemoveWhereIdempotent(pending, CourseHasId(id));
  }
}

=== FILE: wrappers.dfy ===
/** Outcome types shared by every store: an optional value, and the reply of
    the remote data client, which either returns a value or throws. */
module Wrappers {

  datatype Option<+T> = None | Some(value: T) {
    function GetOr(default: T): T {
      match this
      case Some(v) => v
      case None => default
    }
  }

  /** What a `catch` block receives.  The stores distinguish only between an
      `Error` instance, whose `message` they keep, and anything else. */
  datatype Thrown = ErrorInstance(message: string) | NonError

  /** The reply of one remote call: the returned row(s), or a thrown failure. */
  datatype Remote<+T> = Ok(value: T) | Fail(thrown: Thrown)

  /** `error instanceof Error ? error.message : fallback` */
  function Message(t: Thrown, fallback: string): (m: string)
    ensures t.ErrorInstance? ==> m == t.message
    ensures t.NonError? ==> m == fallback
  {
    match t
    case ErrorInstance(msg) => msg
    case NonError => fallback
  }

  /** `data || []` for a re-select whose error is not checked: a missing
      list reads as the empty one. */
  function OrEmpty<T>(data: Option<seq<T>>): (r: seq<T>)
    ensures data.Some? ==> r == data.value
    ensures data.None? ==> r == []
  {
    if data.Some? then data.value else []
  }

  /** The fallback message of the entity stores' catch blocks. */
  const GenericError: string := "An error occurred"
}
